=== FILE: README.md ===
# Pioneer star systems and camera, modelled in Dafny

This project models three pieces of the Pioneer space game.

1. **The camera's frame logic** (`src/Camera.cpp`):
   - the CameraContext lifecycle (attached frame, temporary camera frame);
   - how up to four star lights are picked from the frame tree;
   - the per-frame classification of bodies into rendered models and billboards, and their depth order;
   - the background dimming inside an atmosphere;
   - the eclipse computations: shadows cast by spheres, the covered fraction of a light disc, and the shadows that matter most.
2. **The random star-system generator** (`src/galaxy/StarSystemGenerator.cpp`):
   - the per-star-type tables;
   - star creation and binary pairs;
   - the spacing, weighing and naming of planets and moons in the protoplanetary disc;
   - planetary rings;
   - the planet-type decision (mass classes, radius, volatiles, climate, life, tidal locking);
   - the placement and naming of starports;
   - the economy type of a system and the normalisation of its trade balances.
3. **SystemBody** (`src/galaxy/SystemBody.h`): the body type enums, and the getters and predicates the generator and camera rely on.

`fixed` (32.32 fixed point) is modelled as `real`.
Every draw from a random generator is an explicit input, with the range the generator promises as a precondition: `Int32(n)` lies in [0, n), `Int32(lo, hi)` is inclusive, and `Fixed()` and `NFixed(k)` lie in [0, 1).
A loop that may draw without bound takes a finite stream. It either reports when the stream runs out, or a lemma tells a stop of its own apart from the end of the stream.
The source's `do … while` and `while` loops over random numbers are modelled this way.

Modules (one per file):

- `Support`: Option, clamps, colours, vectors, the libm functions passed in as values, `snprintf("%d")`, and real-arithmetic lemmas.
- `SystemBodyModel`: `src/galaxy/SystemBody.h`.
- `Sorting`: a stable insertion sort, used for `std::list::sort`, plus the "k largest" selection.
- `CameraContextModel`, `CameraLights`, `CameraUpdate`, `Eclipse`: `src/Camera.cpp`.
- `StarTypes`, `StarPairs`, `DiscRules`, `PlanetType`, `PlanetOrbits`, `Stations`, `Economy`: `src/galaxy/StarSystemGenerator.cpp`.

## Model

| member | source | states |
|---|---|---|
| SystemBodyModel.TypeEnumLayout | src/galaxy/SystemBody.h:23-71 | Star types form one contiguous block from brown dwarf to supermassive black hole. The planets follow right after TYPE_STAR_MAX and TYPE_MAX is 41. "type <= TYPE_STAR_MAX" means exactly "gravpoint or star". |
| SystemBodyModel.RadiusNotAboveEquatorial | src/galaxy/SystemBody.h:108-124 | The polar radius never exceeds the equatorial radius when the aspect ratio is at least 1. For planets, and for round stars, the two are equal. |
| SystemBodyModel.MassViews | src/galaxy/SystemBody.h:126-140 | Off-star, GetMass is GetMassInEarths times EARTH_MASS. For stars and gravpoints the views differ: 332998 is not SOL_MASS/EARTH_MASS, so a positive mass read back from earth masses lies strictly between GetMass and 1.0003·GetMass (the factor is 332998·EARTH_MASS/SOL_MASS ≈ 1.00024). Both views are zero together. |
| SystemBodyModel.RotationViewsAgree | src/galaxy/SystemBody.h:141-149 | IsRotating holds exactly when the rotation period in seconds is non-zero. |
| SystemBodyModel.ChildCountViewsAgree | src/galaxy/SystemBody.h:90-91 | HasChildren agrees with GetNumChildren > 0 while the 32-bit cast does not wrap. |
| SystemBodyModel.MoonsAreNotJumpable | src/galaxy/SystemBody.h:85-87 | A moon is never a jump target. Every jumpable body measures in solar units. |
| SystemBodyModel.GetRadius | src/galaxy/SystemBody.h:107-114 | The polar radius in metres: for stars and gravpoints the solar-unit radius divided by the aspect ratio, times SOL_RADIUS; otherwise the radius times EARTH_RADIUS. Its contract is stated by SystemBodyModel.RadiusNotAboveEquatorial. |
| SystemBodyModel.GetEquatorialRadius | src/galaxy/SystemBody.h:116-123 | The equatorial radius in metres, with no aspect-ratio adjustment: SOL_RADIUS or EARTH_RADIUS times the stored radius. Related to GetRadius by SystemBodyModel.RadiusNotAboveEquatorial. |
| SystemBodyModel.GetMass | src/galaxy/SystemBody.h:127-133 | The mass in kg: the stored mass times SOL_MASS for stars and gravpoints, times EARTH_MASS otherwise. Related to GetMassInEarths by SystemBodyModel.MassViews. |
| SystemBodyModel.GetMassInEarths | src/galaxy/SystemBody.h:134-140 | The mass in earth masses: times 332998 in solar units, unchanged otherwise. PlanetOrbits.NewPlanet states that a new planet reads back its own mass. |
| SystemBodyModel.IsRotating | src/galaxy/SystemBody.h:141 | The stored rotation period is non-zero. Related to GetRotationPeriod by SystemBodyModel.RotationViewsAgree. |
| SystemBodyModel.GetRotationPeriod | src/galaxy/SystemBody.h:145-148 | The rotation period in days times 60·60·24, i.e. in seconds. PlanetOrbits.NewPlanet states it for a new planet. |
| SystemBodyModel.HasRotationPhase | src/galaxy/SystemBody.h:149 | The stored phase at start is non-zero. PlanetOrbits.NewPlanet states that a new planet has none. |
| SystemBodyModel.HasRings | src/galaxy/SystemBody.h:194 | The ring band's outer radius is non-zero. PlanetOrbits.NewPlanet, PlanetOrbits.ClearRings and PlanetOrbits.RingsClearedIffOverlap state it. |
| SystemBodyModel.IsJumpable | src/galaxy/SystemBody.h:86-87 | The body's supertype is SUPERTYPE_STAR. Stated by SystemBodyModel.MoonsAreNotJumpable. |
| SystemBodyModel.IsMoon | src/galaxy/SystemBody.h:85 | A rocky body that is not a planet. Stated by SystemBodyModel.MoonsAreNotJumpable and PlanetOrbits.NewPlanet. |
| SystemBodyModel.HasChildren | src/galaxy/SystemBody.h:90 | The child list is not empty. Related to GetNumChildren by SystemBodyModel.ChildCountViewsAgree. |
| SystemBodyModel.GetNumChildren | src/galaxy/SystemBody.h:91 | The child count cast to Uint32, i.e. modulo 2^32. Stated by SystemBodyModel.ChildCountViewsAgree. |
| CameraContextModel.NewCameraContext | src/Camera.cpp:26-38 | A new context holds the given projection parameters and has no frame attached. |
| CameraContextModel.BeginFrame | src/Camera.cpp:46-62 | Begins only with an attached frame and no active camera frame. It registers exactly one new frame: under the attached frame, at the camera's pose, flagged as a camera frame. Nothing else in the registry changes. |
| CameraContextModel.EndFrame | src/Camera.cpp:64-72 | Ends only an active camera frame. It removes exactly that frame and leaves the context ready to begin again. |
| CameraContextModel.Teardown | src/Camera.cpp:40-44 | The destructor ends a still-active frame and otherwise changes nothing. |
| CameraContextModel.BeginEndRestores | src/Camera.cpp:46-72 | BeginFrame followed by EndFrame restores the context and the frame registry exactly. |
| CameraContextModel.BeginFrameNotReentrant | src/Camera.cpp:48-49 | A second BeginFrame without an EndFrame violates the asserted precondition. |
| CameraContextModel.TeardownAfterBeginRestores | src/Camera.cpp:40-62 | Destroying a context mid-frame leaves the registry as it was before BeginFrame. |
| Sorting.SortSorted | src/Camera.cpp:212-213 | The list sort orders any strict weak order. |
| Sorting.SortStable | src/Camera.cpp:212-213 | The list sort is stable: for every equivalence class, the elements keep their relative order. |
| Sorting.LargestAreLargest | src/Camera.cpp:409-414 | The first n of a descending sort are in descending order. None of them is below an element left out. |
| Sorting.Sort | src/Camera.cpp:212-213 | The sort returns a permutation of its input, of the same length. Ordering and stability are stated by Sorting.SortSorted and Sorting.SortStable. |
| Sorting.Largest | src/Camera.cpp:409-414 | The first k of a descending sort: exactly k elements, a sub-multiset of the input. Stated further by Sorting.LargestAreLargest. |
| CameraUpdate.DrawBefore | src/Camera.cpp:81-97 | sort_BodyAttrs: draw-last entries go after the others, and within a group the farther entry goes first. Stated by CameraUpdate.DrawBeforeIsStrictWeakOrder and CameraUpdate.DrawBeforeEquivalence. |
| CameraUpdate.DrawBeforeIsStrictWeakOrder | src/Camera.cpp:81-97 | sort_BodyAttrs is irreflexive, transitive, and has transitive incomparability, as std::list::sort requires. |
| CameraUpdate.DrawBeforeEquivalence | src/Camera.cpp:81-97 | Two entries tie exactly when they agree on the draw-last flag and on distance. |
| CameraUpdate.PixelSize | src/Camera.cpp:172-173 | The on-screen diameter times camDist·fovFactor equals height·2·rad. A zero divisor gives an IEEE infinity or NaN, not a number. |
| CameraUpdate.BillboardSize | src/Camera.cpp:185-186 | Billboards are at least one pixel. A finite pixel size of at least 1 is kept. |
| CameraUpdate.BillboardColor | src/Camera.cpp:187-203 | The alpha is always 255. A star keeps its own colour. Without lights, every body keeps its base colour. |
| CameraUpdate.Classify | src/Camera.cpp:148-210 | A body is listed iff it is not excluded, is in the frustum, and is terrain or at least 2 pixels wide. It is a billboard iff it is terrain and under 8 pixels. Billboards are at least 1 pixel and opaque. |
| CameraUpdate.Update | src/Camera.cpp:142-214 | The sorted list is a permutation of the classified bodies. |
| CameraUpdate.Collect | src/Camera.cpp:148-210 | The entries Update keeps, in the space's order: at most one per body. Stated by CameraUpdate.CollectIsVisible. |
| CameraUpdate.CollectIsVisible | src/Camera.cpp:148-210 | Every listed entry comes from a visible body, and every visible body is listed. |
| CameraUpdate.UpdateDrawOrder | src/Camera.cpp:81-97 | After Update, draw-last entries come after all others. Within each group, farther entries come first. |
| CameraUpdate.UpdateListsVisible | src/Camera.cpp:142-214 | A visible body appears in the list. A body with no visible record does not. |
| CameraUpdate.UpdateStable | src/Camera.cpp:212-213 | Entries that tie in the order keep their space order. |
| CameraUpdate.DrawPass | src/Camera.cpp:286-298 | Draw issues at most one command per entry. Without an excluded body it issues one per entry. The excluded body is never rendered. |
| CameraUpdate.DrawPassCount | src/Camera.cpp:289-291 | The commands issued number the entries minus those of the excluded body. |
| CameraLights.Take | src/Camera.cpp:119 | Taking n from a list yields min(n, length) elements. |
| CameraLights.TakeConcat | src/Camera.cpp:119 | Taking from two lists in turn equals taking from their concatenation. |
| CameraLights.Walk | src/Camera.cpp:116-140 | position_system_lights: a depth-first walk that adds the light of each non-rotating star frame and stops once four lights are held. Stated by CameraLights.WalkTakesFirstStars. |
| CameraLights.WalkKids | src/Camera.cpp:136-139 | The walk over a frame's children, in child order, threading the lights found so far. Stated by CameraLights.WalkKidsTakesFirstStars. |
| CameraLights.WalkTakesFirstStars | src/Camera.cpp:116-140 | The depth-first walk adds exactly the first light frames in pre-order until four lights are held. |
| CameraLights.WalkKidsTakesFirstStars | src/Camera.cpp:136-139 | The walk over a frame's children takes the first eligible lights in child order. |
| CameraLights.EligibleAreStars | src/Camera.cpp:121-134 | Every light found comes from a non-rotating frame of a star. |
| CameraLights.EligibleKidsAreStars | src/Camera.cpp:121-139 | The same, for a frame's children. |
| CameraLights.DrawLights | src/Camera.cpp:232-241 | Draw uses 1 to 4 lights. It uses the white fallback light exactly when no star frame exists, and otherwise the first four star lights in walk order. |
| CameraLights.BackgroundIntensity | src/Camera.cpp:243-271 | The background intensity is a fraction. It is 1 unless the camera sits in the rotating frame of a planet with pressure of at least 0.001. |
| CameraLights.BackgroundVanishesInDenseAir | src/Camera.cpp:255-268 | In dense, well-lit air the background vanishes completely. |
| Eclipse.ShadowFor | src/Camera.cpp:318-358 | A shadow is recorded iff the body is in between, the target has a radius, the occluder's radius is at least 1% of the light's projected radius, and the projected centre lies close enough to overlap the light disc (Eclipse.Occludes). A recorded shadow has that projected centre and those two radii. Its light radius is never negative, and it is 0 exactly for a light of radius 0: then srad / lrad is an infinity or NaN, the 1% skip does not fire, and the shadow is recorded as the source records it. A target of radius 0 gets no shadow. |
| Eclipse.Negligible | src/Camera.cpp:348-351 | The 1% skip `srad / lrad < 0.01` fires exactly when srad < 0.01·lrad. For lrad = 0 the IEEE quotient is an infinity or NaN, and the skip fires only for a negative srad. |
| Eclipse.CalcShadows | src/Camera.cpp:308-360 | Without a light there are no shadows. There is at most one shadow per body, and every shadow is well formed. Every shadow has a positive light radius iff the light has a positive radius. The converse is Eclipse.CalcShadowsKeeps. |
| Eclipse.ShadowsComeFromOccluders | src/Camera.cpp:326-359 | Each shadow is the one computed for some candidate body lying between the target and the light. |
| Eclipse.CalcShadowsAppend | src/Camera.cpp:326-359 | The shadow list is computed body by body, in body order. |
| Eclipse.NonOccluderAddsNothing | src/Camera.cpp:327-336 | A body that is the target, the light, not a planet or star, or not in between, casts no shadow. |
| Eclipse.CalcShadowsKeeps | src/Camera.cpp:326-359 | Every shadow a candidate body casts is in the list: nothing ShadowFor computes is dropped. |
| Eclipse.OccluderCastsShadow | src/Camera.cpp:326-359 | A candidate body that meets the occlusion tests has its projected shadow in the list. |
| Eclipse.DiscXl | src/Camera.cpp:373 | The cosine argument for the light's disc is clamped to [-1, 1]. |
| Eclipse.DiscXs | src/Camera.cpp:374 | The cosine argument for the occluder's disc is clamped to [-1, 1]. |
| Eclipse.DiscCovered | src/Camera.cpp:362-385 | The covered fraction of the light disc lies in [0, 1]. |
| Eclipse.DiscApartXl | src/Camera.cpp:373 | For discs that do not intersect, the light-side cosine is exactly 1. |
| Eclipse.DiscApartResidue | src/Camera.cpp:362-385 | For discs that do not intersect, at most rad² is reported as covered. |
| Eclipse.DiscApartUncovered | src/Camera.cpp:362-385 | For discs that do not intersect, nothing is covered once the divisor floor of 0.001 is inactive. |
| Eclipse.DiscTinyOccluderLeaks | src/Camera.cpp:373-374 | With the floor active, a tiny occluder just touching the disc is reported as covering a positive fraction. |
| Eclipse.CoverageSaturates | src/Camera.cpp:377-384 | For a concentric occluder (distance 0) with rad² >= 1, angles that together reach half a turn make the clamped coverage exactly 1. |
| Eclipse.ConcentricCosines | src/Camera.cpp:373-374 | For concentric discs with rad >= 1, the two cosines have the signs the formula expects. |
| Eclipse.DiscConcentricCovers | src/Camera.cpp:362-385 | A concentric occluder at least as large as the light covers it completely. |
| Eclipse.DiscConcentricDims | src/Camera.cpp:362-385 | A concentric occluder of any positive size covers a positive fraction of the light disc. |
| Eclipse.Transmit | src/Camera.cpp:389-398 | Each shadow lets through a fraction of the light. |
| Eclipse.Factors | src/Camera.cpp:389-398 | There is one transmission fraction per shadow. |
| Eclipse.Product | src/Camera.cpp:394-396 | The product of fractions is a fraction. The empty product is 1. |
| Eclipse.ProductAppend | src/Camera.cpp:394-396 | The product over two lists in turn is the product of the two products. |
| Eclipse.ProductIgnoresOnes | src/Camera.cpp:394-396 | A shadow transmitting everything does not change the intensity. |
| Eclipse.ShadowedIntensity | src/Camera.cpp:389-398 | The shadowed intensity is a fraction. It is 1 for a light slot with no light, and 1 when no body casts a shadow. A light of radius 0 is accepted when it casts no shadow (Eclipse.DiscReady). |
| Eclipse.FactorAt | src/Camera.cpp:394-396 | The i-th factor of the product is the transmittance of the i-th shadow. |
| Eclipse.ProductAtMost | src/Camera.cpp:394-396 | A product of fractions is at most each of its factors. |
| Eclipse.ShadowedIntensityAtMostEach | src/Camera.cpp:389-398 | The intensity is at most what any single shadow lets through. So a shadow that covers part of the light disc makes the intensity less than 1. |
| Eclipse.PointTargetUnshadowed | src/Camera.cpp:318-358 | A target of radius 0, such as a stellar black hole, has no shadows and receives the full intensity. |
| Eclipse.MissedShadowTransmitsAll | src/Camera.cpp:362-398 | A shadow with a positive light radius whose disc misses the light transmits everything. |
| Eclipse.ConcentricTransmit | src/Camera.cpp:362-398 | A shadow centred on the light disc, at least 1% of the light's size, transmits less than everything. It transmits nothing once it is at least as large as the light. |
| Eclipse.DimmedByShadow | src/Camera.cpp:389-398 | A listed shadow that transmits less than everything dims the intensity below 1. One that transmits nothing makes the intensity 0. |
| Eclipse.CollinearOccludes | src/Camera.cpp:340-356 | A candidate in between whose projected centre falls on the light's centre, and which is at least 1% of the light's projected size, passes every occlusion test. The light's projected radius is never negative, and positive iff the light has a size. |
| Eclipse.CollinearShadowListed | src/Camera.cpp:326-359 | Such a body's projected shadow is in the list, for a light of any radius, including 0. |
| Eclipse.CollinearOccluderDims | src/Camera.cpp:308-398 | Such a body casts a shadow. For a light with a size it dims the target below full intensity, and the intensity is 0 once the body is at least as large as the light. |
| Eclipse.ShadowsOfLights | src/Camera.cpp:403-407 | The shadows of all lights are well formed, at most one per light and body. |
| Eclipse.PrincipalShadows | src/Camera.cpp:401-415 | Returns min(n, all shadows of the first four lights) well-formed shadows. |
| Eclipse.PrincipalShadowsAreLargest | src/Camera.cpp:401-415 | Those shadows are a sub-multiset of all shadows, in descending order, and none is smaller than a shadow left out. |
| StarTypes.TablesWellFormed | src/galaxy/StarSystemGenerator.cpp:32-183 | Both tables have an entry for every type up to TYPE_STAR_MAX. Every range is ordered and every metallicity is in (0, 1]. |
| StarTypes.BHyperGiantMissedAsWritten | src/galaxy/StarSystemGenerator.cpp:1056-1091 | As written, the B hyper giant gets no equatorial bulge although it is of class B. |
| StarTypes.BulgesDiffersOnlyAtBHyperGiant | src/galaxy/StarSystemGenerator.cpp:1067-1083 | On every other type, the case labels agree with "spectral class F, A, B or O". |
| StarPairs.MakeStarOfType | src/galaxy/StarSystemGenerator.cpp:1047-1094 | The new star's radius, mass and temperature lie in its type's table ranges. Bright types get an aspect ratio in [1, 1.8); other types keep theirs. The bright types include TYPE_STAR_B_HYPER_GIANT, which the source's switch misses (see Findings). |
| StarPairs.MakeStarOfTypeLighterThan | src/galaxy/StarSystemGenerator.cpp:1103-1110 | Makes at most 16 attempts and keeps the last one. Every earlier attempt was too heavy. Finishing before the 16th attempt means the star is light enough. |
| StarPairs.LighterWhenPossible | src/galaxy/StarSystemGenerator.cpp:1103-1110 | If any of the first 15 attempts is light enough, the result is light enough and no later than that attempt. |
| StarPairs.SearchSma | src/galaxy/StarSystemGenerator.cpp:1119-1130 | The doubling search returns the first round whose periapsis reaches minDist, and its axis is that round's draw times 2^round. No earlier round qualified. |
| StarPairs.SmaLowerBound | src/galaxy/StarSystemGenerator.cpp:1122-1129 | Round k always yields an axis of at least 0.01·2^k. |
| StarPairs.SearchEndsBy | src/galaxy/StarSystemGenerator.cpp:1121-1130 | Once 0.01·2^k·(1-e) reaches minDist, round k qualifies, so the search terminates. |
| StarPairs.PairFromSma | src/galaxy/StarSystemGenerator.cpp:1115-1156 | The barycentre shares sum to 1. orbMin is the periapsis, orbMin + orbMax = 2·sma, and orbMin <= orbMax. |
| StarPairs.BarycentreBalances | src/galaxy/StarSystemGenerator.cpp:1115-1117 | The two stars' distances from the barycentre balance their masses. |
| StarPairs.PhasesWrapped | src/galaxy/StarSystemGenerator.cpp:1144-1147 | b is moved half a turn, and both phases end up within [0, 2π]. |
| StarPairs.PairStartsOpposite | src/galaxy/StarSystemGenerator.cpp:1144-1147 | Stars starting at the same phase end up half a turn apart. |
| StarPairs.MakeBinaryPair | src/galaxy/StarSystemGenerator.cpp:1112-1157 | The pair's closest approach is at least minDist and orbMin <= orbMax. The shares sum to 1. None means every round of the finite stream was too close. |
| DiscRules.TestOverlap | src/galaxy/StarSystemGenerator.cpp:892-898 | test_overlap: an end of one interval lies inside the other. Stated by DiscRules.TestOverlapSymmetric and DiscRules.TestOverlapIntervals. |
| DiscRules.TestOverlapSymmetric | src/galaxy/StarSystemGenerator.cpp:892-898 | test_overlap does not depend on which interval comes first. |
| DiscRules.TestOverlapIntervals | src/galaxy/StarSystemGenerator.cpp:892-898 | On ordered intervals, test_overlap holds iff x1 <= y2 and y1 <= x2, that is, iff the intervals share a point. |
| DiscRules.MassFromDiskArea | src/galaxy/StarSystemGenerator.cpp:860-883 | Under the asserted preconditions, the annulus mass is not negative. It is zero when the annulus is empty. |
| DiscRules.ProfileMonotone | src/galaxy/StarSystemGenerator.cpp:860-883 | The cumulative disc profile grows on [0, max]. |
| DiscRules.MassFromDiskAreaAdditive | src/galaxy/StarSystemGenerator.cpp:860-883 | The masses of adjacent annuli add up to the mass of their union. |
| DiscRules.DiscDensityInRange | src/galaxy/StarSystemGenerator.cpp:862-866 | The density 1 - x/max is a fraction on the disc and vanishes at its edge. |
| DiscRules.PickRings | src/galaxy/StarSystemGenerator.cpp:293-353 | Rings exist exactly when the chance tests pass. Then the inner radius is in [1.10, 1.45), the outer in [1.50, 1.68642), and inner < outer. Otherwise the band is reset. The colour is valid and nothing else changes. |
| DiscRules.RingsDieRedundant | src/galaxy/StarSystemGenerator.cpp:300-322 | The second 50% test never rejects what the first test accepted. |
| DiscRules.RingColorClampInactive | src/galaxy/StarSystemGenerator.cpp:323-327 | The colour clamps never change a value. |
| DiscRules.RingsOnlyOnRingedTypes | src/galaxy/StarSystemGenerator.cpp:300-317 | Only gas giants, terrestrial planets and forced bodies get rings. |
| PlanetType.PlanetRadius | src/galaxy/StarSystemGenerator.cpp:696-709 | The radius is the law's value or the 10 km floor, whichever is larger. |
| PlanetType.RockyLawUnreachable | src/galaxy/StarSystemGenerator.cpp:696-700 | The pow(m, 0.3) branch cannot change any radius: it is dead after `m <= 1`. |
| PlanetType.ClassifyBands | src/galaxy/StarSystemGenerator.cpp:729-814 | Each body type corresponds to exactly one mass band, in both directions. |
| PlanetType.ClassifyMonotone | src/galaxy/StarSystemGenerator.cpp:729-814 | More mass never gives a lower rung on the asteroid, terrestrial, gas giant, brown dwarf ladder. |
| PlanetType.AmountVolatiles | src/galaxy/StarSystemGenerator.cpp:745-748 | The volatiles are not negative and below 2·max(1, mass). Total loss happens when the die exceeds the mass. |
| PlanetType.SquashRange | src/galaxy/StarSystemGenerator.cpp:767-771 | A squashed greenhouse value stays in (0.7, 1), so it "never reaches 1". |
| PlanetType.SquashMonotone | src/galaxy/StarSystemGenerator.cpp:767-771 | Squashing keeps the order of greenhouse values. |
| PlanetType.PickClimate | src/galaxy/StarSystemGenerator.cpp:752-771 | The greenhouse effect is in [0, 1) and the albedo in [0, 5/6]. Above 273 K the albedo is 0. No volatiles means no greenhouse. |
| PlanetType.GreenhouseGrowsWithVolatiles | src/galaxy/StarSystemGenerator.cpp:752-771 | More volatiles never give less greenhouse. |
| PlanetType.Proportions | src/galaxy/StarSystemGenerator.cpp:775-782 | The gas, liquid and ice shares are fractions summing to 1. At 0 K everything is ice. |
| PlanetType.GasShareGrowsWithHeat | src/galaxy/StarSystemGenerator.cpp:775 | A hotter planet has no smaller gas share. |
| PlanetType.SplitVolatiles | src/galaxy/StarSystemGenerator.cpp:775-782 | The three volatile amounts are not negative and add up to the total. |
| PlanetType.HeaviestStar | src/galaxy/StarSystemGenerator.cpp:803-805 | The loop's maximum bounds every star's mass. It is one of them, or 0 when all are non-positive. |
| PlanetType.LifeMultiplier | src/galaxy/StarSystemGenerator.cpp:797-808 | The life multiplier is in [0, 2.5]. It is positive iff the heaviest star is under 2.5 solar masses. |
| PlanetType.Life | src/galaxy/StarSystemGenerator.cpp:787-811 | Life is in [0, 2.5). It appears only with liquid volatiles and an average temperature between -60 °C and 200 °C. |
| PlanetType.PlanetMetallicity | src/galaxy/StarSystemGenerator.cpp:711-718 | Whichever table entry it comes from (the parent's, or else the grandparent's), the metallicity is a fraction below 1. |
| PlanetType.CommonTraits | src/galaxy/StarSystemGenerator.cpp:685-727 | The type follows the mass bands and the radius is at least the floor. Metallicity and volcanicity are fractions, and volcanicity is at most the mass. Volatiles and life start at 0. |
| PlanetType.BrownDwarf | src/galaxy/StarSystemGenerator.cpp:729-739 | A brown dwarf's mass in earth masses is min(mass, 317·65). Its radius is 0.10-0.30 solar radii, and it is 1000-2000 K hotter. |
| PlanetType.BrownDwarfMassCapped | src/galaxy/StarSystemGenerator.cpp:733-736 | Read back through GetMassInEarths, a brown dwarf weighs min(mass, 317·65) earth masses. |
| PlanetType.Terrestrial | src/galaxy/StarSystemGenerator.cpp:742-811 | Only the temperature, volatiles and life change. The volatiles add up to the drawn amount, and life is in range. |
| PlanetType.PickPlanetType | src/galaxy/StarSystemGenerator.cpp:674-814 | The type follows the mass bands, with the brown-dwarf mass cap and radius range. Metallicity and volcanicity are fractions. Only terrestrial planets get volatiles and life, and their volatiles sum to the drawn amount. |
| PlanetType.InvTidalLockTime | src/galaxy/StarSystemGenerator.cpp:819-840 | The staged divisions of the inverse tidal-lock time, with the solar-to-earth factor only around a planet. Stated by PlanetType.TidalLockFormula. |
| PlanetType.TidalLockFormula | src/galaxy/StarSystemGenerator.cpp:819-840 | The staged divisions compute mass·parentMass² / (a⁶·s²·radius·6286), with s = 332998 around a planet. |
| PlanetType.TidalLock | src/galaxy/StarSystemGenerator.cpp:844-854 | Above 10 the body locks to its orbit. Between 1/100 and 10, rotation and tilt move between their values and the orbit's. Otherwise nothing changes. |
| PlanetType.LockWeight | src/galaxy/StarSystemGenerator.cpp:851 | The blend weight is a fraction in (0, 1). |
| PlanetType.BlendBetween | src/galaxy/StarSystemGenerator.cpp:852-853 | A blend lies between its two ends. |
| PlanetType.BlendCloser | src/galaxy/StarSystemGenerator.cpp:852-853 | A larger weight on the locked value leaves the blend no farther from it. |
| PlanetType.TidalLockConverges | src/galaxy/StarSystemGenerator.cpp:847-853 | A stronger tidal effect brings the rotation period no farther from the orbital period. |
| PlanetOrbits.StartPosition | src/galaxy/StarSystemGenerator.cpp:956-957 | The first trial position is not negative. It is positive iff discMin is positive or both the jump and discMax are. It lies within the disc when the disc is not empty. |
| PlanetOrbits.Shape | src/galaxy/StarSystemGenerator.cpp:963-967 | pos <= periapsis <= semi-major axis <= apoapsis. The periapsis is a(1-e) and periapsis + apoapsis = 2a. From pos 0 the orbit is the single point 0. |
| PlanetOrbits.OrbitMass | src/galaxy/StarSystemGenerator.cpp:970-981 | A planet's mass is not negative. |
| PlanetOrbits.Step | src/galaxy/StarSystemGenerator.cpp:961-981 | A pass places an orbit iff its apoapsis stays in the disc. The orbit then lies beyond pos and inside the disc. From pos 0 the pass always places a point orbit of mass 0. |
| PlanetOrbits.PlaceAsWritten | src/galaxy/StarSystemGenerator.cpp:956-1022 | The source loop with no guard: one pass per draw record, at most as many orbits as records. Stated by PlanetOrbits.ZeroStartNeverEnds and PlanetOrbits.PlaceAgreesAwayFromZero. |
| PlanetOrbits.ZeroStartNeverEnds | src/galaxy/StarSystemGenerator.cpp:956-1022 | The loop as written (PlanetOrbits.PlaceAsWritten), started at position 0 in a non-empty disc, uses up every draw it is given. Each pass places a point orbit of mass 0 and the position stays 0, so the source loop never ends. |
| PlanetOrbits.Place | src/galaxy/StarSystemGenerator.cpp:961-1022 | The loop with a guard against a position of 0. Every orbit lies in the disc with a positive periapsis and a non-negative mass. Each periapsis is at least 1.35 times the previous apoapsis. Each pass but the last moves the position to a point still inside the disc. |
| PlanetOrbits.PlaceAgreesAwayFromZero | src/galaxy/StarSystemGenerator.cpp:961-1022 | From a positive start, the guarded loop is the loop as written. |
| PlanetOrbits.PlaceHaltsAtEdge | src/galaxy/StarSystemGenerator.cpp:961-968 | When the loop stops before the draws run out, it stopped at one of the source's exits (the position has reached discMax, or the next apoapsis would leave the disc) or at the corrected loop's guard against a position that is not positive. |
| PlanetOrbits.PlaceBounded | src/galaxy/StarSystemGenerator.cpp:961-1022 | From a positive start, the loop places at most k orbits once 1.35^k times the start reaches discMax, whatever the draws. |
| PlanetOrbits.PlaceStopsAtEdge | src/galaxy/StarSystemGenerator.cpp:961-1022 | Given more than k such draws, the loop stops on its own before the draws run out, at a positive position, so at one of the source's exits and not at the added guard. |
| PlanetOrbits.OrbitsDisjoint | src/galaxy/StarSystemGenerator.cpp:1021-1022 | Every earlier apoapsis lies below every later periapsis, so test_overlap rejects every pair of orbits. |
| PlanetOrbits.ClearRings | src/galaxy/StarSystemGenerator.cpp:1011-1019 | The rings are either kept or reset to the empty band. |
| PlanetOrbits.RingsClearedIffOverlap | src/galaxy/StarSystemGenerator.cpp:958-1019 | Rings are erased iff the primary qualifies and some new orbit overlaps the original band. |
| PlanetOrbits.UnclearableKept | src/galaxy/StarSystemGenerator.cpp:1011-1012 | A primary that is not a ringed rocky planet keeps its rings. |
| PlanetOrbits.SuffixInjective | src/galaxy/StarSystemGenerator.cpp:1031-1038 | Different indices give different suffixes. This holds always for moons, and for the first 256 planets. |
| Support.DecimalInjective | src/galaxy/StarSystemGenerator.cpp:1036-1037 | Different moon numbers print as different `%d` strings. |
| PlanetOrbits.NameChildren | src/galaxy/StarSystemGenerator.cpp:1025-1041 | Stars keep their names. Every other child is named after the primary plus the suffix of its rank among the named children. |
| PlanetOrbits.ChildNamesDistinct | src/galaxy/StarSystemGenerator.cpp:1025-1041 | Two named children never share a name: always for moons, and for at most 256 planets. |
| PlanetOrbits.NewPlanet | src/galaxy/StarSystemGenerator.cpp:983-991 | A new body is terrestrial and holds the orbit's mass, extremes and rotation period. Through the getters it measures in earth units, has no rings, no rotation phase and no children, is a moon iff its primary is not a star, and is not a jump target. |
| PlanetOrbits.NewPlanets | src/galaxy/StarSystemGenerator.cpp:983-1009 | One new body per placed orbit, in orbit order. |
| PlanetOrbits.MakePlanetsAround | src/galaxy/StarSystemGenerator.cpp:900-1044 | Only children and rings change, and the child list only grows. New children are terrestrial, with 0 < orbMin <= orbMax <= discMax. Rings are lost only by a ringed rocky primary. A primary of radius 0 (discMin 0) is accepted. |
| Stations.CheckUniqueStationName | src/galaxy/StarSystemGenerator.cpp:1479-1489 | The name is unique iff no registered station has it. |
| Stations.GenUniqueStationName | src/galaxy/StarSystemGenerator.cpp:1491-1499 | Returns the first generated name that is not taken. Every earlier candidate was taken. |
| Stations.AppendFreshDistinct | src/galaxy/StarSystemGenerator.cpp:1491-1499 | Registering a fresh name keeps all station names distinct. |
| Stations.CountOrbitalStations | src/galaxy/StarSystemGenerator.cpp:1523-1531 | The count is the first n at which the remaining population goes negative. |
| Stations.OrbitalCountExceedsPopulation | src/galaxy/StarSystemGenerator.cpp:1526-1531 | More stations are built than the population, since each draw takes off less than one. |
| Stations.CountSurfaceStations | src/galaxy/StarSystemGenerator.cpp:1612-1631 | At most 6 surface stations, one per round while the population stays non-negative. |
| Stations.PopulousWorldFillsSurface | src/galaxy/StarSystemGenerator.cpp:1612-1618 | A population of 6 or more always gets all 6 surface stations. |
| Stations.OrbitCeiling | src/galaxy/StarSystemGenerator.cpp:1517-1520 | The ceiling is a quarter of the Hill radius or half the first child's periapsis, and it is below both, so it is their minimum. |
| Stations.InnerOrbit | src/galaxy/StarSystemGenerator.cpp:1538-1551 | The innermost orbit never exceeds the ceiling. It is the floor unless that orbit is shorter than 3 hours. |
| Stations.Shells | src/galaxy/StarSystemGenerator.cpp:1553-1562 | Three ordered shells run from the inner orbit to the ceiling. |
| Stations.ShellsCollapse | src/galaxy/StarSystemGenerator.cpp:1556-1562 | The special case for equal ends agrees with the general formula. |
| Stations.PlaceOrbitalStations | src/galaxy/StarSystemGenerator.cpp:1563-1607 | Station i goes in shell i mod 3 and is turned by (i+1) div 3 separations. |
| Stations.SlotsWithinShells | src/galaxy/StarSystemGenerator.cpp:1563-1587 | Every orbital station orbits between the inner orbit and the ceiling. |
| Stations.NameStation | src/galaxy/StarSystemGenerator.cpp:1600-1606 | A named station extends the registry and keeps names distinct. An orbital station, registered first with an empty name, never gets the empty name. |
| Stations.PopulateBody | src/galaxy/StarSystemGenerator.cpp:1501-1646 | Below a population of 1/1000 nothing changes. Otherwise the registry grows by the new stations, names stay distinct, and at most 6 surface ports are built. Afterwards the system has at least one station. |
| Stations.PopulateAddStations | src/galaxy/StarSystemGenerator.cpp:1501-1505 | The children-first pass only extends the registry and keeps names distinct. A populated root leaves the system with a station. |
| Economy.SetEconType | src/galaxy/StarSystemGenerator.cpp:1703-1719 | Picks the first economy with the highest score, if that score is positive, and no economy otherwise. |
| Economy.FirstBestUnique | src/galaxy/StarSystemGenerator.cpp:1709-1717 | There is only one first-best economy, so the choice depends on the scores alone. |
| Economy.TruncDiv | src/galaxy/StarSystemGenerator.cpp:1755 | C++ division: the quotient is truncated toward zero and carries the sign of a·b. |
| Economy.TruncDivMonotone | src/galaxy/StarSystemGenerator.cpp:1755 | Truncating division by a positive number keeps order. |
| Economy.MaxAbs | src/galaxy/StarSystemGenerator.cpp:1749-1752 | The largest magnitude bounds every level and is attained by one, or is 0. |
| Economy.Normalised | src/galaxy/StarSystemGenerator.cpp:1755 | A normalised level is within ±25 and keeps its sign. The largest magnitude becomes exactly ±25. |
| Economy.NormaliseTrade | src/galaxy/StarSystemGenerator.cpp:1749-1757 | An all-zero table is unchanged. Otherwise each level is normalised and jittered by ±5, so every level lies within ±30. |
| Economy.NormalisedMonotone | src/galaxy/StarSystemGenerator.cpp:1755 | Normalising keeps the order of trade balances. |

## Left out

- The renderer: clearing the screen, drawing the background and billboards, `SetLights`, and `Sfx`. Draw is modelled only through its lights, its background intensity and its per-entry commands.
- Frame transforms, interpolated positions and the frustum test. They are inputs of `CameraUpdate.BodyView` and of the eclipse scene bodies.
- acos, sqrt and powf are passed in as functions, with only the range facts the proofs need. IEEE rounding is not modelled.
- Shadow ordering: Shadow's `operator<` lives in Camera.h, which is not part of this model. Eclipse.PrincipalShadows takes the order as a parameter.
- Eclipse.PrincipalShadows: the source sorts with `std::sort` (Camera.cpp:409), which is not stable. The model sorts stably, so which of two equal shadows survives the cut-off at Camera.cpp:411-414 is the model's choice.
- Eclipse.PrincipalShadows: the source appends to the caller's shadowsOut (Camera.cpp:413) without clearing it. The model returns only the shadows this call adds; what the caller's list already held is not modelled.
- Eclipse.ShadowedIntensity requires that a light of radius 0 casts no shadow on the target (Eclipse.DiscReady). Each recorded shadow of such a light has lrad = 0, and the source divides by lrad when it calls discCovered (Camera.cpp:396), so the NaN assertion at Camera.cpp:380 rejects it; the precondition mirrors that assertion. CalcShadows, ShadowsOfLights and PrincipalShadows never call discCovered and accept a light of radius 0. A target of radius 0 is modelled too: every division by the radius gives an infinity or NaN, every test fails, and no shadow is recorded.
- The module-level `shadows` vector of ShadowedIntensity is a local sequence. Sharing it between calls is not modelled.
- The generator's random number generator: every draw is an input.
  - Where several draws come from one stream (for example the surface-station dice and the station seeds), only the draws a property needs are modelled.
  - The orbit-plane rotations are not modelled.
- Random streams are finite in the model. A loop the source runs until a draw succeeds stops when the stream ends. Affected: StarPairs.MakeBinaryPair, Stations.CountOrbitalStations, Stations.GenUniqueStationName, PlanetOrbits.Place and PlanetOrbits.MakePlanetsAround. For the planet loop, PlanetOrbits.PlaceHaltsAtEdge shows that a stop before the draws run out is one of the source's exits or the corrected loop's guard against a position that is not positive, and PlanetOrbits.PlaceStopsAtEdge shows that enough draws always end in such a stop.
- Fixed-point overflow and truncation, including the planetary-mass overflow hack at StarSystemGenerator.cpp:977-980.
- isqrt, CubeRootOf and pow in the radius laws are passed in as functions.
- Orbit, CalcHillRadius, the atmosphere radius and the orbital period are inputs: the ceiling and floor of station orbits, and the 3-hour orbit.
- PickAtmosphere, and the Lua name generator, which is modelled as a stream of candidate names.
- CalcSurfaceTemp (StarSystemGenerator.cpp:596-652) is a parameter `surfaceTemp` giving a non-negative temperature.
- Pi::game, Galaxy, Faction and GalacticEconomy: their values (economies, commodities, stars of the system) are inputs.
- get_disc_density and the disc extents (StarSystemGenerator.cpp:885-950) depend on sqrt and the Hill radius. PlanetOrbits.MakePlanetsAround takes the disc's edges and density as its `Disc` input.
- MakePlanetsAround's per-child PickPlanetType and the recursive moon pass share one random stream with the placement loop. PlanetType.PickPlanetType and PlanetOrbits.MakePlanetsAround model the two steps separately, without the recursion.
- Where stations are inserted among a body's children, and PositionSettlementOnPlanet, are not modelled. Stations.PopulateBody tracks the station registry and the orbit slots.
- The rotation angle of orbital stations (slot × 2π/(n-1)) is not modelled. Stations.PlaceOrbitalStations records only the slot.
- PlanetType.PickPlanetType: requires a non-negative mass. The generator only produces non-negative masses (mass_from_disk_area asserts it), but the function itself does not check.
- PlanetOrbits.ChildNamesDistinct: for planets, it is stated for at most 256 named children. Past that, the `%c` code wraps and names repeat.
- SetSysPolit, SetCommodityLegality, PopulateStage1 and the rest of Apply lie outside the modelled core.

## Findings

| source | as written | input that shows it | evidently intended | confidence | as-written member | corrected member |
|---|---|---|---|---|---|---|
| src/galaxy/StarSystemGenerator.cpp:1067-1083 | The aspect-ratio switch lists every F, A, B and O luminosity class except TYPE_STAR_B_HYPER_GIANT. | MakeStarOfType with TYPE_STAR_B_HYPER_GIANT always leaves aspect ratio 1.0. | The comment at line 1057 says "bright stars F, A, B, O", so B hyper giants should bulge like A and O hyper giants. | medium, not executed | StarTypes.BulgesAsWritten (StarTypes.BHyperGiantMissedAsWritten) | StarTypes.Bulges (StarTypes.BulgesDiffersOnlyAtBHyperGiant, used by StarPairs.MakeStarOfType) |
| src/galaxy/StarSystemGenerator.cpp:956-1022 | The placement loop starts at pos = (1 - jump)·discMin + jump·discMax and runs while pos < discMax, moving to 1.35 times each apoapsis. At pos 0 every pass computes periapsis 0 and apoapsis 0, the break at line 968 never fires, and pos stays 0. | A stellar black hole (radius {0, 0} at line 175, not clamped in MakeStarOfType, so discMin = 0 at line 916) gets MakePlanetsAround at lines 1273-1275. When NFixed(5) returns 0, pos is 0 and the loop never ends. | The comment at line 175 says the radius is clamped to a non-zero value, so the loop should start at a positive position or place nothing. | low (needs NFixed(5) to return exactly 0), not executed | PlanetOrbits.PlaceAsWritten (PlanetOrbits.ZeroStartNeverEnds) | PlanetOrbits.Place (PlanetOrbits.PlaceBounded, PlanetOrbits.PlaceAgreesAwayFromZero, used by PlanetOrbits.MakePlanetsAround) |

=== FILE: camera_context.dfy ===
/** The camera context's lifecycle: at most one temporary camera frame,
    created by BeginFrame as a child of the attached frame and deleted by
    EndFrame or by the context's teardown. */
module CameraContextModel {
  import opened Support

  datatype FrameId = Invalid | Valid(id: nat)

  /** A node of the frame registry, as far as the camera frame needs it. */
  datatype FrameNode = FrameNode(parent: FrameId, position: Vec3, orient: Mat3, isCameraFrame: bool)

  /** The live frames, by id. */
  type Registry = map<nat, FrameNode>

  datatype CameraContext = CameraContext(
    width: real, height: real, fovAng: real, zNear: real, zFar: real,
    frame: FrameId,        // the frame the camera is attached to
    position: Vec3,
    orient: Mat3,
    camFrame: FrameId)     // the temporary camera frame, Invalid outside a frame

  const IDENTITY := Mat3(Vec3(1.0, 0.0, 0.0), Vec3(0.0, 1.0, 0.0), Vec3(0.0, 0.0, 1.0))

  /** The constructor: parameters stored, not attached, no camera frame. */
  function NewCameraContext(width: real, height: real, fovAng: real, zNear: real, zFar: real): (c: CameraContext)
    ensures c.frame == Invalid && c.camFrame == Invalid
    ensures c.width == width && c.height == height && c.fovAng == fovAng
    ensures c.zNear == zNear && c.zFar == zFar
  {
    CameraContext(width, height, fovAng, zNear, zFar, Invalid, Vec3(0.0, 0.0, 0.0), IDENTITY, Invalid)
  }

  predicate CanBeginFrame(c: CameraContext) { c.frame.Valid? && !c.camFrame.Valid? }

  predicate CanEndFrame(c: CameraContext) { c.frame.Valid? && c.camFrame.Valid? }

  /** BeginFrame: asserts an attached frame and no active camera frame, then
      registers a new camera frame (`newId` is the unused id the registry hands
      out) placed at the camera's pose under the attached frame. */
  function BeginFrame(c: CameraContext, reg: Registry, newId: nat): (r: (CameraContext, Registry))
    requires CanBeginFrame(c)
    requires newId !in reg
    ensures r.0.camFrame == Valid(newId) && CanEndFrame(r.0)
    ensures r.0 == c.(camFrame := Valid(newId))
    ensures r.1.Keys == reg.Keys + {newId}
    ensures forall k :: k in reg ==> r.1[k] == reg[k]
    ensures r.1[newId].parent == c.frame && r.1[newId].isCameraFrame
    ensures r.1[newId].position == c.position && r.1[newId].orient == c.orient
  {
    (c.(camFrame := Valid(newId)), reg[newId := FrameNode(c.frame, c.position, c.orient, true)])
  }

  /** EndFrame: asserts an active camera frame, deletes it, and marks the
      context as having none. */
  function EndFrame(c: CameraContext, reg: Registry): (r: (CameraContext, Registry))
    requires CanEndFrame(c)
    ensures r.0.camFrame == Invalid && CanBeginFrame(r.0)
    ensures r.0 == c.(camFrame := Invalid)
    ensures r.1.Keys == reg.Keys - {c.camFrame.id}
    ensures forall k :: k in r.1 ==> r.1[k] == reg[k]
  {
    (c.(camFrame := Invalid), map k | k in reg && k != c.camFrame.id :: reg[k])
  }

  /** The destructor: ends a frame still active.  EndFrame's own assertion
      on the attached frame applies on that path. */
  function Teardown(c: CameraContext, reg: Registry): (r: (CameraContext, Registry))
    requires c.camFrame.Valid? ==> c.frame.Valid?
    ensures r.0.camFrame == Invalid
    ensures c.camFrame.Invalid? ==> r == (c, reg)
    ensures c.camFrame.Valid? ==> r.1.Keys == reg.Keys - {c.camFrame.id}
  {
    if c.camFrame.Valid? then EndFrame(c, reg) else (c, reg)
  }

  /** A bracketed frame leaves nothing behind: ending the frame that
      BeginFrame opened restores both the context and the registry, so the
      next BeginFrame is allowed again. */
  lemma BeginEndRestores(c: CameraContext, reg: Registry, newId: nat)
    requires CanBeginFrame(c) && newId !in reg
    ensures var (c1, reg1) := BeginFrame(c, reg, newId);
            EndFrame(c1, reg1) == (c, reg)
    ensures var (c1, reg1) := BeginFrame(c, reg, newId);
            CanBeginFrame(EndFrame(c1, reg1).0)
  {
    var (c1, reg1) := BeginFrame(c, reg, newId);
    var (c2, reg2) := EndFrame(c1, reg1);
    assert reg2 == reg;
  }

  /** A second BeginFrame without an EndFrame is refused: the camera frame
      is exclusive. */
  lemma BeginFrameNotReentrant(c: CameraContext, reg: Registry, newId: nat)
    requires CanBeginFrame(c) && newId !in reg
    ensures !CanBeginFrame(BeginFrame(c, reg, newId).0)
  {
  }

  /** Teardown of a context in the middle of a frame deletes exactly the
      camera frame BeginFrame created. */
  lemma TeardownAfterBeginRestores(c: CameraContext, reg: Registry, newId: nat)
    requires CanBeginFrame(c) && newId !in reg
    ensures var (c1, reg1) := BeginFrame(c, reg, newId);
            Teardown(c1, reg1) == (c, reg)
  {
    BeginEndRestores(c, reg, newId);
  }
}

=== FILE: camera_lights.dfy ===
/** Light selection and background dimming in Camera::Draw: the walk of the
    frame tree that collects at most four star lights, the fallback light,
    and the clamped background intensity. */
module CameraLights {
  import opened Support
  import opened SystemBodyModel

  /** The renderer's light limit. */
  const MAX_LIGHTS: nat := 4

  /** A light and the body it comes from (None for the synthetic light). */
  datatype LightSource = LightSource(body: Option<nat>, diffuse: Color)

  /** What the walk reads of a frame: `id` names the frame's Body (the
      object a light records as its source), and the supertype, type and
      catalogued star colour come from that Body's system body. */
  datatype FrameBody = FrameBody(id: nat, superType: BodySuperType, bodyType: BodyType, realColor: Color)

  /** The frame tree as the light walk sees it. */
  datatype Frame = Frame(isRotFrame: bool, systemBody: Option<FrameBody>, children: seq<Frame>)

  /** A frame contributes a light when it is a non-rotating frame whose
      system body is a star; the rotating twin of the same body is skipped,
      so no star is counted twice. */
  predicate IsLightFrame(f: Frame) {
    f.systemBody.Some? && !f.isRotFrame && f.systemBody.value.superType == SUPERTYPE_STAR
  }

  /** The light a star frame produces: the star's colour with alpha 0,
      recorded against the frame's Body. */
  function LightOf(f: Frame): LightSource
    requires IsLightFrame(f)
  {
    var c := f.systemBody.value.realColor;
    LightSource(Some(f.systemBody.value.id), Color(c.r, c.g, c.b, 0))
  }

  /** position_system_lights: depth first, stopping as soon as four lights
      are held. */
  function Walk(f: Frame, lights: seq<LightSource>): seq<LightSource>
    decreases f, 1
  {
    if |lights| > 3 then lights
    else
      var here := if IsLightFrame(f) then lights + [LightOf(f)] else lights;
      WalkKids(f.children, here)
  }

  function WalkKids(kids: seq<Frame>, lights: seq<LightSource>): seq<LightSource>
    decreases kids, 0
  {
    if |kids| == 0 then lights
    else WalkKids(kids[1..], Walk(kids[0], lights))
  }

  /** Reference definition: every star light of the tree, in depth-first
      order, with no limit. */
  function Eligible(f: Frame): seq<LightSource>
    decreases f, 1
  {
    (if IsLightFrame(f) then [LightOf(f)] else []) + EligibleKids(f.children)
  }

  function EligibleKids(kids: seq<Frame>): seq<LightSource>
    decreases kids, 0
  {
    if |kids| == 0 then [] else Eligible(kids[0]) + EligibleKids(kids[1..])
  }

  function Take<T>(s: seq<T>, n: nat): (r: seq<T>)
    ensures |r| == MinInt(n, |s|)
  {
    if n < |s| then s[..n] else s
  }

  lemma TakeConcat<T>(a: seq<T>, b: seq<T>, n: nat)
    ensures Take(a, n) + Take(b, n - |Take(a, n)|) == Take(a + b, n)
  {
    if n < |a| {
      assert (a + b)[..n] == a[..n];
    } else {
      assert (a + b)[..|a|] == a;
      if n - |a| < |b| {
        assert (a + b)[..n] == a + b[..n - |a|];
      }
    }
  }

  /** The walk collects exactly the first star lights of the tree, up to
      four in all. */
  lemma {:induction false} WalkTakesFirstStars(f: Frame, lights: seq<LightSource>)
    requires |lights| <= MAX_LIGHTS
    ensures Walk(f, lights) == lights + Take(Eligible(f), MAX_LIGHTS - |lights|)
    decreases f, 1
  {
    if |lights| <= 3 {
      var n := MAX_LIGHTS - |lights|;
      var own := Own(f);
      var kids := EligibleKids(f.children);
      WalkUnfolds(f, lights);
      WalkKidsTakesFirstStars(f.children, lights + own);
      TakeConcat(own, kids, n);
      TakeWhole(own, n);
      assert (lights + own) + Take(kids, n - |own|) == lights + (own + Take(kids, n - |own|));
    }
  }

  /** The light a frame contributes itself, if any. */
  function Own(f: Frame): (r: seq<LightSource>)
    ensures |r| <= 1
  {
    if IsLightFrame(f) then [LightOf(f)] else []
  }

  /** One step of the walk and of the reference definition. */
  lemma WalkUnfolds(f: Frame, lights: seq<LightSource>)
    requires |lights| <= 3
    ensures Walk(f, lights) == WalkKids(f.children, lights + Own(f))
    ensures Eligible(f) == Own(f) + EligibleKids(f.children)
  {
    if !IsLightFrame(f) {
      assert lights + Own(f) == lights;
    }
  }

  lemma TakeWhole<T>(s: seq<T>, n: nat)
    requires |s| <= n
    ensures Take(s, n) == s
  {
  }

  lemma {:induction false} WalkKidsTakesFirstStars(kids: seq<Frame>, lights: seq<LightSource>)
    requires |lights| <= MAX_LIGHTS
    ensures WalkKids(kids, lights) == lights + Take(EligibleKids(kids), MAX_LIGHTS - |lights|)
    decreases kids, 0
  {
    if |kids| > 0 {
      var n := MAX_LIGHTS - |lights|;
      var e0, rest := Eligible(kids[0]), EligibleKids(kids[1..]);
      var t0 := Take(e0, n);
      WalkKidsUnfolds(kids, lights);
      WalkTakesFirstStars(kids[0], lights);
      WalkKidsTakesFirstStars(kids[1..], lights + t0);
      TakeConcat(e0, rest, n);
      assert (lights + t0) + Take(rest, n - |t0|) == lights + (t0 + Take(rest, n - |t0|));
    }
  }

  /** One step of the walk over a list of siblings and of its reference. */
  lemma WalkKidsUnfolds(kids: seq<Frame>, lights: seq<LightSource>)
    requires |kids| > 0
    ensures WalkKids(kids, lights) == WalkKids(kids[1..], Walk(kids[0], lights))
    ensures EligibleKids(kids) == Eligible(kids[0]) + EligibleKids(kids[1..])
  {
  }

  lemma {:induction false} EligibleAreStars(f: Frame, l: LightSource)
    requires l in Eligible(f)
    ensures exists g: Frame :: IsLightFrame(g) && l == LightOf(g)
    decreases f, 1
  {
    if IsLightFrame(f) && l == LightOf(f) {
    } else {
      EligibleKidsAreStars(f.children, l);
    }
  }

  lemma {:induction false} EligibleKidsAreStars(kids: seq<Frame>, l: LightSource)
    requires l in EligibleKids(kids)
    ensures exists g: Frame :: IsLightFrame(g) && l == LightOf(g)
    decreases kids, 0
  {
    if l in Eligible(kids[0]) {
      EligibleAreStars(kids[0], l);
    } else {
      EligibleKidsAreStars(kids[1..], l);
    }
  }

  /** The synthetic light used when no star is found (hyperspace). */
  const FALLBACK_LIGHT := LightSource(None, WHITE)

  /** The lights Draw uses: the walk from the root, or the single fallback
      light when the walk found nothing. */
  function DrawLights(root: Frame): (r: seq<LightSource>)
    ensures 1 <= |r| <= MAX_LIGHTS
    ensures r == [FALLBACK_LIGHT] <==> |Eligible(root)| == 0
    ensures |Eligible(root)| > 0 ==> r == Take(Eligible(root), MAX_LIGHTS)
    ensures forall l :: l in r && l.body.Some? ==> exists g: Frame :: IsLightFrame(g) && l == LightOf(g)
  {
    WalkTakesFirstStars(root, []);
    var found := Walk(root, []);
    if |found| == 0 then [FALLBACK_LIGHT]
    else
      assert found == Take(Eligible(root), MAX_LIGHTS);
      forall l | l in found
        ensures exists g: Frame :: IsLightFrame(g) && l == LightOf(g)
      {
        EligibleAreStars(root, l);
      }
      assert found[0].body.Some? by { EligibleAreStars(root, found[0]); }
      found
  }

  /** What Draw knows about the camera's parent frame: whether it rotates,
      whether its body is a planet, and that planet's atmosphere at the
      camera's altitude (Planet::GetAtmosphericState, not modelled). */
  datatype CamParent = CamParent(isRotFrame: bool, bodyIsPlanet: bool, pressure: real, density: real)

  /** One light's contribution: its eclipse transmittance towards the
      player, the cosine between light direction and the camera's up
      direction, and its diffuse luminance. */
  datatype LightTerm = LightTerm(shadowed: real, cosAngle: real, luminance: real)

  function IntensitySum(terms: seq<LightTerm>): real {
    if |terms| == 0 then 0.0
    else
      var t := terms[0];
      t.shadowed * Max(0.0, t.cosAngle) * (t.luminance / 255.0) + IntensitySum(terms[1..])
  }

  /** Whether the atmosphere can dim the background at all. */
  predicate InAtmosphere(p: Option<CamParent>) {
    p.Some? && p.value.isRotFrame && p.value.bodyIsPlanet && p.value.pressure >= 0.001
  }

  /** The background intensity; `root4` stands for `powf(x, 0.25)`. */
  function BackgroundIntensity(p: Option<CamParent>, terms: seq<LightTerm>, root4: real -> real): (r: real)
    ensures 0.0 <= r <= 1.0
    ensures !InAtmosphere(p) ==> r == 1.0
  {
    if InAtmosphere(p) then
      var intensity := Clamp(IntensitySum(terms), 0.0, 1.0);
      Clamp(1.0 - Min(1.0, root4(p.value.density)) * (0.3 + root4(intensity)), 0.0, 1.0)
    else 1.0
  }

  /** Inside an atmosphere dense enough, with enough light about, the
      background is dimmed all the way to black. */
  lemma BackgroundVanishesInDenseAir(p: Option<CamParent>, terms: seq<LightTerm>, root4: real -> real)
    requires InAtmosphere(p)
    requires root4(p.value.density) >= 1.0
    requires root4(Clamp(IntensitySum(terms), 0.0, 1.0)) >= 0.7
    ensures BackgroundIntensity(p, terms, root4) == 0.0
  {
  }
}

=== FILE: camera_update.dfy ===
/** Camera::Update and the body loop of Camera::Draw: each body is
    excluded, culled, hidden, drawn as a billboard or rendered in full, and
    the listed bodies are put in draw order by a stable sort under
    sort_BodyAttrs. */
module CameraUpdate {
  import opened Support
  import opened Sorting
  import opened CameraLights

  /** Below this many pixels a non-terrain body is not drawn. */
  const OBJECT_HIDDEN_PIXEL_THRESHOLD: real := 2.0

  /** Below this many pixels a terrain body is drawn as a billboard. */
  const BILLBOARD_PIXEL_THRESHOLD: real := 8.0

  /** The two body flags Update and the sort read. */
  datatype BodyFlags = BodyFlags(drawExclude: bool, drawLast: bool)

  /** What `IsType` tells Update: stars and planets are terrain bodies and
      carry their billboard colour (the catalogued star colour, the
      planet's albedo); other terrain bodies are billboarded white. */
  datatype BodyKind = StarBody(starColor: Color) | PlanetBody(albedo: Color) | OtherTerrain | NonTerrain

  predicate IsTerrain(k: BodyKind) { !k.NonTerrain? }

  /** One body as Update sees it.  The frame transforms are not modelled:
      `inFrustum` is the frustum test on the view coordinates, `camDist`
      their length, and `projected` the frustum's projection of them. */
  datatype BodyView = BodyView(
    id: nat,
    flags: BodyFlags,
    kind: BodyKind,
    inFrustum: bool,
    camDist: real,
    clipRadius: real,
    projected: Vec3)

  /** The screen height in pixels and the field-of-view factor. */
  datatype Screen = Screen(height: real, fovFactor: real)

  /** The pixel size as a float: a finite value, or what IEEE division by
      zero yields. */
  datatype PixSize = Finite(v: real) | PlusInf | MinusInf | NotANumber

  /** Approximate on-screen diameter: height * 2 * rad / (camDist * fovFactor). */
  function PixelSize(s: Screen, rad: real, camDist: real): (p: PixSize)
    ensures p.Finite? <==> camDist * s.fovFactor != 0.0
    ensures p.Finite? ==> p.v * (camDist * s.fovFactor) == s.height * 2.0 * rad
  {
    var num := s.height * 2.0 * rad;
    var den := camDist * s.fovFactor;
    if den != 0.0 then Finite(num / den)
    else if num > 0.0 then PlusInf
    else if num < 0.0 then MinusInf
    else NotANumber
  }

  /** Float `<` against a threshold: false for NaN and for +inf. */
  predicate Below(p: PixSize, t: real) {
    match p
    case Finite(v) => v < t
    case MinusInf => true
    case _ => false
  }

  /** `std::max(1.0f, pixSize)`: the second argument only when the first is
      below it, so NaN and -inf give 1. */
  function BillboardSize(p: PixSize): (r: real)
    ensures r >= 1.0
    ensures p.Finite? && p.v >= 1.0 ==> r == p.v
  {
    if p.Finite? && 1.0 < p.v then p.v else 1.0
  }

  datatype Billboard = Billboard(position: Vec3, size: real, color: Color)

  /** One entry of the sorted list. */
  datatype BodyAttrs = BodyAttrs(body: nat, camDist: real, bodyFlags: BodyFlags, billboard: Option<Billboard>)

  /** The billboard colour before tinting. */
  function BaseColor(k: BodyKind): Color {
    match k
    case StarBody(c) => c
    case PlanetBody(a) => a
    case _ => WHITE
  }

  /** The billboard colour: non-stars are modulated by the first light's
      diffuse colour when there is a light (`mul` is Color's `*=`, defined
      in Color.h, which is not part of this model); alpha is then forced
      to 255. */
  function BillboardColor(k: BodyKind, lights: seq<LightSource>, mul: (Color, Color) -> Color): (c: Color)
    ensures c.a == 255
    ensures k.StarBody? ==> c == k.starColor.(a := 255)
    ensures |lights| == 0 ==> c == BaseColor(k).(a := 255)
  {
    var base := BaseColor(k);
    var tinted := if |lights| > 0 && !k.StarBody? then mul(base, lights[0].diffuse) else base;
    tinted.(a := 255)
  }

  /** Whether Update lists the body at all. */
  predicate Visible(v: BodyView, s: Screen) {
    && !v.flags.drawExclude
    && v.inFrustum
    && (IsTerrain(v.kind) || !Below(PixelSize(s, v.clipRadius, v.camDist), OBJECT_HIDDEN_PIXEL_THRESHOLD))
  }

  /** Whether a listed body is drawn as a billboard. */
  predicate Billboarded(v: BodyView, s: Screen) {
    IsTerrain(v.kind) && Below(PixelSize(s, v.clipRadius, v.camDist), BILLBOARD_PIXEL_THRESHOLD)
  }

  /** The loop body of Update for one body. */
  function Classify(v: BodyView, s: Screen, lights: seq<LightSource>, mul: (Color, Color) -> Color): (r: Option<BodyAttrs>)
    ensures r.Some? <==> Visible(v, s)
    ensures r.Some? ==> r.value.body == v.id && r.value.camDist == v.camDist && r.value.bodyFlags == v.flags
    ensures r.Some? ==> (r.value.billboard.Some? <==> Billboarded(v, s))
    ensures r.Some? && r.value.billboard.Some? ==>
              r.value.billboard.value.size >= 1.0 && r.value.billboard.value.color.a == 255
    ensures r.Some? && r.value.billboard.Some? && v.kind.StarBody? ==>
              r.value.billboard.value.color == v.kind.starColor.(a := 255)
  {
    if v.flags.drawExclude then None
    else if !v.inFrustum then None
    else
      var pix := PixelSize(s, v.clipRadius, v.camDist);
      var attrs := BodyAttrs(v.id, v.camDist, v.flags, None);
      if IsTerrain(v.kind) then
        if Below(pix, BILLBOARD_PIXEL_THRESHOLD) then
          Some(attrs.(billboard := Some(Billboard(v.projected, BillboardSize(pix), BillboardColor(v.kind, lights, mul)))))
        else Some(attrs)
      else if Below(pix, OBJECT_HIDDEN_PIXEL_THRESHOLD) then None
      else Some(attrs)
  }

  /** The bodies Update keeps, in the space's order. */
  function Collect(bodies: seq<BodyView>, s: Screen, lights: seq<LightSource>, mul: (Color, Color) -> Color): (r: seq<BodyAttrs>)
    ensures |r| <= |bodies|
  {
    if |bodies| == 0 then []
    else
      var rest := Collect(bodies[1..], s, lights, mul);
      match Classify(bodies[0], s, lights, mul)
      case Some(a) => [a] + rest
      case None => rest
  }

  /** sort_BodyAttrs: draw-last bodies go after the others; within a group
      the farther body goes first. */
  predicate DrawBefore(a: BodyAttrs, b: BodyAttrs) {
    if a.bodyFlags.drawLast && b.bodyFlags.drawLast then a.camDist > b.camDist
    else if a.bodyFlags.drawLast then false
    else if b.bodyFlags.drawLast then true
    else a.camDist > b.camDist
  }

  /** Update: classify every body, then sort the list stably. */
  function Update(bodies: seq<BodyView>, s: Screen, lights: seq<LightSource>, mul: (Color, Color) -> Color): (r: seq<BodyAttrs>)
    ensures multiset(r) == multiset(Collect(bodies, s, lights, mul))
  {
    Sort(DrawBefore, Collect(bodies, s, lights, mul))
  }

  /** The comparator is a strict weak order, as std::list::sort demands. */
  lemma DrawBeforeIsStrictWeakOrder()
    ensures StrictWeakOrder(DrawBefore)
  {
  }

  /** Two entries are interchangeable for the sort exactly when they are in
      the same group and at the same distance. */
  lemma DrawBeforeEquivalence(a: BodyAttrs, b: BodyAttrs)
    ensures Equivalent(DrawBefore, a, b) <==>
              a.bodyFlags.drawLast == b.bodyFlags.drawLast && a.camDist == b.camDist
  {
  }

  /** Every entry of the list Update builds comes from a visible body, and
      every visible body has its entry there. */
  lemma {:induction false} CollectIsVisible(bodies: seq<BodyView>, s: Screen, lights: seq<LightSource>, mul: (Color, Color) -> Color)
    ensures forall a :: a in Collect(bodies, s, lights, mul) ==>
              exists v :: v in bodies && Visible(v, s) && Classify(v, s, lights, mul) == Some(a)
    ensures forall v :: v in bodies && Visible(v, s) ==> Classify(v, s, lights, mul).value in Collect(bodies, s, lights, mul)
  {
    if |bodies| > 0 {
      CollectIsVisible(bodies[1..], s, lights, mul);
      var rest := Collect(bodies[1..], s, lights, mul);
      forall a | a in Collect(bodies, s, lights, mul)
        ensures exists v :: v in bodies && Visible(v, s) && Classify(v, s, lights, mul) == Some(a)
      {
        if Classify(bodies[0], s, lights, mul) == Some(a) {
        } else {
          assert a in rest;
          var v :| v in bodies[1..] && Visible(v, s) && Classify(v, s, lights, mul) == Some(a);
          assert v in bodies;
        }
      }
      forall v | v in bodies && Visible(v, s)
        ensures Classify(v, s, lights, mul).value in Collect(bodies, s, lights, mul)
      {
        if v != bodies[0] {
          assert v in bodies[1..];
        }
      }
    }
  }

  /** Draw order: no draw-last entry precedes a normal one, and within each
      group the distances never increase along the list. */
  lemma UpdateDrawOrder(bodies: seq<BodyView>, s: Screen, lights: seq<LightSource>, mul: (Color, Color) -> Color)
    ensures var r := Update(bodies, s, lights, mul);
            forall i, j :: 0 <= i < j < |r| ==>
              (r[i].bodyFlags.drawLast ==> r[j].bodyFlags.drawLast)
              && (r[i].bodyFlags.drawLast == r[j].bodyFlags.drawLast ==> r[i].camDist >= r[j].camDist)
  {
    DrawBeforeIsStrictWeakOrder();
    SortSorted(DrawBefore, Collect(bodies, s, lights, mul));
  }

  /** No excluded, culled or hidden body is listed, and every visible one is. */
  lemma UpdateListsVisible(bodies: seq<BodyView>, s: Screen, lights: seq<LightSource>, mul: (Color, Color) -> Color, v: BodyView)
    requires v in bodies
    ensures Visible(v, s) ==> Classify(v, s, lights, mul).value in Update(bodies, s, lights, mul)
    ensures (forall w :: w in bodies && w.id == v.id ==> !Visible(w, s)) ==>
              forall a :: a in Update(bodies, s, lights, mul) ==> a.body != v.id
  {
    CollectIsVisible(bodies, s, lights, mul);
    var c := Collect(bodies, s, lights, mul);
    var r := Update(bodies, s, lights, mul);
    if Visible(v, s) {
      assert Classify(v, s, lights, mul).value in multiset(c);
    }
    forall a | a in r
      ensures a in c
    {
      assert a in multiset(r);
    }
  }

  /** The sort is stable: bodies in the same group at the same distance keep
      the order in which the space lists them. */
  lemma UpdateStable(bodies: seq<BodyView>, s: Screen, lights: seq<LightSource>, mul: (Color, Color) -> Color, k: BodyAttrs)
    ensures Class(DrawBefore, Update(bodies, s, lights, mul), k) == Class(DrawBefore, Collect(bodies, s, lights, mul), k)
  {
    DrawBeforeIsStrictWeakOrder();
    SortStable(DrawBefore, Collect(bodies, s, lights, mul), k);
  }

  /** What Draw does with one entry. */
  datatype DrawCmd = AddBillboard(position: Vec3, size: real) | RenderBody(body: nat)

  /** The body loop of Draw: skip the excluded body (None stands for a null
      pointer), add billboards, render the rest, in list order. */
  function DrawPass(list: seq<BodyAttrs>, exclude: Option<nat>): (r: seq<DrawCmd>)
    ensures |r| <= |list|
    ensures exclude.None? ==> |r| == |list|
    ensures exclude.Some? ==> forall c :: c in r && c.RenderBody? ==> c.body != exclude.value
  {
    if |list| == 0 then []
    else
      var rest := DrawPass(list[1..], exclude);
      var a := list[0];
      if exclude == Some(a.body) then rest
      else if a.billboard.Some? then [AddBillboard(a.billboard.value.position, a.billboard.value.size)] + rest
      else [RenderBody(a.body)] + rest
  }

  function CountBody(list: seq<BodyAttrs>, id: nat): nat {
    if |list| == 0 then 0 else (if list[0].body == id then 1 else 0) + CountBody(list[1..], id)
  }

  /** Draw issues one command per entry except for the entries of the
      excluded body. */
  lemma {:induction false} DrawPassCount(list: seq<BodyAttrs>, id: nat)
    ensures |DrawPass(list, Some(id))| == |list| - CountBody(list, id)
  {
    if |list| > 0 {
      DrawPassCount(list[1..], id);
    }
  }
}

=== FILE: disc_rules.dfy ===
/** Small geometric rules of the star-system generator: the closed-interval
    overlap test, the mass of an annulus of the protoplanetary disc, and
    the choice of planetary rings. */
module DiscRules {
  import opened Support
  import opened SystemBodyModel

  /** test_overlap: does [x1, x2] meet [y1, y2]?  Written as "an end of one
      lies inside the other". */
  predicate TestOverlap(x1: real, x2: real, y1: real, y2: real) {
    || (x1 >= y1 && x1 <= y2)
    || (x2 >= y1 && x2 <= y2)
    || (y1 >= x1 && y1 <= x2)
    || (y2 >= x1 && y2 <= x2)
  }

  /** Swapping the two intervals does not change the answer. */
  lemma TestOverlapSymmetric(x1: real, x2: real, y1: real, y2: real)
    ensures TestOverlap(x1, x2, y1, y2) <==> TestOverlap(y1, y2, x1, x2)
  {
  }

  /** On ordered intervals the test is the usual overlap condition, in both
      directions. */
  lemma TestOverlapIntervals(x1: real, x2: real, y1: real, y2: real)
    requires x1 <= x2 && y1 <= y2
    ensures TestOverlap(x1, x2, y1, y2) <==> (x1 <= y2 && y1 <= x2)
    ensures TestOverlap(x1, x2, y1, y2) <==> exists p :: Within(p, x1, x2) && Within(p, y1, y2)
  {
    if x1 <= y2 && y1 <= x2 {
      var p := Max(x1, y1);
      assert Within(p, x1, x2) && Within(p, y1, y2);
    }
  }

  predicate Within(p: real, lo: real, hi: real) { lo <= p <= hi }

  /** The disc's cumulative mass profile, up to constant factors:
      x^2 - (2 / (3 max)) x^3. */
  function DiscProfile(x: real, max: real): real
    requires max > 0.0
  {
    x * x - (2.0 / (3.0 * max)) * x * x * x
  }

  /** The disc's density at distance x: 1 - x / max. */
  function DiscDensityAt(x: real, max: real): real
    requires max > 0.0
  {
    1.0 - x / max
  }

  /** The preconditions mass_from_disk_area asserts once `b` is clamped to
      `max`. */
  predicate DiskAreaArgs(a: real, b: real, max: real) {
    max > 0.0 && 0.0 <= a && a <= max && a <= Min(b, max)
  }

  /** mass_from_disk_area: the mass between radii a and b of a disc whose
      density falls linearly to zero at `max`; b is first clamped to max. */
  function MassFromDiskArea(a: real, b: real, max: real): (r: real)
    requires DiskAreaArgs(a, b, max)
    ensures r >= 0.0
    ensures a == Min(b, max) ==> r == 0.0
  {
    var b' := if b > max then max else b;
    ProfileMonotone(a, b', max);
    (b' * b' - (2.0 / (3.0 * max)) * b' * b' * b') - (a * a - (2.0 / (3.0 * max)) * a * a * a)
  }

  /** The profile never decreases on [0, max]: the integrand
      2x(1 - x/max) is not negative there. */
  lemma ProfileMonotone(a: real, b: real, max: real)
    requires max > 0.0 && 0.0 <= a <= b <= max
    ensures DiscProfile(a, max) <= DiscProfile(b, max)
  {
    var k := 2.0 / (3.0 * max);
    assert k * (3.0 * max) == 2.0;
    // F(b) - F(a) = (b - a) * ((a + b) - k * (a*a + a*b + b*b))
    assert DiscProfile(b, max) - DiscProfile(a, max)
        == (b - a) * ((a + b) - k * (a * a + a * b + b * b));
    // a*a + a*b + b*b <= (3/2) * max * (a + b), so the second factor is >= 0
    SquareSumBound(a, b, max);
    ScaleMonotone(k, a * a + a * b + b * b, (3.0 / 2.0) * max * (a + b));
    assert k * ((3.0 / 2.0) * max * (a + b)) == a + b;
    ScaleMonotone(b - a, 0.0, (a + b) - k * (a * a + a * b + b * b));
  }

  lemma SquareSumBound(a: real, b: real, max: real)
    requires 0.0 <= a <= b <= max
    ensures a * a + a * b + b * b <= (3.0 / 2.0) * max * (a + b)
  {
    var aa, ab, bb, am, bm := a * a, a * b, b * b, a * max, b * max;
    ScaleMonotone(a, a, max);
    ScaleMonotone(b, b, max);
    ScaleMonotone(a, b, max);
    ScaleMonotone(max, a, b);
    assert aa <= am && bb <= bm && ab <= am && am <= bm;
    assert (3.0 / 2.0) * max * (a + b) == 1.5 * am + 1.5 * bm;
  }

  /** Masses of adjacent annuli add up. */
  lemma MassFromDiskAreaAdditive(a: real, b: real, c: real, max: real)
    requires max > 0.0 && 0.0 <= a <= b <= c <= max
    ensures MassFromDiskArea(a, b, max) + MassFromDiskArea(b, c, max) == MassFromDiskArea(a, c, max)
  {
  }

  /** The density is a fraction everywhere on the disc and vanishes at its
      edge, as the comment deriving the profile says. */
  lemma DiscDensityInRange(x: real, max: real)
    requires max > 0.0 && 0.0 <= x <= max
    ensures 0.0 <= DiscDensityAt(x, max) <= 1.0
    ensures DiscDensityAt(max, max) == 0.0
  {
    assert x / max <= 1.0 by {
      assert max / max == 1.0;
    }
  }

  /** The ring colour table: jupiter, saturn, neptune, uranus and
      brown-dwarf like. */
  const RING_COLORS: seq<Color> := [
    Color(156, 122, 98, 217),
    Color(156, 122, 98, 217),
    Color(181, 173, 174, 217),
    Color(130, 122, 98, 217),
    Color(207, 122, 98, 217)]

  // Ring radii, in planet radii, from the rigid-satellite Roche limit.
  const INNER_MIN: real := 1.10
  const INNER_MAX: real := 1.45
  const OUTER_MIN: real := 1.50
  const OUTER_MAX: real := 1.68642

  /** The draws of the ring generator.  Both generators in PickRings are
      seeded alike, so the chance test and `rings_die` read the same first
      double, `die`.  The colour index comes from Int32(5), the jitters
      from Int32(-20, 20), Int32(-20, 10) and Int32(-5, 5), the radii from
      two Fixed() draws. */
  datatype RingDraws = RingDraws(
    die: real,
    colorIdx: int,
    dr: int, dg: int, db: int, da: int,
    innerDie: real, outerDie: real)

  predicate ValidRingDraws(d: RingDraws) {
    && 0.0 <= d.die < 1.0
    && 0 <= d.colorIdx < |RING_COLORS|
    && -20 <= d.dr <= 20 && -20 <= d.dg <= 20 && -20 <= d.db <= 10 && -5 <= d.da <= 5
    && 0.0 <= d.innerDie < 1.0 && 0.0 <= d.outerDie < 1.0
  }

  /** The first ring test: forced, or a gas giant with probability 1/2, or
      a terrestrial planet with probability 1/10. */
  predicate WantsRings(t: BodyType, force: bool, die: real) {
    force || (t == TYPE_PLANET_GAS_GIANT && die < 0.5) || (t == TYPE_PLANET_TERRESTRIAL && die < 0.1)
  }

  /** The rings actually made: the chance test, then `forceRings ||
      rings_die < 0.5` on the same die. */
  predicate MakesRings(t: BodyType, force: bool, die: real) {
    WantsRings(t, force, die) && (force || die < 0.5)
  }

  /** PickRings: reset the rings, then maybe pick a jittered colour and two
      radii. */
  function PickRings(b: SystemBody, force: bool, d: RingDraws): (r: SystemBody)
    requires ValidRingDraws(d)
    ensures r == b.(rings := r.rings)
    ensures HasRings(r) <==> MakesRings(b.bodyType, force, d.die)
    ensures !MakesRings(b.bodyType, force, d.die) ==> r.rings == NO_RINGS
    ensures MakesRings(b.bodyType, force, d.die) ==>
              && INNER_MIN <= r.rings.minRadius < INNER_MAX
              && OUTER_MIN <= r.rings.maxRadius < OUTER_MAX
              && r.rings.minRadius < r.rings.maxRadius
    ensures ValidColor(r.rings.baseColor)
  {
    if MakesRings(b.bodyType, force, d.die) then
      var base := RING_COLORS[d.colorIdx];
      var color := Color(ClampInt(base.r + d.dr, 0, 255), ClampInt(base.g + d.dg, 0, 255),
                         ClampInt(base.b + d.db, 0, 255), ClampInt(base.a + d.da, 0, 255));
      var inner := INNER_MIN + (INNER_MAX - INNER_MIN) * d.innerDie;
      var outer := OUTER_MIN + (OUTER_MAX - OUTER_MIN) * d.outerDie;
      assert (INNER_MAX - INNER_MIN) * d.innerDie < INNER_MAX - INNER_MIN;
      assert (OUTER_MAX - OUTER_MIN) * d.outerDie < OUTER_MAX - OUTER_MIN;
      b.(rings := RingStyle(inner, outer, color))
    else b.(rings := NO_RINGS)
  }

  /** The second test never rejects what the first accepted: on the shared
      die a terrestrial planet passing `< 0.1` also passes `< 0.5`. */
  lemma RingsDieRedundant(t: BodyType, force: bool, die: real)
    ensures MakesRings(t, force, die) <==> WantsRings(t, force, die)
  {
  }

  /** The colour clamps never bite: every table colour plus any allowed
      jitter is already a valid channel value. */
  lemma RingColorClampInactive(d: RingDraws)
    requires ValidRingDraws(d)
    ensures var base := RING_COLORS[d.colorIdx];
            && 0 <= base.r + d.dr <= 255 && 0 <= base.g + d.dg <= 255
            && 0 <= base.b + d.db <= 255 && 0 <= base.a + d.da <= 255
  {
  }

  /** Only gas giants, terrestrial planets and forced bodies get rings. */
  lemma RingsOnlyOnRingedTypes(b: SystemBody, force: bool, d: RingDraws)
    requires ValidRingDraws(d)
    requires !force && b.bodyType != TYPE_PLANET_GAS_GIANT && b.bodyType != TYPE_PLANET_TERRESTRIAL
    ensures !HasRings(PickRings(b, force, d))
  {
  }
}

=== FILE: eclipse.dfy ===
/** The eclipse helpers of the camera: the shadows a light casts on a body
    through third bodies, the fraction of the light disc an occluder
    covers, the transmitted intensity, and the largest shadows. */
module Eclipse {
  import opened Support
  import opened Sorting

  /** A body as the eclipse code sees it.  `castsShadow` says whether it is
      a planet or a star; `sysRadius` is its system body's radius and
      `physRadius` its physical radius; positions are in a common frame. */
  datatype SceneBody = SceneBody(
    id: nat,
    castsShadow: bool,
    isTerrain: bool,
    sysRadius: real,
    physRadius: real,
    position: Vec3)

  /** A shadow in the target's normalised frame: the projected centre of
      the occluder, its radius, and the apparent radius of the light disc
      at the occluder's distance. */
  datatype Shadow = Shadow(centre: Vec3, srad: real, lrad: real)

  /** The radius the target is normalised by. */
  function TargetRadius(b: SceneBody): real {
    if b.isTerrain then b.sysRadius else b.physRadius
  }

  /** Radii are never negative.  A light of radius 0 is allowed: its
      shadows are recorded with a light disc of radius 0. */
  predicate Sized(target: SceneBody, light: SceneBody) {
    TargetRadius(target) >= 0.0 && light.physRadius >= 0.0
  }

  /** The component of the occluder's offset along the light direction. */
  function PerpDist(m: MathLib, target: SceneBody, light: SceneBody, b2: SceneBody): real
    requires Length(m, Sub(light.position, target.position)) != 0.0
  {
    var bLightPos := Sub(light.position, target.position);
    var lightDir := Scale(bLightPos, 1.0 / Length(m, bLightPos));
    Dot(lightDir, Sub(b2.position, target.position))
  }

  /** The occluder lies strictly in front of the target and no farther
      than the light. */
  predicate Between(m: MathLib, target: SceneBody, light: SceneBody, b2: SceneBody) {
    var len := Length(m, Sub(light.position, target.position));
    len != 0.0 && 0.0 < PerpDist(m, target, light, b2) <= len
  }

  /** The shadow one third body casts, if any.  A light at the target's own
      position gives a NaN direction, which no test lets through. */
  function ShadowFor(m: MathLib, target: SceneBody, light: SceneBody, b2: SceneBody): (r: Option<Shadow>)
    requires ValidMath(m) && Sized(target, light)
    ensures r.Some? ==> Between(m, target, light, b2)
    ensures r.Some? ==> r.value.lrad >= 0.0 && r.value.srad >= 0.01 * r.value.lrad
    ensures r.Some? ==> (r.value.lrad > 0.0 <==> light.physRadius > 0.0)
    ensures r.Some? ==> Length(m, r.value.centre) < 1.0 + r.value.srad + r.value.lrad
    ensures TargetRadius(target) == 0.0 ==> r.None?
    ensures r.Some? <==> Occludes(m, target, light, b2)
    ensures r.Some? ==> r.value == Shadow(ProjectedCentre(m, target, light, b2), ShadowRad(target, b2), LightRad(m, target, light, b2))
  {
    var bLightPos := Sub(light.position, target.position);
    var len := Length(m, bLightPos);
    if len == 0.0 then None
    else
      var lightDir := Scale(bLightPos, 1.0 / len);
      var b2pos := Sub(b2.position, target.position);
      var perpDist := Dot(lightDir, b2pos);
      if perpDist <= 0.0 || perpDist > len then None
      else
        var bRadius := TargetRadius(target);
        // Dividing by a zero radius gives infinities or NaN, and the test
        // against 1 + srad + lrad below then fails.
        if bRadius == 0.0 then None
        else
          var srad := b2.sysRadius / bRadius;
          var lrad := (light.physRadius / len) * perpDist / bRadius;
          assert 0.0 < perpDist <= len && bRadius > 0.0;
          LightRadSign(light.physRadius, len, perpDist, bRadius);
          assert perpDist == PerpDist(m, target, light, b2);
          assert lrad == LightRad(m, target, light, b2);
          assert srad == ShadowRad(target, b2);
          if Negligible(srad, lrad) then None
          else
            var centre := Scale(Sub(b2pos, Scale(lightDir, perpDist)), 1.0 / bRadius);
            assert centre == ProjectedCentre(m, target, light, b2);
            if Length(m, centre) < 1.0 + srad + lrad then Some(Shadow(centre, srad, lrad)) else None
  }

  /** The source's test `srad / lrad < 0.01`.  With lrad = 0 the quotient
      is +inf, NaN or -inf as srad is positive, zero or negative, and only
      -inf is below 0.01; so the test holds exactly when srad < 0.01 lrad. */
  predicate Negligible(srad: real, lrad: real)
    requires lrad >= 0.0
    ensures Negligible(srad, lrad) <==> srad < 0.01 * lrad
  {
    RatioTest(srad, lrad);
    if lrad > 0.0 then srad / lrad < 0.01 else srad < 0.0
  }

  lemma RatioTest(srad: real, lrad: real)
    requires lrad >= 0.0
    ensures (if lrad > 0.0 then srad / lrad < 0.01 else srad < 0.0) <==> srad < 0.01 * lrad
  {
    if lrad > 0.0 {
      assert (srad / lrad) * lrad == srad;
      if srad / lrad < 0.01 {
        MulPositive(lrad, 0.01 - srad / lrad);
      } else {
        ScaleMonotone(lrad, 0.01, srad / lrad);
      }
    }
  }

  /** The light disc's apparent radius is never negative, and it is 0
      exactly for a light of radius 0. */
  lemma LightRadSign(physRadius: real, len: real, perpDist: real, bRadius: real)
    requires physRadius >= 0.0 && len > 0.0 && perpDist > 0.0 && bRadius > 0.0
    ensures (physRadius / len) * perpDist / bRadius >= 0.0
    ensures (physRadius / len) * perpDist / bRadius > 0.0 <==> physRadius > 0.0
  {
    if physRadius > 0.0 {
      MulPositive(physRadius / len, perpDist);
    } else {
      assert physRadius / len == 0.0;
    }
    ScaleMonotone(physRadius / len, 0.0, perpDist);
  }

  /** The occluder's radius in units of the target's. */
  function ShadowRad(target: SceneBody, b2: SceneBody): real
    requires TargetRadius(target) > 0.0
  {
    b2.sysRadius / TargetRadius(target)
  }

  /** The light disc's apparent radius at the occluder's distance, in units
      of the target's radius. */
  function LightRad(m: MathLib, target: SceneBody, light: SceneBody, b2: SceneBody): real
    requires Length(m, Sub(light.position, target.position)) != 0.0 && TargetRadius(target) > 0.0
  {
    var len := Length(m, Sub(light.position, target.position));
    (light.physRadius / len) * PerpDist(m, target, light, b2) / TargetRadius(target)
  }

  /** The occluder's centre projected onto the plane across the light
      direction, in units of the target's radius. */
  function ProjectedCentre(m: MathLib, target: SceneBody, light: SceneBody, b2: SceneBody): Vec3
    requires Length(m, Sub(light.position, target.position)) != 0.0 && TargetRadius(target) > 0.0
  {
    var bLightPos := Sub(light.position, target.position);
    var lightDir := Scale(bLightPos, 1.0 / Length(m, bLightPos));
    var offset := Sub(b2.position, target.position);
    Scale(Sub(offset, Scale(lightDir, PerpDist(m, target, light, b2))), 1.0 / TargetRadius(target))
  }

  /** The tests a third body passes to cast a shadow: it lies between the
      target and the light, the target has a size, the occluder is not
      negligible against the light disc, and the discs overlap the
      target. */
  predicate Occludes(m: MathLib, target: SceneBody, light: SceneBody, b2: SceneBody)
    requires Sized(target, light)
  {
    && Between(m, target, light, b2)
    && TargetRadius(target) > 0.0
    && var lrad := LightRad(m, target, light, b2);
    && ShadowRad(target, b2) >= 0.01 * lrad
    && Length(m, ProjectedCentre(m, target, light, b2)) < 1.0 + ShadowRad(target, b2) + lrad
  }

  /** Planets and stars other than the target and the light are the only
      candidates. */
  predicate Candidate(target: SceneBody, light: SceneBody, b2: SceneBody) {
    b2.id != target.id && b2.id != light.id && b2.castsShadow
  }

  /** The well-formedness every shadow CalcShadows produces carries. */
  predicate WellFormedShadow(m: MathLib, s: Shadow) {
    s.lrad >= 0.0 && s.srad >= 0.01 * s.lrad && Length(m, s.centre) < 1.0 + s.srad + s.lrad
  }

  /** CalcShadows over the bodies of the space, in their order; `light` is
      the light's body, None for the synthetic light. */
  function CalcShadows(m: MathLib, light: Option<SceneBody>, target: SceneBody, bodies: seq<SceneBody>): (r: seq<Shadow>)
    requires ValidMath(m)
    requires light.Some? ==> Sized(target, light.value)
    ensures light.None? ==> r == []
    ensures |r| <= |bodies|
    ensures forall s :: s in r ==> WellFormedShadow(m, s)
    ensures forall s :: s in r ==> (s.lrad > 0.0 <==> light.value.physRadius > 0.0)
  {
    if light.None? || |bodies| == 0 then []
    else
      var rest := CalcShadows(m, light, target, bodies[1..]);
      var b2 := bodies[0];
      if !Candidate(target, light.value, b2) then rest
      else match ShadowFor(m, target, light.value, b2)
        case Some(s) => [s] + rest
        case None => rest
  }

  /** Every shadow comes from a candidate body lying between the target and
      the light. */
  lemma {:induction false} ShadowsComeFromOccluders(m: MathLib, light: SceneBody, target: SceneBody, bodies: seq<SceneBody>, s: Shadow)
    requires ValidMath(m) && Sized(target, light)
    requires s in CalcShadows(m, Some(light), target, bodies)
    ensures exists b2 :: b2 in bodies && Candidate(target, light, b2) && Between(m, target, light, b2)
                         && ShadowFor(m, target, light, b2) == Some(s)
  {
    var b2 := bodies[0];
    if Candidate(target, light, b2) && ShadowFor(m, target, light, b2) == Some(s) {
    } else {
      ShadowsComeFromOccluders(m, light, target, bodies[1..], s);
      var w :| w in bodies[1..] && Candidate(target, light, w) && Between(m, target, light, w)
               && ShadowFor(m, target, light, w) == Some(s);
      assert w in bodies;
    }
  }

  /** The shadows of two lists of bodies are the shadows of each, in order. */
  lemma {:induction false} CalcShadowsAppend(m: MathLib, light: Option<SceneBody>, target: SceneBody, a: seq<SceneBody>, b: seq<SceneBody>)
    requires ValidMath(m)
    requires light.Some? ==> Sized(target, light.value)
    ensures CalcShadows(m, light, target, a + b) == CalcShadows(m, light, target, a) + CalcShadows(m, light, target, b)
  {
    if |a| > 0 && light.Some? {
      assert (a + b)[1..] == a[1..] + b;
      CalcShadowsAppend(m, light, target, a[1..], b);
    } else if |a| == 0 {
      assert a + b == b;
    }
  }

  /** The target, the light, a body that is neither planet nor star, and a
      body behind the target or beyond the light never add a shadow. */
  lemma NonOccluderAddsNothing(m: MathLib, light: SceneBody, target: SceneBody, bodies: seq<SceneBody>, b2: SceneBody)
    requires ValidMath(m) && Sized(target, light)
    requires !Candidate(target, light, b2) || !Between(m, target, light, b2)
    ensures CalcShadows(m, Some(light), target, bodies + [b2]) == CalcShadows(m, Some(light), target, bodies)
  {
    CalcShadowsAppend(m, Some(light), target, bodies, [b2]);
    assert CalcShadows(m, Some(light), target, [b2]) == [];
  }

  /** Every candidate body that casts a shadow has it in the list. */
  lemma {:induction false} CalcShadowsKeeps(m: MathLib, light: SceneBody, target: SceneBody, bodies: seq<SceneBody>, b2: SceneBody, s: Shadow)
    requires ValidMath(m) && Sized(target, light)
    requires b2 in bodies && Candidate(target, light, b2)
    requires ShadowFor(m, target, light, b2) == Some(s)
    ensures s in CalcShadows(m, Some(light), target, bodies)
  {
    if bodies[0] != b2 {
      assert b2 in bodies[1..];
      CalcShadowsKeeps(m, light, target, bodies[1..], b2, s);
    }
  }

  /** A candidate body of the space that passes the tests leaves its shadow
      in the list: the converse of ShadowsComeFromOccluders. */
  lemma OccluderCastsShadow(m: MathLib, light: SceneBody, target: SceneBody, bodies: seq<SceneBody>, b2: SceneBody)
    requires ValidMath(m) && Sized(target, light)
    requires b2 in bodies && Candidate(target, light, b2) && Occludes(m, target, light, b2)
    ensures Shadow(ProjectedCentre(m, target, light, b2), ShadowRad(target, b2), LightRad(m, target, light, b2))
              in CalcShadows(m, Some(light), target, bodies)
  {
    CalcShadowsKeeps(m, light, target, bodies, b2, ShadowFor(m, target, light, b2).value);
  }

  /** Clamped cosine of the intersection point along the centre line. */
  function DiscXl(dist: real, rad: real): (r: real)
    ensures -1.0 <= r <= 1.0
  {
    Clamp((dist * dist + 1.0 - rad * rad) / (2.0 * Max(0.001, dist)), -1.0, 1.0)
  }

  /** The same point seen from the second disc's centre, normalised. */
  function DiscXs(dist: real, rad: real): (r: real)
    ensures -1.0 <= r <= 1.0
  {
    Clamp((dist - DiscXl(dist, rad)) / Max(0.001, rad), -1.0, 1.0)
  }

  /** discCovered: the proportion of the unit disc covered by a disc of
      radius `rad` whose centre is `dist` away, clamped into [0, 1]. */
  function DiscCovered(m: MathLib, dist: real, rad: real): (r: real)
    requires ValidMath(m)
    ensures 0.0 <= r <= 1.0
  {
    var radsq := rad * rad;
    var xl := DiscXl(dist, rad);
    var xs := DiscXs(dist, rad);
    var d := m.sqrt(Max(0.0, 1.0 - xl * xl));
    var th := Clamp(m.acos(xl), 0.0, PI);
    var th2 := Clamp(m.acos(xs), 0.0, PI);
    Coverage(th, th2, radsq, dist, d)
  }

  /** The covered area: the two circular segments less the triangles,
      over the unit disc's area, clamped into [0, 1]. */
  function Coverage(th: real, th2: real, radsq: real, dist: real, d: real): real {
    Clamp((th + radsq * th2 - dist * d) / PI, 0.0, 1.0)
  }

  /** When the centres are at least `1 + rad` apart the intersection point
      falls at the far edge of the unit disc. */
  lemma DiscApartXl(dist: real, rad: real)
    requires rad >= 0.0 && dist >= 1.0 + rad
    ensures DiscXl(dist, rad) == 1.0
  {
    assert Max(0.001, dist) == dist;
    assert (dist - 1.0) * (dist - 1.0) >= rad * rad by {
      ScaleMonotone(dist - 1.0, rad, dist - 1.0);
      ScaleMonotone(rad, rad, dist - 1.0);
    }
    assert dist * dist + 1.0 - rad * rad >= 2.0 * dist;
    DivMonotone(2.0 * dist, dist * dist + 1.0 - rad * rad, 2.0 * dist);
  }

  /** Discs whose centres are at least `1 + rad` apart leave a residue no
      larger than the square of the small radius. */
  lemma DiscApartResidue(m: MathLib, dist: real, rad: real)
    requires ValidMath(m)
    requires rad >= 0.0 && dist >= 1.0 + rad
    ensures DiscCovered(m, dist, rad) <= rad * rad
  {
    DiscApartXl(dist, rad);
    DiscCoveredAt(m, dist, rad);
    var xl := DiscXl(dist, rad);
    var th := Clamp(m.acos(xl), 0.0, PI);
    var d := m.sqrt(Max(0.0, 1.0 - xl * xl));
    assert xl == 1.0 && Max(0.0, 1.0 - xl * xl) == 0.0;
    assert th == 0.0 && d == 0.0;
    ResidueBound(rad * rad, th, Clamp(m.acos(DiscXs(dist, rad)), 0.0, PI), dist, d);
  }

  /** discCovered in terms of its two clamped cosines. */
  lemma DiscCoveredAt(m: MathLib, dist: real, rad: real)
    requires ValidMath(m)
    ensures DiscCovered(m, dist, rad)
            == Coverage(Clamp(m.acos(DiscXl(dist, rad)), 0.0, PI), Clamp(m.acos(DiscXs(dist, rad)), 0.0, PI), rad * rad,
                        dist, m.sqrt(Max(0.0, 1.0 - DiscXl(dist, rad) * DiscXl(dist, rad))))
  {
  }

  /** With no light-side angle and no chord, only the occluder's segment
      remains, and it is at most radsq. */
  lemma ResidueBound(radsq: real, th: real, th2: real, dist: real, d: real)
    requires radsq >= 0.0 && 0.0 <= th2 <= PI && th == 0.0 && d == 0.0
    ensures Coverage(th, th2, radsq, dist, d) <= radsq
  {
    assert th + radsq * th2 - dist * d == radsq * th2;
    ScaleMonotone(radsq, th2, PI);
    DivMonotone(radsq * th2, radsq * PI, PI);
    assert (radsq * PI) / PI == radsq;
  }

  /** Discs that do not overlap cover nothing, once the small radius is not
      below the divisor floor 0.001 or the gap reaches it. */
  lemma DiscApartUncovered(m: MathLib, dist: real, rad: real)
    requires ValidMath(m)
    requires rad >= 0.0 && dist >= 1.0 + rad
    requires rad >= 0.001 || dist >= 1.001
    ensures DiscCovered(m, dist, rad) == 0.0
  {
    DiscApartXl(dist, rad);
    DiscApartXs(dist, rad);
    DiscCoveredAt(m, dist, rad);
    var xl := DiscXl(dist, rad);
    assert Max(0.0, 1.0 - xl * xl) == 0.0;
    CoverageNone(rad * rad, dist);
  }

  /** ... and so does the second disc's cosine. */
  lemma DiscApartXs(dist: real, rad: real)
    requires DiscXl(dist, rad) == 1.0
    requires rad >= 0.0 && dist >= 1.0 + rad
    requires rad >= 0.001 || dist >= 1.001
    ensures DiscXs(dist, rad) == 1.0
  {
    var q := Max(0.001, rad);
    assert dist - 1.0 >= q;
    DivMonotone(q, dist - 1.0, q);
    DivSelf(q);
  }

  lemma CoverageNone(radsq: real, dist: real)
    ensures Coverage(0.0, 0.0, radsq, dist, 0.0) == 0.0
  {
  }

  /** Below the divisor floor the "apart" case leaks: a disc of radius
      0.0005 whose centre is 1.0005 away still reports some coverage. */
  lemma DiscTinyOccluderLeaks(m: MathLib)
    requires ValidMath(m)
    ensures DiscCovered(m, 1.0005, 0.0005) > 0.0
  {
    DiscApartXl(1.0005, 0.0005);
    var xl := DiscXl(1.0005, 0.0005);
    assert DiscXs(1.0005, 0.0005) == 0.5;
    assert 0.0 < m.acos(0.5) <= PI;
    assert Max(0.0, 1.0 - xl * xl) == 0.0;
  }

  /** The last step of the concentric case: the two angles already make up
      a half turn. */
  lemma CoverageSaturates(th: real, th2: real, radsq: real, d: real)
    requires radsq >= 1.0 && th2 >= 0.0 && th + th2 >= PI
    ensures Clamp((th + radsq * th2 - 0.0 * d) / PI, 0.0, 1.0) == 1.0
  {
    ScaleMonotone(th2, 1.0, radsq);
    DivMonotone(PI, th + radsq * th2 - 0.0 * d, PI);
  }

  /** With the centres together and `rad >= 1`, the intersection cosine is
      not positive and the second disc's cosine lies in [0, -xl]. */
  lemma ConcentricCosines(rad: real)
    requires rad >= 1.0
    ensures DiscXl(0.0, rad) <= 0.0
    ensures 0.0 <= DiscXs(0.0, rad) <= -DiscXl(0.0, rad)
  {
    var xl := DiscXl(0.0, rad);
    assert xl <= 0.0 by {
      ScaleMonotone(rad, 1.0, rad);
      assert 1.0 - rad * rad <= 0.0;
      DivMonotone(1.0 - rad * rad, 0.0, 2.0 * 0.001);
    }
    assert Max(0.001, rad) == rad;
    DivMonotone(0.0, -xl, rad);
    var q := -xl / rad;
    assert q <= -xl by {
      assert 0.0 / rad == 0.0;
      assert q * rad == -xl;
      ScaleMonotone(q, 1.0, rad);
      assert q * 1.0 == q;
    }
  }

  /** A concentric disc at least as large as the unit disc covers all of it. */
  lemma DiscConcentricCovers(m: MathLib, rad: real)
    requires ValidMath(m)
    requires rad >= 1.0
    ensures DiscCovered(m, 0.0, rad) == 1.0
  {
    ConcentricCosines(rad);
    var xl := DiscXl(0.0, rad);
    var xs := DiscXs(0.0, rad);
    var th := Clamp(m.acos(xl), 0.0, PI);
    var th2 := Clamp(m.acos(xs), 0.0, PI);
    assert th + th2 >= PI by {
      assert th == m.acos(xl);
      assert th2 == m.acos(xs);
      assert m.acos(-xl) <= m.acos(xs);
      assert m.acos(xl) + m.acos(-xl) == PI;
    }
    CoverageSaturates(th, th2, rad * rad, m.sqrt(Max(0.0, 1.0 - xl * xl)));
  }

  /** A concentric disc of any positive radius covers part of the unit
      disc. */
  lemma DiscConcentricDims(m: MathLib, rad: real)
    requires ValidMath(m)
    requires rad > 0.0
    ensures DiscCovered(m, 0.0, rad) > 0.0
  {
    DiscCoveredAt(m, 0.0, rad);
    var xl := DiscXl(0.0, rad);
    var xs := DiscXs(0.0, rad);
    ConcentricSecondCosine(rad);
    SegmentPositive(m, xs);
    var th := Clamp(m.acos(xl), 0.0, PI);
    var th2 := Clamp(m.acos(xs), 0.0, PI);
    CoverageDims(th, th2, rad, rad, m.sqrt(Max(0.0, 1.0 - xl * xl)));
  }

  /** A cosine below 1 has a positive clamped angle. */
  lemma SegmentPositive(m: MathLib, x: real)
    requires ValidMath(m) && -1.0 <= x < 1.0
    ensures Clamp(m.acos(x), 0.0, PI) > 0.0
  {
  }

  /** With the centres together, the second disc's cosine stays below 1, so
      its segment is never empty. */
  lemma ConcentricSecondCosine(rad: real)
    requires rad > 0.0
    ensures DiscXs(0.0, rad) < 1.0
  {
    var xl := DiscXl(0.0, rad);
    var q := Max(0.001, rad);
    if rad <= 1.0 {
      ConcentricFirstCosine(rad);
      DivMonotone(-xl, 0.0, q);
      assert 0.0 / q == 0.0;
    } else {
      assert q == rad;
      DivMonotone(-xl, 1.0, rad);
      assert 1.0 / rad < 1.0 by {
        assert (1.0 / rad) * rad == 1.0;
      }
    }
    ClampBelow((0.0 - xl) / q, -1.0, 1.0);
  }

  /** With the centres together and `rad <= 1`, the intersection cosine is
      not negative. */
  lemma ConcentricFirstCosine(rad: real)
    requires 0.0 < rad <= 1.0
    ensures DiscXl(0.0, rad) >= 0.0
  {
    ScaleMonotone(rad, rad, 1.0);
    assert rad * rad <= rad * 1.0;
    assert rad * 1.0 == rad;
    assert 1.0 - rad * rad >= 0.0;
    assert Max(0.001, 0.0) == 0.001;
    DivMonotone(0.0, 1.0 - rad * rad, 2.0 * 0.001);
  }

  lemma ClampBelow(x: real, lo: real, hi: real)
    requires lo < hi && x < hi
    ensures Clamp(x, lo, hi) < hi
  {
  }

  /** The concentric coverage is positive once the second segment is.  The
      square is taken as a product of two factors, which the solver handles
      better than a repeated one. */
  lemma CoverageDims(th: real, th2: real, r1: real, r2: real, d: real)
    requires th >= 0.0 && th2 > 0.0 && r1 > 0.0 && r2 > 0.0
    ensures Coverage(th, th2, r1 * r2, 0.0, d) > 0.0
  {
    MulPositive3(r1, r2, th2);
    var t := th + r1 * r2 * th2 - 0.0 * d;
    assert t > 0.0;
    assert t / PI > 0.0;
  }

  lemma MulPositive3(a: real, b: real, c: real)
    requires a > 0.0 && b > 0.0 && c > 0.0
    ensures a * b * c > 0.0
  {
    MulPositive(a, b);
    MulPositive(a * b, c);
  }

  /** One shadow's transmittance factor. */
  function Transmit(m: MathLib, s: Shadow): (r: real)
    requires ValidMath(m) && s.lrad > 0.0
    ensures 0.0 <= r <= 1.0
  {
    1.0 - DiscCovered(m, Length(m, s.centre) / s.lrad, s.srad / s.lrad)
  }

  /** The transmittance factor of every shadow, in order. */
  function Factors(m: MathLib, shadows: seq<Shadow>): (r: seq<real>)
    requires ValidMath(m)
    requires forall s :: s in shadows ==> s.lrad > 0.0
    ensures |r| == |shadows|
    ensures forall i :: 0 <= i < |r| ==> 0.0 <= r[i] <= 1.0
  {
    if |shadows| == 0 then [] else [Transmit(m, shadows[0])] + Factors(m, shadows[1..])
  }

  predicate Fractions(xs: seq<real>) {
    forall i :: 0 <= i < |xs| ==> 0.0 <= xs[i] <= 1.0
  }

  /** The product of a list of fractions. */
  function Product(xs: seq<real>): (r: real)
    requires Fractions(xs)
    ensures 0.0 <= r <= 1.0
    ensures |xs| == 0 ==> r == 1.0
  {
    if |xs| == 0 then 1.0
    else
      var rest := Product(xs[1..]);
      assert 0.0 <= xs[0] * rest <= rest by {
        ScaleMonotone(rest, xs[0], 1.0);
      }
      xs[0] * rest
  }

  /** The product multiplies over concatenation. */
  lemma {:induction false} ProductAppend(a: seq<real>, b: seq<real>)
    requires Fractions(a) && Fractions(b)
    ensures Fractions(a + b)
    ensures Product(a + b) == Product(a) * Product(b)
  {
    assert Fractions(a + b) by {
      forall i | 0 <= i < |a + b|
        ensures 0.0 <= (a + b)[i] <= 1.0
      {
        if i >= |a| {
          assert (a + b)[i] == b[i - |a|];
        }
      }
    }
    if |a| == 0 {
      assert a + b == b;
    } else {
      assert (a + b)[1..] == a[1..] + b;
      ProductAppend(a[1..], b);
      MulAssoc(a[0], Product(a[1..]), Product(b));
    }
  }

  /** A factor of one leaves the product unchanged. */
  lemma {:induction false} ProductIgnoresOnes(a: seq<real>, b: seq<real>)
    requires Fractions(a) && Fractions(b)
    ensures Fractions(a + [1.0] + b)
    ensures Product(a + [1.0] + b) == Product(a + b)
  {
    ProductAppend(a, [1.0]);
    ProductAppend(a + [1.0], b);
    ProductAppend(a, b);
  }

  /** The disc routine divides by each shadow's lrad and asserts that no
      NaN comes out, so a light of radius 0 may reach ShadowedIntensity
      only when it casts no shadow on the target. */
  predicate DiscReady(m: MathLib, light: Option<SceneBody>, target: SceneBody, bodies: seq<SceneBody>)
    requires ValidMath(m)
    requires light.Some? ==> Sized(target, light.value)
  {
    light.Some? && light.value.physRadius == 0.0 ==> CalcShadows(m, light, target, bodies) == []
  }

  /** ShadowedIntensity for one light and one body: the product of the
      transmittances of its shadows. */
  function ShadowedIntensity(m: MathLib, light: Option<SceneBody>, target: SceneBody, bodies: seq<SceneBody>): (r: real)
    requires ValidMath(m)
    requires light.Some? ==> Sized(target, light.value)
    requires DiscReady(m, light, target, bodies)
    ensures 0.0 <= r <= 1.0
    ensures light.None? ==> r == 1.0
    ensures CalcShadows(m, light, target, bodies) == [] ==> r == 1.0
  {
    Product(Factors(m, CalcShadows(m, light, target, bodies)))
  }

  /** The i-th factor is the i-th shadow's transmittance. */
  lemma {:induction false} FactorAt(m: MathLib, shadows: seq<Shadow>, i: nat)
    requires ValidMath(m) && forall s :: s in shadows ==> s.lrad > 0.0
    requires i < |shadows|
    ensures Factors(m, shadows)[i] == Transmit(m, shadows[i])
  {
    if i > 0 {
      assert forall s :: s in shadows[1..] ==> s in shadows;
      FactorAt(m, shadows[1..], i - 1);
    }
  }

  /** A product of fractions is at most each of them. */
  lemma {:induction false} ProductAtMost(xs: seq<real>, i: nat)
    requires Fractions(xs) && i < |xs|
    ensures Product(xs) <= xs[i]
  {
    ProductHead(xs);
    if i > 0 {
      ProductAtMost(xs[1..], i - 1);
      assert xs[1..][i - 1] == xs[i];
    }
  }

  /** The product is at most its first factor and at most the product of
      the rest. */
  lemma {:induction false} ProductHead(xs: seq<real>)
    requires Fractions(xs) && |xs| > 0
    ensures Fractions(xs[1..])
    ensures Product(xs) <= xs[0] && Product(xs) <= Product(xs[1..])
  {
    ProductUnfolds(xs);
    FractionTimes(Product(xs), xs[0], Product(xs[1..]));
  }

  /** The first factor times the product of the rest. */
  lemma {:induction false} ProductUnfolds(xs: seq<real>)
    requires Fractions(xs) && |xs| > 0
    ensures Fractions(xs[1..])
    ensures Product(xs) == xs[0] * Product(xs[1..])
  {
    assert Fractions(xs[1..]);
  }

  /** A product of two fractions is at most either. */
  lemma FractionTimes(p: real, x: real, y: real)
    requires p == x * y && 0.0 <= x <= 1.0 && 0.0 <= y <= 1.0
    ensures p <= x && p <= y
  {
    FractionsShrink(x, y);
  }

  lemma FractionsShrink(x: real, y: real)
    requires 0.0 <= x <= 1.0 && 0.0 <= y <= 1.0
    ensures x * y <= x && x * y <= y
  {
    ScaleMonotone(x, y, 1.0);
    ScaleMonotone(y, x, 1.0);
    assert y * x == x * y;
  }

  /** The light reaching the target is at most what any one of its shadows
      lets through: every eclipse dims it. */
  lemma {:induction false} ShadowedIntensityAtMostEach(m: MathLib, light: Option<SceneBody>, target: SceneBody, bodies: seq<SceneBody>, s: Shadow)
    requires ValidMath(m)
    requires light.Some? ==> Sized(target, light.value)
    requires DiscReady(m, light, target, bodies)
    requires s in CalcShadows(m, light, target, bodies)
    ensures ShadowedIntensity(m, light, target, bodies) <= Transmit(m, s)
  {
    var shadows := CalcShadows(m, light, target, bodies);
    var i :| 0 <= i < |shadows| && shadows[i] == s;
    FactorAt(m, shadows, i);
    ProductAtMost(Factors(m, shadows), i);
  }

  /** A light, an occluder on the line to the light and a target: the
      occluder casts a shadow, and a light with a size is dimmed, wholly so
      when the occluder looks at least as large as the light disc. */
  lemma CollinearOccluderDims(m: MathLib, light: SceneBody, target: SceneBody, bodies: seq<SceneBody>, b2: SceneBody)
    requires ValidMath(m) && Sized(target, light)
    requires b2 in bodies && Candidate(target, light, b2)
    requires Between(m, target, light, b2) && TargetRadius(target) > 0.0
    requires ProjectedCentre(m, target, light, b2) == Vec3(0.0, 0.0, 0.0)
    requires ShadowRad(target, b2) >= 0.01 * LightRad(m, target, light, b2)
    ensures CalcShadows(m, Some(light), target, bodies) != []
    ensures light.physRadius > 0.0 ==> ShadowedIntensity(m, Some(light), target, bodies) < 1.0
    ensures light.physRadius > 0.0 && ShadowRad(target, b2) >= LightRad(m, target, light, b2) ==>
              ShadowedIntensity(m, Some(light), target, bodies) == 0.0
  {
    CollinearShadowListed(m, light, target, bodies, b2);
    if light.physRadius > 0.0 {
      var s := Shadow(ProjectedCentre(m, target, light, b2), ShadowRad(target, b2), LightRad(m, target, light, b2));
      LightRadNonNegative(m, target, light, b2);
      ZeroLength(m, s.centre);
      ConcentricTransmit(m, s);
      DimmedByShadow(m, light, target, bodies, s);
    }
  }

  /** The collinear occluder's shadow is in the list, whatever the light's
      size. */
  lemma CollinearShadowListed(m: MathLib, light: SceneBody, target: SceneBody, bodies: seq<SceneBody>, b2: SceneBody)
    requires ValidMath(m) && Sized(target, light)
    requires b2 in bodies && Candidate(target, light, b2)
    requires Between(m, target, light, b2) && TargetRadius(target) > 0.0
    requires ProjectedCentre(m, target, light, b2) == Vec3(0.0, 0.0, 0.0)
    requires ShadowRad(target, b2) >= 0.01 * LightRad(m, target, light, b2)
    ensures Shadow(ProjectedCentre(m, target, light, b2), ShadowRad(target, b2), LightRad(m, target, light, b2))
              in CalcShadows(m, Some(light), target, bodies)
    ensures CalcShadows(m, Some(light), target, bodies) != []
  {
    CollinearOccludes(m, target, light, b2);
    OccluderCastsShadow(m, light, target, bodies, b2);
    NonEmpty(Shadow(ProjectedCentre(m, target, light, b2), ShadowRad(target, b2), LightRad(m, target, light, b2)),
             CalcShadows(m, Some(light), target, bodies));
  }

  lemma NonEmpty<T>(x: T, xs: seq<T>)
    requires x in xs
    ensures xs != []
  {
  }

  /** A shadow that lets less than all the light through dims the target,
      and one that lets none through darkens it. */
  lemma DimmedByShadow(m: MathLib, light: SceneBody, target: SceneBody, bodies: seq<SceneBody>, s: Shadow)
    requires ValidMath(m) && Sized(target, light) && light.physRadius > 0.0
    requires s in CalcShadows(m, Some(light), target, bodies)
    ensures CalcShadows(m, Some(light), target, bodies) != []
    ensures Transmit(m, s) < 1.0 ==> ShadowedIntensity(m, Some(light), target, bodies) < 1.0
    ensures Transmit(m, s) == 0.0 ==> ShadowedIntensity(m, Some(light), target, bodies) == 0.0
  {
    ShadowedIntensityAtMostEach(m, Some(light), target, bodies, s);
  }

  /** An occluder on the line to the light that is not negligible passes
      every test. */
  lemma CollinearOccludes(m: MathLib, target: SceneBody, light: SceneBody, b2: SceneBody)
    requires ValidMath(m) && Sized(target, light)
    requires Between(m, target, light, b2) && TargetRadius(target) > 0.0
    requires ProjectedCentre(m, target, light, b2) == Vec3(0.0, 0.0, 0.0)
    requires ShadowRad(target, b2) >= 0.01 * LightRad(m, target, light, b2)
    ensures LightRad(m, target, light, b2) >= 0.0
    ensures LightRad(m, target, light, b2) > 0.0 <==> light.physRadius > 0.0
    ensures Occludes(m, target, light, b2)
  {
    LightRadNonNegative(m, target, light, b2);
    assert Length(m, ProjectedCentre(m, target, light, b2)) < 1.0 + ShadowRad(target, b2) + LightRad(m, target, light, b2) by {
      ZeroLength(m, ProjectedCentre(m, target, light, b2));
      InsideUnitDisc(ShadowRad(target, b2), LightRad(m, target, light, b2));
    }
  }

  /** The light disc's apparent radius at an occluder between the target
      and the light is never negative, and positive iff the light has a
      size. */
  lemma LightRadNonNegative(m: MathLib, target: SceneBody, light: SceneBody, b2: SceneBody)
    requires ValidMath(m) && Sized(target, light)
    requires Between(m, target, light, b2) && TargetRadius(target) > 0.0
    ensures LightRad(m, target, light, b2) >= 0.0
    ensures LightRad(m, target, light, b2) > 0.0 <==> light.physRadius > 0.0
  {
    var len := Length(m, Sub(light.position, target.position));
    LightRadSign(light.physRadius, len, PerpDist(m, target, light, b2), TargetRadius(target));
  }

  lemma InsideUnitDisc(srad: real, lrad: real)
    requires lrad >= 0.0 && srad >= 0.01 * lrad
    ensures 0.0 < 1.0 + srad + lrad
  {
  }

  /** An occluder at least 0.01 of the light disc has a ratio of at least
      0.01, and of at least 1 when it is as large as the disc. */
  lemma RatioBounds(srad: real, lrad: real)
    requires lrad > 0.0 && srad >= 0.01 * lrad
    ensures srad > 0.0 && srad / lrad >= 0.01
    ensures srad >= lrad ==> srad / lrad >= 1.0
  {
    MulPositive(0.01, lrad);
    DivMonotone(0.01 * lrad, srad, lrad);
    assert (0.01 * lrad) / lrad == 0.01;
    if srad >= lrad {
      DivMonotone(lrad, srad, lrad);
    }
  }

  lemma ZeroLength(m: MathLib, v: Vec3)
    requires ValidMath(m) && v == Vec3(0.0, 0.0, 0.0)
    ensures Length(m, v) == 0.0
  {
  }

  /** A shadow centred on the target lets less than all the light through,
      and none once the occluder covers the light disc. */
  lemma ConcentricTransmit(m: MathLib, s: Shadow)
    requires ValidMath(m)
    requires Length(m, s.centre) == 0.0 && s.lrad > 0.0 && s.srad >= 0.01 * s.lrad
    ensures Transmit(m, s) < 1.0
    ensures s.srad >= s.lrad ==> Transmit(m, s) == 0.0
  {
    CentredTransmit(m, s);
    RatioBounds(s.srad, s.lrad);
    DiscConcentricDims(m, s.srad / s.lrad);
    if s.srad >= s.lrad {
      DiscConcentricCovers(m, s.srad / s.lrad);
    }
  }

  /** A shadow centred on the target transmits what a concentric disc
      leaves uncovered. */
  lemma CentredTransmit(m: MathLib, s: Shadow)
    requires ValidMath(m)
    requires Length(m, s.centre) == 0.0 && s.lrad > 0.0
    ensures Transmit(m, s) == 1.0 - DiscCovered(m, 0.0, s.srad / s.lrad)
  {
    assert Length(m, s.centre) / s.lrad == 0.0;
  }

  /** A target of radius 0 (a stellar black hole) is never eclipsed. */
  lemma {:induction false} PointTargetUnshadowed(m: MathLib, light: Option<SceneBody>, target: SceneBody, bodies: seq<SceneBody>)
    requires ValidMath(m)
    requires light.Some? ==> Sized(target, light.value)
    requires TargetRadius(target) == 0.0
    ensures CalcShadows(m, light, target, bodies) == []
    ensures ShadowedIntensity(m, light, target, bodies) == 1.0
  {
    if light.Some? && |bodies| > 0 {
      PointTargetUnshadowed(m, light, target, bodies[1..]);
    }
  }

  /** A well-formed shadow whose occluder disc misses the light disc
      transmits everything: the ratio filter keeps the small radius above
      the divisor floor, so the disc test is exact. */
  lemma MissedShadowTransmitsAll(m: MathLib, s: Shadow)
    requires ValidMath(m) && WellFormedShadow(m, s) && s.lrad > 0.0
    requires Length(m, s.centre) >= s.srad + s.lrad
    ensures Transmit(m, s) == 1.0
  {
    var dist := Length(m, s.centre) / s.lrad;
    var rad := s.srad / s.lrad;
    DivMonotone(0.01 * s.lrad, s.srad, s.lrad);
    DivMonotone(s.srad + s.lrad, Length(m, s.centre), s.lrad);
    NormalisedRadii(s.srad, s.lrad);
    DiscApartUncovered(m, dist, rad);
  }

  /** Dividing by the light's radius maps 0.01 lrad to 0.01 and srad + lrad
      to srad / lrad + 1. */
  lemma NormalisedRadii(srad: real, lrad: real)
    requires lrad > 0.0
    ensures (0.01 * lrad) / lrad == 0.01
    ensures (srad + lrad) / lrad == srad / lrad + 1.0
  {
    assert (srad + lrad) / lrad == srad / lrad + lrad / lrad;
    DivSelf(lrad);
  }

  /** The shadows of the first four lights, light by light. */
  function ShadowsOfLights(m: MathLib, lights: seq<Option<SceneBody>>, target: SceneBody, bodies: seq<SceneBody>): (r: seq<Shadow>)
    requires ValidMath(m)
    requires forall l :: l in lights && l.Some? ==> Sized(target, l.value)
    ensures forall s :: s in r ==> WellFormedShadow(m, s)
    ensures |r| <= |lights| * |bodies|
  {
    if |lights| == 0 then []
    else
      assert forall l :: l in lights[1..] ==> l in lights;
      var here := CalcShadows(m, lights[0], target, bodies);
      var rest := ShadowsOfLights(m, lights[1..], target, bodies);
      RowsBound(|lights|, |bodies|, |here|, |rest|);
      here + rest
  }

  /** One row of at most b shadows on top of (a - 1) rows stays within a * b. */
  lemma RowsBound(a: nat, b: nat, x: nat, y: nat)
    requires a > 0 && x <= b && y <= (a - 1) * b
    ensures x + y <= a * b
  {
    assert a * b == b + (a - 1) * b;
  }

  /** PrincipalShadows: the shadows of at most the first four lights, sorted
      by `less` (Shadow's `operator<`, declared in Camera.h, which is not
      part of this model) and read from the back, at most `n` of them.
      The source appends them to the caller's list without clearing it
      first; the model returns the new shadows alone. */
  function PrincipalShadows(m: MathLib, lights: seq<Option<SceneBody>>, target: SceneBody, bodies: seq<SceneBody>,
                            n: int, less: (Shadow, Shadow) -> bool): (r: seq<Shadow>)
    requires ValidMath(m)
    requires forall l :: l in lights && l.Some? ==> Sized(target, l.value)
    ensures var all := ShadowsOfLights(m, lights[..MinInt(4, |lights|)], target, bodies);
            |r| == MinInt(if n < 0 then 0 else n, |all|)
    ensures forall s :: s in r ==> WellFormedShadow(m, s)
  {
    var all := ShadowsOfLights(m, lights[..MinInt(4, |lights|)], target, bodies);
    var r := Largest(less, all, MinInt(if n < 0 then 0 else n, |all|));
    forall s | s in r
      ensures WellFormedShadow(m, s)
    {
      assert s in multiset(r);
    }
    r
  }

  /** The principal shadows are the largest ones, largest first, and drawn
      from the shadows of the first four lights. */
  lemma PrincipalShadowsAreLargest(m: MathLib, lights: seq<Option<SceneBody>>, target: SceneBody, bodies: seq<SceneBody>,
                                   n: int, less: (Shadow, Shadow) -> bool)
    requires ValidMath(m)
    requires forall l :: l in lights && l.Some? ==> Sized(target, l.value)
    requires StrictWeakOrder(less)
    ensures var all := ShadowsOfLights(m, lights[..MinInt(4, |lights|)], target, bodies);
            var r := PrincipalShadows(m, lights, target, bodies, n, less);
            && multiset(r) <= multiset(all)
            && (forall i, j :: 0 <= i < j < |r| ==> !less(r[i], r[j]))
            && (forall x, y :: x in r && y in multiset(all) - multiset(r) ==> !less(x, y))
  {
    var all := ShadowsOfLights(m, lights[..MinInt(4, |lights|)], target, bodies);
    LargestAreLargest(less, all, MinInt(if n < 0 then 0 else n, |all|));
  }
}

=== FILE: economy.dfy ===
/** The economic tail of system population: the choice of a system's
    economy type, and the normalisation of its trade balances into base
    price adjustments. */
module Economy {
  import opened Support

  // ---------------------------------------------------------------- economy type

  /** How strongly an economy type rewards each of the system's
      agricultural, industrial and metallicity levels. */
  datatype Generation = Generation(agricultural: real, industrial: real, metallicity: real)

  /** The system levels an economy is scored against. */
  datatype Levels = Levels(agricultural: real, industrial: real, metallicity: real)

  function Score(l: Levels, g: Generation): real {
    l.agricultural * g.agricultural + l.industrial * g.industrial + l.metallicity * g.metallicity
  }

  /** SetEconType: score every economy and keep the first one whose score
      beats everything before it and zero.  None (the invalid economy id)
      when no score is positive. */
  method SetEconType(l: Levels, econs: seq<Generation>) returns (best: Option<nat>)
    ensures best.Some? ==> best.value < |econs|
    ensures best.None? <==> forall k :: 0 <= k < |econs| ==> Score(l, econs[k]) <= 0.0
    ensures best.Some? ==> && Score(l, econs[best.value]) > 0.0
                           && (forall k :: 0 <= k < |econs| ==> Score(l, econs[k]) <= Score(l, econs[best.value]))
                           && (forall k :: 0 <= k < best.value ==> Score(l, econs[k]) < Score(l, econs[best.value]))
  {
    var maximum := 0.0;
    best := None;
    var i := 0;
    while i < |econs|
      invariant 0 <= i <= |econs|
      invariant best.None? ==> maximum == 0.0 && forall k :: 0 <= k < i ==> Score(l, econs[k]) <= 0.0
      invariant best.Some? ==> && best.value < i && maximum == Score(l, econs[best.value]) && maximum > 0.0
                               && (forall k :: 0 <= k < best.value ==> Score(l, econs[k]) < maximum)
      invariant forall k :: 0 <= k < i ==> Score(l, econs[k]) <= maximum
    {
      var score := Score(l, econs[i]);
      if score > maximum {
        maximum := score;
        best := Some(i);
      }
      i := i + 1;
    }
  }

  /** A reference definition: the least index of a maximal positive score. */
  predicate IsFirstBest(l: Levels, econs: seq<Generation>, k: nat) {
    && k < |econs| && Score(l, econs[k]) > 0.0
    && (forall j :: 0 <= j < |econs| ==> Score(l, econs[j]) <= Score(l, econs[k]))
    && (forall j :: 0 <= j < k ==> Score(l, econs[j]) < Score(l, econs[k]))
  }

  /** There is only one first best economy, so the choice is determined by
      the scores alone. */
  lemma FirstBestUnique(l: Levels, econs: seq<Generation>, a: nat, b: nat)
    requires IsFirstBest(l, econs, a) && IsFirstBest(l, econs, b)
    ensures a == b
  {
  }

  // ---------------------------------------------------------------- trade levels

  /** Percent: the largest base price adjustment normalisation produces. */
  const MAX_COMMODITY_BASE_PRICE_ADJUSTMENT: int := 25
  /** The jitter added to every adjusted trade level: Int32(-5, 5). */
  const TRADE_JITTER: int := 5

  function Abs(x: int): nat {
    if x < 0 then -x else x
  }

  /** C++ integer division: the quotient is truncated toward zero. */
  function TruncDiv(a: int, b: int): (q: int)
    requires b != 0
    ensures Abs(q) * Abs(b) <= Abs(a) < (Abs(q) + 1) * Abs(b)
    ensures q == 0 || ((q > 0) <==> ((a > 0) == (b > 0)))
  {
    var d := Abs(a) / Abs(b);
    var q := if (a >= 0) == (b > 0) then d else -d;
    assert Abs(q) == d;
    EuclidAbs(Abs(a), Abs(b), q);
    q
  }

  /** The Euclidean bounds, stated for any quotient of the right magnitude. */
  lemma EuclidAbs(x: nat, y: nat, q: int)
    requires y > 0 && Abs(q) == x / y
    ensures Abs(q) * y <= x < (Abs(q) + 1) * y
  {
    EuclidBounds(x, y);
  }

  lemma EuclidBounds(x: nat, y: nat)
    requires y > 0
    ensures (x / y) * y <= x < (x / y + 1) * y
  {
    assert x == (x / y) * y + x % y;
  }

  /** Truncating division by a positive number keeps order. */
  lemma TruncDivMonotone(a: int, a': int, b: int)
    requires b > 0 && a <= a'
    ensures TruncDiv(a, b) <= TruncDiv(a', b)
  {
    if a >= 0 {
      DivMonotoneInt(a, a', b);
    } else if a' <= 0 {
      DivMonotoneInt(-a', -a, b);
    }
  }

  lemma DivMonotoneInt(a: nat, a': nat, b: nat)
    requires b > 0 && a <= a'
    ensures a / b <= a' / b
  {
    EuclidBounds(a, b);
    EuclidBounds(a', b);
    LessByFactor(a / b, a' / b + 1, b);
  }

  lemma LessByFactor(x: int, y: int, b: int)
    requires b > 0 && x * b < y * b
    ensures x < y
  {
    assert (y - x) * b > 0;
  }

  /** The largest magnitude among the trade levels, starting from zero. */
  function MaxAbs(levels: seq<int>): (m: nat)
    ensures forall i :: 0 <= i < |levels| ==> Abs(levels[i]) <= m
    ensures m == 0 || exists i :: 0 <= i < |levels| && Abs(levels[i]) == m
  {
    if |levels| == 0 then 0
    else
      var rest := MaxAbs(levels[..|levels| - 1]);
      var last := Abs(levels[|levels| - 1]);
      assert forall i :: 0 <= i < |levels| - 1 ==> levels[..|levels| - 1][i] == levels[i];
      if last > rest then last else rest
  }

  /** One normalised level: scaled so the largest magnitude becomes 25. */
  function Normalised(level: int, maximum: nat): (r: int)
    requires Abs(level) <= maximum && maximum > 0
    ensures Abs(r) <= MAX_COMMODITY_BASE_PRICE_ADJUSTMENT
    ensures Abs(level) == maximum ==> Abs(r) == MAX_COMMODITY_BASE_PRICE_ADJUSTMENT
    ensures r == 0 || ((r > 0) <==> (level > 0))
  {
    NormalisedBounds(level, maximum, level * MAX_COMMODITY_BASE_PRICE_ADJUSTMENT);
    TruncDiv(level * MAX_COMMODITY_BASE_PRICE_ADJUSTMENT, maximum)
  }

  lemma NormalisedBounds(level: int, maximum: nat, scaled: int)
    requires Abs(level) <= maximum && maximum > 0
    requires scaled == level * MAX_COMMODITY_BASE_PRICE_ADJUSTMENT
    ensures Abs(TruncDiv(scaled, maximum)) <= MAX_COMMODITY_BASE_PRICE_ADJUSTMENT
    ensures Abs(level) == maximum ==> Abs(TruncDiv(scaled, maximum)) == MAX_COMMODITY_BASE_PRICE_ADJUSTMENT
  {
    var q := Abs(TruncDiv(scaled, maximum));
    assert Abs(scaled) == Abs(level) * MAX_COMMODITY_BASE_PRICE_ADJUSTMENT;
    assert Abs(scaled) <= maximum * MAX_COMMODITY_BASE_PRICE_ADJUSTMENT;
    assert q * maximum < (MAX_COMMODITY_BASE_PRICE_ADJUSTMENT + 1) * maximum;
    LessByFactor(q, MAX_COMMODITY_BASE_PRICE_ADJUSTMENT + 1, maximum);
    if Abs(level) == maximum {
      assert MAX_COMMODITY_BASE_PRICE_ADJUSTMENT * maximum < (q + 1) * maximum;
      LessByFactor(MAX_COMMODITY_BASE_PRICE_ADJUSTMENT, q + 1, maximum);
    }
  }

  predicate ValidJitter(jitter: seq<int>, n: nat) {
    |jitter| == n && forall i :: 0 <= i < n ==> -TRADE_JITTER <= jitter[i] <= TRADE_JITTER
  }

  /** The trade normalisation of Apply: when any balance is non-zero, every
      level is scaled by 25 over the largest magnitude (truncating), then
      jittered by Int32(-5, 5); an all-zero table is left alone and draws
      nothing. */
  method NormaliseTrade(levels: seq<int>, jitter: seq<int>) returns (out: seq<int>)
    requires ValidJitter(jitter, |levels|)
    ensures |out| == |levels|
    ensures MaxAbs(levels) == 0 ==> out == levels
    ensures MaxAbs(levels) > 0 ==> forall i :: 0 <= i < |levels| ==>
              out[i] == Normalised(levels[i], MaxAbs(levels)) + jitter[i]
    ensures forall i :: 0 <= i < |levels| ==>
              Abs(out[i]) <= MAX_COMMODITY_BASE_PRICE_ADJUSTMENT + TRADE_JITTER
  {
    var maximum: nat := 0;
    var i := 0;
    while i < |levels|
      invariant 0 <= i <= |levels|
      invariant maximum == MaxAbs(levels[..i])
    {
      assert levels[..i + 1][..i] == levels[..i];
      maximum := if Abs(levels[i]) > maximum then Abs(levels[i]) else maximum;
      i := i + 1;
    }
    assert levels[..i] == levels;
    if maximum == 0 {
      forall k | 0 <= k < |levels|
        ensures Abs(levels[k]) <= MAX_COMMODITY_BASE_PRICE_ADJUSTMENT + TRADE_JITTER
      {
        assert Abs(levels[k]) <= 0;
      }
      return levels;
    }
    out := [];
    i := 0;
    while i < |levels|
      invariant 0 <= i <= |levels| && |out| == i
      invariant forall k :: 0 <= k < i ==> out[k] == Normalised(levels[k], maximum) + jitter[k]
      invariant forall k :: 0 <= k < i ==> Abs(out[k]) <= MAX_COMMODITY_BASE_PRICE_ADJUSTMENT + TRADE_JITTER
    {
      var scaled := Normalised(levels[i], maximum);
      out := out + [scaled + jitter[i]];
      i := i + 1;
    }
  }

  /** Normalisation keeps the order of the balances (before jitter): a
      commodity in greater surplus keeps at least as high an adjustment. */
  lemma NormalisedMonotone(a: int, b: int, maximum: nat)
    requires Abs(a) <= maximum && Abs(b) <= maximum && maximum > 0 && a <= b
    ensures Normalised(a, maximum) <= Normalised(b, maximum)
  {
    TruncDivMonotone(a * MAX_COMMODITY_BASE_PRICE_ADJUSTMENT, b * MAX_COMMODITY_BASE_PRICE_ADJUSTMENT, maximum);
  }
}

=== FILE: planet_orbits.dfy ===
/** MakePlanetsAround: how planets (around stars) and moons (around planets)
    are spaced through the primary's disc, how a new orbit clears the
    primary's rings, and how the children are named. */
module PlanetOrbits {
  import opened Support
  import opened SystemBodyModel
  import opened DiscRules

  /** Minimum separation between planets: the next orbit starts at 1.35
      times the previous apoapsis. */
  const MIN_SEPARATION: real := 135.0 / 100.0
  const FIXED_PI: real := 103993.0 / 33102.0

  /** The draws of one pass of the placement loop: the periapsis spread
      (NFixed(2)), the eccentricity (NFixed(3)), the mass die (Fixed()),
      the axial tilt die (NFixed(2)), the rotation period in hours
      (Int32(1, 200)) and the inclination die (NDouble(5)). */
  datatype OrbitDraws = OrbitDraws(
    spread: real, ecc: real, massDie: real, tiltDie: real, rotationHours: int, inclinationDie: real)

  predicate ValidOrbitDraws(d: OrbitDraws) {
    && 0.0 <= d.spread < 1.0 && 0.0 <= d.ecc < 1.0 && 0.0 <= d.massDie < 1.0
    && 0.0 <= d.tiltDie < 1.0 && 1 <= d.rotationHours <= 200 && 0.0 <= d.inclinationDie < 1.0
  }

  predicate AllValid(ds: seq<OrbitDraws>) {
    forall i :: 0 <= i < |ds| ==> ValidOrbitDraws(ds[i])
  }

  lemma AllValidTail(draws: seq<OrbitDraws>)
    requires AllValid(draws) && |draws| > 0
    ensures ValidOrbitDraws(draws[0]) && AllValid(draws[1..])
  {
    assert forall i :: 0 <= i < |draws| - 1 ==> draws[1..][i] == draws[i + 1];
  }

  /** One new orbit: its shape, its mass, and the orientation values kept
      on the body. */
  datatype Orbit = Orbit(
    periapsis: real, ecc: real, semiMajorAxis: real, apoapsis: real,
    mass: real, axialTilt: real, rotationPeriod: real, inclination: real)

  /** Where the first orbit is tried: a random point between the disc's
      inner and outer edge.  A stellar black hole has radius 0, so its
      inner edge is 0 and the start can be 0 too. */
  function StartPosition(discMin: real, discMax: real, jump: real): (pos: real)
    requires 0.0 <= discMin && 0.0 <= discMax && 0.0 <= jump < 1.0
    ensures pos >= 0.0
    ensures pos > 0.0 <==> discMin > 0.0 || (jump > 0.0 && discMax > 0.0)
    ensures discMin <= discMax ==> discMin <= pos <= discMax
  {
    StartBetween(discMin, discMax, jump, (1.0 - jump) * discMin + jump * discMax);
    (1.0 - jump) * discMin + jump * discMax
  }

  lemma StartBetween(discMin: real, discMax: real, jump: real, pos: real)
    requires 0.0 <= discMin && 0.0 <= discMax && 0.0 <= jump < 1.0
    requires pos == (1.0 - jump) * discMin + jump * discMax
    ensures pos >= 0.0
    ensures pos > 0.0 <==> discMin > 0.0 || (jump > 0.0 && discMax > 0.0)
    ensures discMin <= discMax ==> discMin <= pos <= discMax
  {
    var rest := 1.0 - jump;
    MulNonNeg(rest, discMin);
    MulNonNeg(jump, discMax);
    if discMin > 0.0 {
      MulPositive(rest, discMin);
    }
    if jump > 0.0 && discMax > 0.0 {
      MulPositive(jump, discMax);
    }
    if discMin <= discMax {
      var gap := discMax - discMin;
      MulNonNeg(jump, gap);
      MulNonNeg(1.0 - jump, gap);
      assert pos - discMin == jump * gap;
      assert discMax - pos == (1.0 - jump) * gap;
    }
  }

  /** The orbit shape tried at `pos`: periapsis pos plus up to half of pos,
      then semi-major axis and apoapsis from the eccentricity.  At pos 0
      every distance is 0. */
  function Shape(pos: real, d: OrbitDraws): (o: Orbit)
    requires pos >= 0.0 && ValidOrbitDraws(d)
    ensures pos <= o.periapsis <= o.semiMajorAxis <= o.apoapsis
    ensures o.semiMajorAxis * (1.0 - o.ecc) == o.periapsis
    ensures o.periapsis + o.apoapsis == 2.0 * o.semiMajorAxis
    ensures o.ecc == d.ecc && o.mass == 0.0
    ensures pos == 0.0 ==> o.periapsis == 0.0 && o.apoapsis == 0.0
  {
    ShapeFacts(pos, d.spread, pos * (1.0 / 2.0) * d.spread, d.ecc);
    Orbit(pos + pos * (1.0 / 2.0) * d.spread, d.ecc, (pos + pos * (1.0 / 2.0) * d.spread) / (1.0 - d.ecc),
          2.0 * ((pos + pos * (1.0 / 2.0) * d.spread) / (1.0 - d.ecc)) - (pos + pos * (1.0 / 2.0) * d.spread),
          0.0, 100.0 / 157.0 * d.tiltDie, d.rotationHours as real / 24.0, FIXED_PI * (d.inclinationDie / 2.0))
  }

  lemma ShapeFacts(pos: real, spread: real, jump: real, ecc: real)
    requires pos >= 0.0 && 0.0 <= spread < 1.0 && 0.0 <= ecc < 1.0
    requires jump == pos * (1.0 / 2.0) * spread
    ensures jump >= 0.0
    ensures (pos + jump) / (1.0 - ecc) >= pos + jump
    ensures (pos + jump) / (1.0 - ecc) * (1.0 - ecc) == pos + jump
    ensures pos == 0.0 ==> jump == 0.0 && (pos + jump) / (1.0 - ecc) == 0.0
  {
    BelowScaled(pos * (1.0 / 2.0), spread);
    var peri := pos + jump;
    assert peri / (1.0 - ecc) * (1.0 - ecc) == peri;
    if peri > 0.0 {
      DivAntitone(peri, 1.0 - ecc, 1.0);
    } else {
      ZeroOver(peri, 1.0 - ecc);
    }
  }

  lemma ZeroOver(z: real, c: real)
    requires z == 0.0 && c > 0.0
    ensures z / c == 0.0
  {
  }

  /** The annulus an orbit at `pos` with apoapsis `apo` sweeps for its
      mass: from pos to 1.35 apo, clamped to the disc. */
  function OrbitMass(pos: real, apo: real, discMax: real, density: real, massDie: real): (m: real)
    requires 0.0 <= pos <= apo <= discMax && 0.0 < discMax && density >= 0.0 && 0.0 <= massDie < 1.0
    ensures m >= 0.0
    ensures apo == 0.0 ==> m == 0.0
  {
    MassFromDiskArea(pos, MIN_SEPARATION * apo, discMax) * (massDie * density)
  }

  /** What every placed orbit satisfies. */
  predicate InDisc(o: Orbit, discMax: real) {
    && 0.0 < o.periapsis <= o.apoapsis <= discMax
    && o.mass >= 0.0
    && o.semiMajorAxis * (1.0 - o.ecc) == o.periapsis
  }

  /** One pass of the loop (entered while pos < discMax): the orbit tried
      at `pos`, weighed, or None when its apoapsis leaves the disc.  At
      pos 0 the pass always succeeds, with a point orbit of no mass. */
  function Step(pos: real, discMax: real, density: real, d: OrbitDraws): (r: Option<Orbit>)
    requires 0.0 <= pos < discMax && density >= 0.0 && ValidOrbitDraws(d)
    ensures r.Some? <==> Shape(pos, d).apoapsis <= discMax
    ensures r.Some? && pos > 0.0 ==> InDisc(r.value, discMax)
    ensures r.Some? ==> pos <= r.value.periapsis <= r.value.apoapsis <= discMax
    ensures r.Some? ==> r.value == Shape(pos, d).(mass := r.value.mass)
    ensures pos == 0.0 ==> r.Some? && r.value.periapsis == 0.0 && r.value.apoapsis == 0.0 && r.value.mass == 0.0
  {
    var o := Shape(pos, d);
    if o.apoapsis > discMax then None
    else Some(o.(mass := OrbitMass(pos, o.apoapsis, discMax, density, d.massDie)))
  }

  /** The position the loop reaches after placing `r` from `pos`. */
  function NextPos(pos: real, r: seq<Orbit>): real {
    if |r| == 0 then pos else MIN_SEPARATION * r[|r| - 1].apoapsis
  }

  /** The corrected loop ends at `p`: the position has left the disc or the
      orbit tried there would leave it, which are the source's two exits,
      or the position is not positive, which is the guard the correction
      adds against the endless loop from 0. */
  predicate Halts(p: real, discMax: real, d: OrbitDraws)
    requires ValidOrbitDraws(d)
  {
    p <= 0.0 || p >= discMax || Shape(p, d).apoapsis > discMax
  }

  /** The placement loop of the source, one draw record per pass: stop when
      the position leaves the disc or an apoapsis would; otherwise weigh
      the annulus and move on to 1.35 times the apoapsis.  Only the end of
      the draws bounds it: from pos 0 it never moves. */
  function PlaceAsWritten(pos: real, discMax: real, density: real, draws: seq<OrbitDraws>): (r: seq<Orbit>)
    requires pos >= 0.0 && density >= 0.0 && AllValid(draws)
    ensures |r| <= |draws|
    decreases |draws|
  {
    if |draws| == 0 || pos >= discMax then []
    else
      match Step(pos, discMax, density, draws[0])
      case None => []
      case Some(o) => [o] + PlaceAsWritten(MIN_SEPARATION * o.apoapsis, discMax, density, draws[1..])
  }

  /** From pos 0 inside a non-empty disc the loop places a point orbit of
      no mass on every pass and stays at 0: it takes every draw offered,
      so the source loop, which draws without end, never ends. */
  lemma {:induction false} ZeroStartNeverEnds(discMax: real, density: real, draws: seq<OrbitDraws>)
    requires discMax > 0.0 && density >= 0.0 && AllValid(draws)
    ensures var r := PlaceAsWritten(0.0, discMax, density, draws);
            && |r| == |draws|
            && forall i :: 0 <= i < |r| ==> r[i].periapsis == 0.0 && r[i].apoapsis == 0.0 && r[i].mass == 0.0
    decreases |draws|
  {
    if |draws| > 0 {
      var o := Step(0.0, discMax, density, draws[0]).value;
      assert MIN_SEPARATION * o.apoapsis == 0.0;
      AllValidTail(draws);
      ZeroStartNeverEnds(discMax, density, draws[1..]);
      var rest := PlaceAsWritten(0.0, discMax, density, draws[1..]);
      assert PlaceAsWritten(0.0, discMax, density, draws) == [o] + rest;
    }
  }

  /** The placement loop with the guard it evidently needs: it places
      nothing from a position that is not positive.  The loop also stops
      when the draws run out, and then only then (see Halts). */
  function Place(pos: real, discMax: real, density: real, draws: seq<OrbitDraws>): (r: seq<Orbit>)
    requires pos >= 0.0 && density >= 0.0 && AllValid(draws)
    ensures |r| <= |draws|
    ensures forall i :: 0 <= i < |r| ==> InDisc(r[i], discMax)
    ensures |r| > 0 ==> r[0].periapsis >= pos
    ensures forall i :: 0 <= i < |r| - 1 ==> r[i + 1].periapsis >= MIN_SEPARATION * r[i].apoapsis
    ensures |r| > 0 ==> 0.0 < pos < discMax
    ensures forall i :: 0 <= i < |r| - 1 ==> MIN_SEPARATION * r[i].apoapsis < discMax
    decreases |draws|
  {
    if |draws| == 0 || pos <= 0.0 || pos >= discMax then []
    else
      match Step(pos, discMax, density, draws[0])
      case None => []
      case Some(o) =>
        [o] + Place(MIN_SEPARATION * o.apoapsis, discMax, density, draws[1..])
  }

  /** The corrected loop placed something only after a successful first pass. */
  lemma PlaceNonEmpty(pos: real, discMax: real, density: real, draws: seq<OrbitDraws>)
    requires pos >= 0.0 && density >= 0.0 && AllValid(draws)
    requires |Place(pos, discMax, density, draws)| > 0
    ensures 0.0 < pos < discMax && |draws| > 0 && Step(pos, discMax, density, draws[0]).Some?
  {
  }

  /** A non-empty result: its first orbit, then the loop from 1.35 times
      that orbit's apoapsis on the remaining draws. */
  lemma PlaceHead(pos: real, discMax: real, density: real, draws: seq<OrbitDraws>)
    requires pos >= 0.0 && density >= 0.0 && AllValid(draws)
    requires |Place(pos, discMax, density, draws)| > 0
    ensures var r := Place(pos, discMax, density, draws);
            && |draws| > 0 && pos <= r[0].apoapsis && AllValid(draws[1..])
            && r == [r[0]] + Place(MIN_SEPARATION * r[0].apoapsis, discMax, density, draws[1..])
  {
    PlaceNonEmpty(pos, discMax, density, draws);
    PlaceUnfolds(pos, discMax, density, draws);
    AllValidTail(draws);
  }

  /** One successful pass of the corrected loop. */
  lemma PlaceUnfolds(pos: real, discMax: real, density: real, draws: seq<OrbitDraws>)
    requires 0.0 < pos < discMax && density >= 0.0 && AllValid(draws) && |draws| > 0
    requires Step(pos, discMax, density, draws[0]).Some?
    ensures var o := Step(pos, discMax, density, draws[0]).value;
            Place(pos, discMax, density, draws) == [o] + Place(MIN_SEPARATION * o.apoapsis, discMax, density, draws[1..])
  {
  }

  /** The corrected loop uses up the draws only when it did not stop
      first: when it returns early, it halted at one of the source's exits
      or at the added guard against a position that is not positive. */
  lemma {:induction false} PlaceHaltsAtEdge(pos: real, discMax: real, density: real, draws: seq<OrbitDraws>)
    requires pos >= 0.0 && density >= 0.0 && AllValid(draws)
    ensures var r := Place(pos, discMax, density, draws);
            |r| < |draws| ==> Halts(NextPos(pos, r), discMax, draws[|r|])
    decreases |draws|
  {
    var r := Place(pos, discMax, density, draws);
    if |r| == 0 {
      if |draws| > 0 {
        PlaceEmptyHalts(pos, discMax, density, draws);
      }
    } else {
      PlaceNonEmpty(pos, discMax, density, draws);
      var o := Step(pos, discMax, density, draws[0]).value;
      var next := MIN_SEPARATION * o.apoapsis;
      PlaceUnfolds(pos, discMax, density, draws);
      AllValidTail(draws);
      PlaceHaltsAtEdge(next, discMax, density, draws[1..]);
      if |r| < |draws| {
        NextAfterPass(pos, o, Place(next, discMax, density, draws[1..]), draws);
      }
    }
  }

  /** A loop that placed nothing halted at its start. */
  lemma PlaceEmptyHalts(pos: real, discMax: real, density: real, draws: seq<OrbitDraws>)
    requires pos >= 0.0 && density >= 0.0 && AllValid(draws) && |draws| > 0
    requires Place(pos, discMax, density, draws) == []
    ensures Halts(pos, discMax, draws[0])
  {
    if 0.0 < pos < discMax {
      assert Step(pos, discMax, density, draws[0]).None?;
    }
  }

  /** After a first pass placed `o`, the position and draw the rest of the
      loop stops at are those of the whole loop. */
  lemma NextAfterPass(pos: real, o: Orbit, rest: seq<Orbit>, draws: seq<OrbitDraws>)
    requires |rest| < |draws| - 1
    ensures NextPos(pos, [o] + rest) == NextPos(MIN_SEPARATION * o.apoapsis, rest)
    ensures draws[|[o] + rest|] == draws[1..][|rest|]
  {
  }

  /** Away from 0 the guard changes nothing: the corrected loop is the
      source's loop. */
  lemma {:induction false} PlaceAgreesAwayFromZero(pos: real, discMax: real, density: real, draws: seq<OrbitDraws>)
    requires pos > 0.0 && density >= 0.0 && AllValid(draws)
    ensures Place(pos, discMax, density, draws) == PlaceAsWritten(pos, discMax, density, draws)
    decreases |draws|
  {
    if |draws| > 0 && pos < discMax {
      match Step(pos, discMax, density, draws[0])
      case None =>
      case Some(o) =>
        AllValidTail(draws);
        PlaceAgreesAwayFromZero(MIN_SEPARATION * o.apoapsis, discMax, density, draws[1..]);
    }
  }

  /** 1.35^k: how far k passes at least move the position. */
  function Growth(k: nat): (g: real)
    ensures g >= 1.0
  {
    if k == 0 then 1.0 else MIN_SEPARATION * Growth(k - 1)
  }

  /** From a positive start, k passes suffice once 1.35^k times the start
      reaches the outer edge: the corrected loop ends by itself, whatever
      the draws. */
  lemma PlaceBounded(pos: real, discMax: real, density: real, draws: seq<OrbitDraws>, k: nat)
    requires pos > 0.0 && density >= 0.0 && AllValid(draws)
    requires pos * Growth(k) >= discMax
    ensures |Place(pos, discMax, density, draws)| <= k
  {
    var r := Place(pos, discMax, density, draws);
    ChainBounded(pos, discMax, r, k);
  }

  /** A chain that starts inside the disc and whose every step but the
      last still lands inside it has at most k links once 1.35^k times
      the start reaches the edge. */
  lemma ChainBounded(pos: real, discMax: real, r: seq<Orbit>, k: nat)
    requires pos > 0.0 && Chained(pos, discMax, r) && pos * Growth(k) >= discMax
    requires |r| > 0 ==> pos < discMax
    requires forall i :: 0 <= i < |r| - 1 ==> MIN_SEPARATION * r[i].apoapsis < discMax
    ensures |r| <= k
  {
    if |r| > k {
      ChainReach(pos, discMax, r, k);
      assert false;
    }
  }

  /** Every link of such a chain is tried from a position 1.35^i times the
      start, still inside the disc. */
  lemma ChainReach(pos: real, discMax: real, r: seq<Orbit>, i: nat)
    requires pos > 0.0 && Chained(pos, discMax, r) && i < |r|
    requires pos < discMax
    requires forall i :: 0 <= i < |r| - 1 ==> MIN_SEPARATION * r[i].apoapsis < discMax
    ensures pos * Growth(i) < discMax
  {
    if i > 0 {
      ChainGrows(pos, discMax, r, i - 1);
      GrowthNext(pos, r[i - 1].apoapsis, i);
    }
  }

  /** What the corrected loop's result looks like from the outside: each
      orbit inside the disc, each start beyond 1.35 times the previous
      apoapsis. */
  predicate Chained(pos: real, discMax: real, r: seq<Orbit>) {
    && (forall i :: 0 <= i < |r| ==> InDisc(r[i], discMax))
    && (|r| > 0 ==> r[0].periapsis >= pos)
    && (forall i :: 0 <= i < |r| - 1 ==> r[i + 1].periapsis >= MIN_SEPARATION * r[i].apoapsis)
  }

  /** Along a chain the periapses grow at least like 1.35^i. */
  lemma {:induction false} ChainGrows(pos: real, discMax: real, r: seq<Orbit>, i: nat)
    requires pos > 0.0 && Chained(pos, discMax, r) && i < |r|
    ensures r[i].periapsis >= pos * Growth(i) && r[i].apoapsis >= pos * Growth(i)
  {
    if i > 0 {
      ChainGrows(pos, discMax, r, i - 1);
      GrowthNext(pos, r[i - 1].apoapsis, i);
    }
  }

  lemma GrowthNext(pos: real, x: real, i: nat)
    requires pos > 0.0 && i > 0 && x >= pos * Growth(i - 1)
    ensures MIN_SEPARATION * x >= pos * Growth(i)
  {
    var g := Growth(i - 1);
    assert Growth(i) == MIN_SEPARATION * g;
    ScaleMonotone(MIN_SEPARATION, pos * g, x);
    assert pos * (MIN_SEPARATION * g) == MIN_SEPARATION * (pos * g);
  }

  /** With more draws than that bound, the stream never runs out: from a
      positive start the loop stops at one of the source's own exits. */
  lemma PlaceStopsAtEdge(pos: real, discMax: real, density: real, draws: seq<OrbitDraws>, k: nat)
    requires pos > 0.0 && density >= 0.0 && AllValid(draws)
    requires pos * Growth(k) >= discMax && |draws| > k
    ensures var r := Place(pos, discMax, density, draws);
            |r| < |draws| && Halts(NextPos(pos, r), discMax, draws[|r|])
    ensures NextPos(pos, Place(pos, discMax, density, draws)) > 0.0
  {
    PlaceBounded(pos, discMax, density, draws, k);
    PlaceHaltsAtEdge(pos, discMax, density, draws);
    var r := Place(pos, discMax, density, draws);
    if |r| > 0 {
      assert InDisc(r[|r| - 1], discMax);
    }
  }

  /** Every apoapsis lies below every later periapsis: orbits of the same
      primary never overlap, not even at their ends. */
  lemma OrbitsDisjoint(pos: real, discMax: real, density: real, draws: seq<OrbitDraws>, i: nat, j: nat)
    requires pos >= 0.0 && density >= 0.0 && AllValid(draws)
    requires i < j < |Place(pos, discMax, density, draws)|
    ensures var r := Place(pos, discMax, density, draws);
            r[i].apoapsis < r[j].periapsis && !TestOverlap(r[i].periapsis, r[i].apoapsis, r[j].periapsis, r[j].apoapsis)
  {
    var r := Place(pos, discMax, density, draws);
    ChainDisjoint(pos, discMax, r, i, j);
  }

  lemma {:induction false} ChainDisjoint(pos: real, discMax: real, r: seq<Orbit>, i: nat, j: nat)
    requires Chained(pos, discMax, r) && i < j < |r|
    ensures r[i].apoapsis < r[j].periapsis
    decreases j - i
  {
    assert InDisc(r[j - 1], discMax);
    if j > i + 1 {
      ChainDisjoint(pos, discMax, r, i, j - 1);
    }
  }

  /** Ring clearing, pass by pass: when the primary is a rocky planet that
      had rings, a new orbit overlapping the (current) ring band erases
      them.  The band is read through a reference, so once cleared it is
      the empty band. */
  function ClearRings(ring: RingStyle, clearable: bool, orbits: seq<Orbit>): (r: RingStyle)
    ensures r == ring || r == NO_RINGS
    decreases |orbits|
  {
    if |orbits| == 0 then ring
    else
      var o := orbits[0];
      var ring' := if clearable && TestOverlap(ring.minRadius, ring.maxRadius, o.periapsis, o.apoapsis)
                   then NO_RINGS else ring;
      ClearRings(ring', clearable, orbits[1..])
  }

  /** Rings are erased exactly when some new orbit overlaps the original
      band (and the primary qualifies). */
  lemma {:induction false} RingsClearedIffOverlap(ring: RingStyle, clearable: bool, orbits: seq<Orbit>)
    requires ring != NO_RINGS
    ensures ClearRings(ring, clearable, orbits) == NO_RINGS <==>
            clearable && exists i :: 0 <= i < |orbits| && Overlaps(ring, orbits[i])
    decreases |orbits|
  {
    if |orbits| > 0 {
      if clearable && Overlaps(ring, orbits[0]) {
        NoRingsStay(clearable, orbits[1..]);
      } else {
        RingsClearedIffOverlap(ring, clearable, orbits[1..]);
        assert forall i :: 1 <= i < |orbits| ==> orbits[1..][i - 1] == orbits[i];
      }
    }
  }

  predicate Overlaps(ring: RingStyle, o: Orbit) {
    TestOverlap(ring.minRadius, ring.maxRadius, o.periapsis, o.apoapsis)
  }

  lemma {:induction false} NoRingsStay(clearable: bool, orbits: seq<Orbit>)
    ensures ClearRings(NO_RINGS, clearable, orbits) == NO_RINGS
    decreases |orbits|
  {
    if |orbits| > 0 {
      NoRingsStay(clearable, orbits[1..]);
    }
  }

  // ---------------------------------------------------------------- naming

  /** The suffix of the idx-th named child: " a", " b", ... for planets
      (`'a' + idx` printed with %c, so the code wraps at 256 and a zero
      code ends the string), " 1", " 2", ... for moons. */
  function Suffix(idx: nat, planetScheme: bool): (s: string)
    ensures |s| >= 1 && s[0] == ' '
  {
    if planetScheme then
      var code := (97 + idx) % 256;
      if code == 0 then " " else [' ', code as char]
    else " " + Decimal(1 + idx)
  }

  /** Distinct children get distinct suffixes: always for moons, and for
      the first 256 planets. */
  lemma SuffixInjective(i: nat, j: nat, planetScheme: bool)
    requires i != j
    requires planetScheme ==> i < 256 && j < 256
    ensures Suffix(i, planetScheme) != Suffix(j, planetScheme)
  {
    if !planetScheme {
      DecimalInjective(1 + i, 1 + j);
      assert Suffix(i, false)[1..] == Decimal(1 + i);
      assert Suffix(j, false)[1..] == Decimal(1 + j);
    }
  }

  /** The children that get names: everything but stars (a gravpoint's
      pair). */
  function NonStars(kids: seq<SystemBody>): (n: nat)
    ensures n <= |kids|
  {
    if |kids| == 0 then 0
    else (if kids[0].superType == SUPERTYPE_STAR then 0 else 1) + NonStars(kids[1..])
  }

  lemma {:induction false} NonStarsPrefix(kids: seq<SystemBody>, i: nat)
    requires i < |kids|
    ensures NonStars(kids[..i + 1]) == NonStars(kids[..i]) + (if kids[i].superType == SUPERTYPE_STAR then 0 else 1)
  {
    if i > 0 {
      NonStarsPrefix(kids[1..], i - 1);
      assert kids[..i + 1][1..] == kids[1..][..i];
      assert kids[..i][1..] == kids[1..][..i - 1];
    }
  }

  lemma {:induction false} NonStarsMonotone(kids: seq<SystemBody>, i: nat, j: nat)
    requires i < j <= |kids|
    ensures NonStars(kids[..j]) >= NonStars(kids[..i]) + (if kids[i].superType == SUPERTYPE_STAR then 0 else 1)
    decreases j - i
  {
    NonStarsPrefix(kids, i);
    if j > i + 1 {
      NonStarsMonotone(kids, i + 1, j);
    }
  }

  /** The name the naming loop gives child i. */
  function ChildName(prefix: string, kids: seq<SystemBody>, planetScheme: bool, i: nat): string
    requires i < |kids|
  {
    prefix + Suffix(NonStars(kids[..i]), planetScheme)
  }

  /** The naming loop: stars are skipped and keep their names; every other
      child is named after the primary plus the suffix of its rank among
      the named children. */
  function NameChildren(prefix: string, kids: seq<SystemBody>, planetScheme: bool): (r: seq<SystemBody>)
    ensures |r| == |kids|
    ensures forall i :: 0 <= i < |kids| && kids[i].superType == SUPERTYPE_STAR ==> r[i] == kids[i]
    ensures forall i :: 0 <= i < |kids| && kids[i].superType != SUPERTYPE_STAR ==>
              r[i] == kids[i].(name := ChildName(prefix, kids, planetScheme, i))
  {
    var r := NameFrom(prefix, kids, planetScheme, 0);
    assert forall i :: 0 <= i < |kids| ==> r[i] == NamedAt(prefix, kids, planetScheme, i);
    r
  }

  /** What the naming loop leaves at position k. */
  function NamedAt(prefix: string, kids: seq<SystemBody>, planetScheme: bool, k: nat): SystemBody
    requires k < |kids|
  {
    if kids[k].superType == SUPERTYPE_STAR then kids[k]
    else kids[k].(name := ChildName(prefix, kids, planetScheme, k))
  }

  /** The loop from position i on. */
  function NameFrom(prefix: string, kids: seq<SystemBody>, planetScheme: bool, i: nat): (r: seq<SystemBody>)
    requires i <= |kids|
    ensures |r| == |kids| - i
    ensures forall k :: i <= k < |kids| ==> r[k - i] == NamedAt(prefix, kids, planetScheme, k)
    decreases |kids| - i
  {
    if i == |kids| then []
    else [NamedAt(prefix, kids, planetScheme, i)] + NameFrom(prefix, kids, planetScheme, i + 1)
  }

  /** Named children never share a name: moons always, planets while
      there are at most 256 of them. */
  lemma ChildNamesDistinct(prefix: string, kids: seq<SystemBody>, planetScheme: bool, i: nat, j: nat)
    requires i < j < |kids|
    requires kids[i].superType != SUPERTYPE_STAR && kids[j].superType != SUPERTYPE_STAR
    requires planetScheme ==> NonStars(kids) <= 256
    ensures ChildName(prefix, kids, planetScheme, i) != ChildName(prefix, kids, planetScheme, j)
  {
    NonStarsMonotone(kids, i, j);
    NonStarsMonotone(kids, j, |kids|);
    assert kids[..|kids|] == kids;
    var a, b := NonStars(kids[..i]), NonStars(kids[..j]);
    SuffixInjective(a, b, planetScheme);
    var na, nb := ChildName(prefix, kids, planetScheme, i), ChildName(prefix, kids, planetScheme, j);
    assert na[|prefix|..] == Suffix(a, planetScheme);
    assert nb[|prefix|..] == Suffix(b, planetScheme);
  }

  // ---------------------------------------------------------------- the pass

  /** A new planet or moon: terrestrial until PickPlanetType decides.  Seen
      through the getters it is a rocky body in earth units with no rings,
      no rotation phase and no children, a moon exactly when its primary is
      not a star, and never a jump target. */
  function NewPlanet(o: Orbit, aroundStar: bool): (b: SystemBody)
    ensures b.bodyType == TYPE_PLANET_TERRESTRIAL && b.orbMin == o.periapsis && b.orbMax == o.apoapsis
    ensures b.mass == o.mass && b.isPlanet == aroundStar && b.children == []
    ensures !SolarUnits(b) && GetMassInEarths(b) == o.mass && GetMass(b) == o.mass * EARTH_MASS
    ensures GetRotationPeriod(b) == o.rotationPeriod * 86400.0
    ensures !HasRings(b) && !HasRotationPhase(b) && !HasChildren(b) && GetNumChildren(b) == 0
    ensures IsMoon(b) <==> !aroundStar
    ensures !IsJumpable(b)
  {
    SystemBody("", TYPE_PLANET_TERRESTRIAL, SUPERTYPE_ROCKY_PLANET, aroundStar, 0.0, 1.0, o.mass,
               o.rotationPeriod, 0.0, o.periapsis, o.apoapsis, 0.0, NO_RINGS, [])
  }

  function NewPlanets(orbits: seq<Orbit>, aroundStar: bool): (r: seq<SystemBody>)
    ensures |r| == |orbits|
    ensures forall i :: 0 <= i < |orbits| ==> r[i] == NewPlanet(orbits[i], aroundStar)
  {
    if |orbits| == 0 then [] else [NewPlanet(orbits[0], aroundStar)] + NewPlanets(orbits[1..], aroundStar)
  }

  /** The disc of a primary, once its edges and density are known. */
  datatype Disc = Disc(discMin: real, discMax: real, density: real)

  /** MakePlanetsAround, up to the per-child PickPlanetType and moon pass:
      place the orbits, append the new bodies to the primary's children,
      clear overlapped rings of a rocky primary, and name every non-star
      child. */
  function MakePlanetsAround(primary: SystemBody, disc: Disc, jump: real, draws: seq<OrbitDraws>): (r: SystemBody)
    requires 0.0 <= disc.discMin && 0.0 <= disc.discMax && disc.density >= 0.0 && 0.0 <= jump < 1.0 && AllValid(draws)
    ensures r == primary.(children := r.children, rings := r.rings)
    ensures |r.children| >= |primary.children|
    ensures r.rings == primary.rings || (r.rings == NO_RINGS && HasRings(primary) && primary.superType == SUPERTYPE_ROCKY_PLANET)
    ensures forall i :: |primary.children| <= i < |r.children| ==>
              && r.children[i].bodyType == TYPE_PLANET_TERRESTRIAL
              && 0.0 < r.children[i].orbMin <= r.children[i].orbMax <= disc.discMax
  {
    var orbits := Place(StartPosition(disc.discMin, disc.discMax, jump), disc.discMax, disc.density, draws);
    var clearable := HasRings(primary) && primary.superType == SUPERTYPE_ROCKY_PLANET;
    NewChildrenInDisc(primary, orbits, disc.discMax);
    UnclearableKept(primary.rings, clearable, orbits);
    primary.(children := NameChildren(primary.name, primary.children + NewPlanets(orbits, primary.superType <= SUPERTYPE_STAR),
                                      primary.superType <= SUPERTYPE_STAR),
             rings := ClearRings(primary.rings, clearable, orbits))
  }

  lemma NewChildrenInDisc(primary: SystemBody, orbits: seq<Orbit>, discMax: real)
    requires forall i :: 0 <= i < |orbits| ==> InDisc(orbits[i], discMax)
    ensures var aroundStar := primary.superType <= SUPERTYPE_STAR;
            var named := NameChildren(primary.name, primary.children + NewPlanets(orbits, aroundStar), aroundStar);
            && |named| == |primary.children| + |orbits|
            && forall i :: |primary.children| <= i < |named| ==>
                 && named[i].bodyType == TYPE_PLANET_TERRESTRIAL
                 && 0.0 < named[i].orbMin <= named[i].orbMax <= discMax
  {
    var aroundStar := primary.superType <= SUPERTYPE_STAR;
    var kids := primary.children + NewPlanets(orbits, aroundStar);
    var named := NameChildren(primary.name, kids, aroundStar);
    var n := |primary.children|;
    forall i | n <= i < |named|
      ensures named[i].bodyType == TYPE_PLANET_TERRESTRIAL && 0.0 < named[i].orbMin <= named[i].orbMax <= discMax
    {
      assert kids[i] == NewPlanet(orbits[i - n], aroundStar);
      assert InDisc(orbits[i - n], discMax);
    }
  }

  /** A primary that does not qualify keeps its rings. */
  lemma {:induction false} UnclearableKept(ring: RingStyle, clearable: bool, orbits: seq<Orbit>)
    ensures !clearable ==> ClearRings(ring, clearable, orbits) == ring
    decreases |orbits|
  {
    if |orbits| > 0 {
      UnclearableKept(ring, clearable, orbits[1..]);
    }
  }
}

=== FILE: planet_type.dfy ===
/** PickPlanetType: a new planet's radius from its mass, its type from its
    mass, and for terrestrial planets the volatiles, greenhouse effect and
    chance of life; then the tidal-lock adjustment of its spin. */
module PlanetType {
  import opened Support
  import opened SystemBodyModel
  import StarTypes

  /** The mass thresholds, in Earth masses. */
  const ONE_EU_MASS: real := 1.0
  const TWO_HUNDRED_EU_MASSES: real := 200.0
  const BROWN_DWARF_MASS: real := 317.0 * 13.0       // 13 Jupiter masses burn deuterium
  const BROWN_DWARF_MASS_CAP: real := 317.0 * 65.0   // beyond ~65 Jupiter masses it is a star
  const GAS_GIANT_MASS: real := 6.0
  const TERRESTRIAL_MASS: real := 1.0 / 12000.0
  /** The 10 km floor on a planet's radius, in Earth radii. */
  const MIN_RADIUS: real := 1.0 / 630.0
  const CELSIUS: real := 273.15

  // ---------------------------------------------------------------- radius

  /** The mass-radius laws, which need cube roots and powers that are not
      modelled: the cube root, mass^0.3, mass^0.5 and 22.6 * mass^-0.0886. */
  datatype RadiusLaws = RadiusLaws(cubeRoot: real -> real, pow03: real -> real,
                                   pow05: real -> real, giantLaw: real -> real)

  /** The radius before the floor.  The pow 0.3 branch needs a mass above 1
      and below ONEEUMASS, which is also 1. */
  function RawRadius(mass: real, laws: RadiusLaws): real {
    if mass <= 1.0 then laws.cubeRoot(mass)
    else if mass < ONE_EU_MASS then laws.pow03(mass)
    else if mass < TWO_HUNDRED_EU_MASSES then laws.pow05(mass)
    else laws.giantLaw(mass)
  }

  /** The planet's radius in Earth radii: the law's value, floored at 10 km. */
  function PlanetRadius(mass: real, laws: RadiusLaws): (r: real)
    ensures r >= MIN_RADIUS && r >= RawRadius(mass, laws)
    ensures r == RawRadius(mass, laws) || r == MIN_RADIUS
  {
    Max(RawRadius(mass, laws), MIN_RADIUS)
  }

  /** The "smaller than 1 Earth mass" law is dead code: the radius never
      depends on it. */
  lemma RockyLawUnreachable(mass: real, laws: RadiusLaws, other: real -> real)
    ensures PlanetRadius(mass, laws) == PlanetRadius(mass, laws.(pow03 := other))
  {
  }

  // ---------------------------------------------------------------- type

  /** The type chosen from the mass alone. */
  function ClassifyByMass(mass: real): BodyType {
    if mass > BROWN_DWARF_MASS then TYPE_BROWN_DWARF
    else if mass > GAS_GIANT_MASS then TYPE_PLANET_GAS_GIANT
    else if mass > TERRESTRIAL_MASS then TYPE_PLANET_TERRESTRIAL
    else TYPE_PLANET_ASTEROID
  }

  /** Position on the mass ladder: asteroid, terrestrial, gas giant, brown
      dwarf. */
  function Rung(t: BodyType): nat {
    if t == TYPE_PLANET_ASTEROID then 0
    else if t == TYPE_PLANET_TERRESTRIAL then 1
    else if t == TYPE_PLANET_GAS_GIANT then 2
    else 3
  }

  /** Each type corresponds to exactly one mass band. */
  lemma ClassifyBands(mass: real)
    ensures ClassifyByMass(mass) == TYPE_BROWN_DWARF <==> BROWN_DWARF_MASS < mass
    ensures ClassifyByMass(mass) == TYPE_PLANET_GAS_GIANT <==> GAS_GIANT_MASS < mass <= BROWN_DWARF_MASS
    ensures ClassifyByMass(mass) == TYPE_PLANET_TERRESTRIAL <==> TERRESTRIAL_MASS < mass <= GAS_GIANT_MASS
    ensures ClassifyByMass(mass) == TYPE_PLANET_ASTEROID <==> mass <= TERRESTRIAL_MASS
  {
  }

  /** A heavier body never lands on a lower rung. */
  lemma ClassifyMonotone(m1: real, m2: real)
    requires m1 <= m2
    ensures Rung(ClassifyByMass(m1)) <= Rung(ClassifyByMass(m2))
  {
  }

  // ---------------------------------------------------------------- volatiles

  /** The volatile inventory: 2 * die, scaled by the mass unless Int32(3)
      came up 0, and lost entirely when the loss die exceeds the mass. */
  function AmountVolatiles(mass: real, die: real, scaleDie: int, lossDie: real): (r: real)
    requires 0.0 <= die < 1.0 && 0.0 <= lossDie
    ensures 0.0 <= r
    ensures lossDie > mass ==> r == 0.0
    ensures r < 2.0 * Max(1.0, mass)
  {
    var amount := 2.0 * die;
    if lossDie > mass then 0.0
    else if scaleDie != 0 then
      ScaledVolatilesBelow(mass, amount);
      amount * mass
    else amount
  }

  /** Scaling a volatile amount below 2 by a non-negative mass stays below
      twice the larger of 1 and the mass. */
  lemma ScaledVolatilesBelow(mass: real, amount: real)
    requires mass >= 0.0 && 0.0 <= amount < 2.0
    ensures 0.0 <= amount * mass < 2.0 * Max(1.0, mass)
  {
    ScaleMonotone(mass, 0.0, amount);
    if mass > 0.0 {
      var gap := 2.0 - amount;
      MulPositive(mass, gap);
      assert mass * gap == 2.0 * mass - amount * mass;
    } else {
      assert amount * mass == 0.0;
    }
  }

  /** The greenhouse effect and the albedo before the squash. */
  datatype Climate = Climate(greenhouse: real, albedo: real)

  /** CO2 sublimates above 195 K, water is liquid above 273 K and boils
      above 373 K; each warms the planet in proportion to its volatiles,
      and the frozen ones brighten it instead. */
  function RawClimate(temp: int, amount: real): Climate {
    var g1 := if temp > 195 then amount * (1.0 / 3.0) else 0.0;
    var a1 := if temp > 195 then 0.0 else 2.0 / 6.0;
    var g2 := if temp > 273 then g1 + amount * (1.0 / 5.0) else g1;
    var a2 := if temp > 273 then a1 else a1 + 3.0 / 6.0;
    var g3 := if temp > 373 then g2 + amount * (1.0 / 3.0) else g2;
    Climate(g3, a2)
  }

  const SQUASH_THRESHOLD: real := 0.7
  const SQUASH_OFFSET: real := 32.0 / 311.0

  /** Greenhouse values above 0.7 are squashed to g^4 / (g^4 + 32/311): the
      effect grows but never reaches 1. */
  function Squash(g: real): real {
    if g > SQUASH_THRESHOLD then
      var g4 := g * g * (g * g);
      g4 / (g4 + SQUASH_OFFSET)
    else g
  }

  /** q / (q + c) is a fraction that grows with q. */
  lemma RatioFacts(q: real, q': real)
    requires 0.0 < q <= q'
    ensures 0.0 < q / (q + SQUASH_OFFSET) < 1.0
    ensures q / (q + SQUASH_OFFSET) <= q' / (q' + SQUASH_OFFSET)
  {
    var c := SQUASH_OFFSET;
    assert q / (q + c) == 1.0 - c / (q + c);
    assert q' / (q' + c) == 1.0 - c / (q' + c);
    assert c / (q' + c) <= c / (q + c) by {
      assert c / (q + c) - c / (q' + c) == c * (q' - q) / ((q + c) * (q' + c));
      assert (q + c) * (q' + c) > 0.0;
      ScaleMonotone(c, 0.0, q' - q);
    }
  }

  lemma FourthPowerMonotone(a: real, b: real)
    requires 0.0 <= a <= b
    ensures a * a * (a * a) <= b * b * (b * b)
  {
    ScaleMonotone(a, a, b);
    ScaleMonotone(b, a, b);
    var a2, b2 := a * a, b * b;
    assert a2 <= b2;
    ScaleMonotone(a2, a2, b2);
    ScaleMonotone(b2, a2, b2);
  }

  /** Above the threshold the squashed value stays above 0.7 (32/311 was
      chosen to make the squash nearly continuous there) and below 1. */
  lemma SquashRange(g: real)
    requires g > SQUASH_THRESHOLD
    ensures SQUASH_THRESHOLD < Squash(g) < 1.0
  {
    var t := SQUASH_THRESHOLD;
    FourthPowerMonotone(t, g);
    var g4 := g * g * (g * g);
    assert g4 >= 0.2401;
    RatioFacts(0.2401, g4);
    assert 0.2401 / (0.2401 + SQUASH_OFFSET) > t;
  }

  /** The squashed greenhouse effect never decreases as the raw one grows. */
  lemma SquashMonotone(g: real, g': real)
    requires 0.0 <= g <= g'
    ensures Squash(g) <= Squash(g')
  {
    if g > SQUASH_THRESHOLD {
      FourthPowerMonotone(g, g');
      FourthPowerMonotone(SQUASH_THRESHOLD, g);
      RatioFacts(g * g * (g * g), g' * g' * (g' * g'));
    } else if g' > SQUASH_THRESHOLD {
      SquashRange(g');
    }
  }

  /** The climate used for the surface temperature: the raw climate with
      the greenhouse effect squashed. */
  function PickClimate(temp: int, amount: real): (c: Climate)
    requires amount >= 0.0
    ensures 0.0 <= c.greenhouse < 1.0
    ensures 0.0 <= c.albedo <= 5.0 / 6.0
    ensures temp > 273 ==> c.albedo == 0.0
    ensures amount == 0.0 ==> c.greenhouse == 0.0
  {
    var raw := RawClimate(temp, amount);
    assert raw.greenhouse > SQUASH_THRESHOLD ==> Squash(raw.greenhouse) < 1.0 by {
      if raw.greenhouse > SQUASH_THRESHOLD { SquashRange(raw.greenhouse); }
    }
    raw.(greenhouse := Squash(raw.greenhouse))
  }

  /** More volatiles never mean a weaker greenhouse effect. */
  lemma {:induction false} GreenhouseGrowsWithVolatiles(temp: int, amount: real, amount': real)
    requires 0.0 <= amount <= amount'
    ensures PickClimate(temp, amount).greenhouse <= PickClimate(temp, amount').greenhouse
  {
    var g, g' := RawClimate(temp, amount).greenhouse, RawClimate(temp, amount').greenhouse;
    var k := (if temp > 195 then 1.0 / 3.0 else 0.0) + (if temp > 273 then 1.0 / 5.0 else 0.0)
             + (if temp > 373 then 1.0 / 3.0 else 0.0);
    assert g == amount * k && g' == amount' * k;
    ScaleMonotone(k, amount, amount');
    SquashMonotone(g, g');
  }

  /** The shares of the volatiles that are gas, liquid and ice. */
  datatype Shares = Shares(gas: real, liquid: real, ices: real)

  /** Gas T/(100+T), liquid that fraction T/(50+T) of the rest, and ice
      whatever remains. */
  function Proportions(temp: nat): (p: Shares)
    ensures 0.0 <= p.gas < 1.0 && 0.0 <= p.liquid < 1.0 && 0.0 < p.ices <= 1.0
    ensures p.gas + p.liquid + p.ices == 1.0
    ensures temp == 0 ==> p == Shares(0.0, 0.0, 1.0)
  {
    var t := temp as real;
    var gas := t / (100.0 + t);
    var liquidOfRest := t / (50.0 + t);
    FractionBelowOne(t, 100.0);
    FractionBelowOne(t, 50.0);
    FractionProduct(1.0 - gas, liquidOfRest);
    var liquid := (1.0 - gas) * liquidOfRest;
    assert temp == 0 ==> gas == 0.0 && liquid == 0.0;
    Shares(gas, liquid, 1.0 - (gas + liquid))
  }

  /** A hotter planet keeps a larger share of its volatiles as gas. */
  lemma GasShareGrowsWithHeat(t1: nat, t2: nat)
    requires t1 <= t2
    ensures Proportions(t1).gas <= Proportions(t2).gas
  {
    var a, b := t1 as real, t2 as real;
    assert a / (100.0 + a) == 1.0 - 100.0 / (100.0 + a);
    assert b / (100.0 + b) == 1.0 - 100.0 / (100.0 + b);
    DivAntitone(100.0, 100.0 + a, 100.0 + b);
  }

  /** The volatile amounts in each state: the inventory split by the
      shares at the given temperature. */
  function SplitVolatiles(temp: nat, amount: real): (v: Shares)
    requires amount >= 0.0
    ensures v.gas + v.liquid + v.ices == amount
    ensures 0.0 <= v.gas && 0.0 <= v.liquid && 0.0 <= v.ices
    ensures amount == 0.0 ==> v == Shares(0.0, 0.0, 0.0)
  {
    var p := Proportions(temp);
    SplitAdds(p, amount);
    Shares(p.gas * amount, p.liquid * amount, p.ices * amount)
  }

  lemma SplitAdds(p: Shares, amount: real)
    requires amount >= 0.0 && p.gas + p.liquid + p.ices == 1.0
    requires 0.0 <= p.gas && 0.0 <= p.liquid && 0.0 <= p.ices
    ensures p.gas * amount + p.liquid * amount + p.ices * amount == amount
    ensures 0.0 <= p.gas * amount && 0.0 <= p.liquid * amount && 0.0 <= p.ices * amount
  {
    assert p.gas * amount + p.liquid * amount + p.ices * amount == (p.gas + p.liquid + p.ices) * amount;
    ScaleMonotone(amount, 0.0, p.gas);
    ScaleMonotone(amount, 0.0, p.liquid);
    ScaleMonotone(amount, 0.0, p.ices);
  }

  // ---------------------------------------------------------------- life

  /** The heaviest star of the system, starting from 0. */
  function HeaviestStar(masses: seq<real>): (m: real)
    ensures m >= 0.0
    ensures forall i :: 0 <= i < |masses| ==> masses[i] <= m
    ensures m == 0.0 || m in masses
  {
    if |masses| == 0 then 0.0
    else
      var rest := HeaviestStar(masses[..|masses| - 1]);
      var last := masses[|masses| - 1];
      assert masses == masses[..|masses| - 1] + [last];
      if rest < last then last else rest
  }

  /** Life needs a star no heavier than 2.5 solar masses, which lives long
      enough; lighter stars give more room. */
  function LifeMultiplier(maxMass: real): (k: real)
    ensures 0.0 <= k <= 2.5
    ensures k > 0.0 <==> maxMass < 2.5
  {
    if maxMass < 2.5 then 2.5 - Max(0.0, maxMass) else 0.0
  }

  /** Whether a temperature in kelvin lies strictly between two Celsius
      bounds. */
  predicate Between(temp: int, loC: real, hiC: real) {
    CELSIUS + loC < temp as real < CELSIUS + hiC
  }

  // ---------------------------------------------------------------- tidal lock

  const MOON_TIDAL_LOCK: real := 6286.0

  /** The inverse tidal-lock time relative to the Moon's, evaluated in the
      source's order.  Around a star the masses are in solar masses and are
      not converted; around a planet the semi-major axis is scaled by the
      solar-to-Earth mass ratio on the first two divisions. */
  function InvTidalLockTime(starParent: bool, sma: real, mass: real, parentMass: real, radius: real): real
    requires sma > 0.0 && radius > 0.0
  {
    var s := if starParent then 1.0 else SUN_MASS_TO_EARTH_MASS;
    MulPositive(sma, sma);
    MulPositive(sma * sma, s);
    MulPositive(sma * sma, MOON_TIDAL_LOCK);
    var x1 := (1.0 / (sma * sma * s)) * mass;
    var x3 := (x1 / (sma * sma * s)) * (parentMass * parentMass);
    (x3 / radius) / (sma * sma * MOON_TIDAL_LOCK)
  }

  /** The stepwise evaluation is the closed formula m M^2 / (a^6 R k s^2),
      stated without the division. */
  lemma TidalLockFormula(starParent: bool, sma: real, mass: real, parentMass: real, radius: real)
    requires sma > 0.0 && radius > 0.0
    ensures var s := if starParent then 1.0 else SUN_MASS_TO_EARTH_MASS;
            var a2 := sma * sma;
            InvTidalLockTime(starParent, sma, mass, parentMass, radius)
              * (a2 * a2 * a2 * (s * s) * radius * MOON_TIDAL_LOCK)
              == mass * (parentMass * parentMass)
  {
    var a2 := sma * sma;
    var s := if starParent then 1.0 else SUN_MASS_TO_EARTH_MASS;
    MulPositive(sma, sma);
    var d1, d3 := a2 * s, a2 * MOON_TIDAL_LOCK;
    MulPositive(a2, s);
    var x0 := 1.0 / d1;
    var x1 := x0 * mass;
    var x2 := x1 / d1;
    var x3 := x2 * (parentMass * parentMass);
    var x4 := x3 / radius;
    var r := x4 / d3;
    assert r == InvTidalLockTime(starParent, sma, mass, parentMass, radius);
    assert r * d3 == x4;
    assert x4 * radius == x3;
    assert x2 * d1 == x1;
    assert x0 * d1 == 1.0;
    calc {
      r * (a2 * a2 * a2 * (s * s) * radius * MOON_TIDAL_LOCK);
      (r * d3) * radius * d1 * d1;
      x3 * d1 * d1;
      (x2 * d1) * (parentMass * parentMass) * d1;
      x1 * d1 * (parentMass * parentMass);
      (x0 * d1) * mass * (parentMass * parentMass);
      mass * (parentMass * parentMass);
    }
  }

  /** The spin and tilt that tidal locking leaves. */
  datatype Spin = Spin(rotationPeriod: real, axialTilt: real)

  /** Above 10 the body is locked: it turns once per orbit (the orbital
      period rounded to whole seconds, in days) and its tilt becomes its
      inclination.  Above 1/100 spin and tilt move towards the locked
      values by lambda = x / (1/20 + x).  Otherwise nothing changes. */
  function TidalLock(inv: real, spin: Spin, lockedPeriod: real, orbitDays: real, inclination: real): (r: Spin)
    ensures inv > 10.0 ==> r == Spin(lockedPeriod, inclination)
    ensures inv <= 1.0 / 100.0 ==> r == spin
    ensures 1.0 / 100.0 < inv <= 10.0 ==>
              && Min(spin.rotationPeriod, orbitDays) <= r.rotationPeriod <= Max(spin.rotationPeriod, orbitDays)
              && Min(spin.axialTilt, inclination) <= r.axialTilt <= Max(spin.axialTilt, inclination)
  {
    if inv > 10.0 then Spin(lockedPeriod, inclination)
    else if inv > 1.0 / 100.0 then
      var lambda := LockWeight(inv);
      BlendBetween(lambda, spin.rotationPeriod, orbitDays);
      BlendBetween(lambda, spin.axialTilt, inclination);
      Spin(Blend(lambda, spin.rotationPeriod, orbitDays), Blend(lambda, spin.axialTilt, inclination))
    else spin
  }

  /** lambda = x / (1/20 + x), the weight of the locked values. */
  function LockWeight(inv: real): (l: real)
    requires inv > 0.0
    ensures 0.0 < l < 1.0
  {
    FractionPositive(inv, 1.0 / 20.0);
    inv / (1.0 / 20.0 + inv)
  }

  /** The convex combination (1 - l)·x + l·y. */
  function Blend(l: real, x: real, y: real): real {
    (1.0 - l) * x + l * y
  }

  /** A convex combination lies between its two ends. */
  lemma BlendBetween(lambda: real, x: real, y: real)
    requires 0.0 <= lambda <= 1.0
    ensures Min(x, y) <= Blend(lambda, x, y) <= Max(x, y)
  {
    if x <= y {
      BlendSplit(lambda, x, y);
    } else {
      BlendSplit(1.0 - lambda, y, x);
      BlendSwap(lambda, x, y);
    }
  }

  /** A blend from lo to hi, with its distances to both ends. */
  lemma BlendSplit(l: real, lo: real, hi: real)
    requires 0.0 <= l <= 1.0 && lo <= hi
    ensures lo <= Blend(l, lo, hi) <= hi
    ensures Blend(l, lo, hi) - lo == l * (hi - lo)
    ensures hi - Blend(l, lo, hi) == (1.0 - l) * (hi - lo)
  {
    MulNonNeg(l, hi - lo);
    MulNonNeg(1.0 - l, hi - lo);
    BlendOffsets(l, lo, hi);
  }

  lemma BlendOffsets(l: real, lo: real, hi: real)
    ensures Blend(l, lo, hi) - lo == l * (hi - lo)
    ensures hi - Blend(l, lo, hi) == (1.0 - l) * (hi - lo)
  {
  }

  lemma BlendSwap(l: real, x: real, y: real)
    ensures Blend(1.0 - l, y, x) == Blend(l, x, y)
  {
  }

  lemma BlendStep(l: real, l': real, x: real, y: real)
    ensures Blend(l', x, y) - Blend(l, x, y) == (l' - l) * (y - x)
  {
  }

  /** A larger weight on y lands no farther from y. */
  lemma BlendCloser(l: real, l': real, x: real, y: real)
    requires 0.0 <= l <= l' <= 1.0
    ensures Dist(Blend(l', x, y), y) <= Dist(Blend(l, x, y), y)
  {
    BlendStep(l, l', x, y);
    if x <= y {
      BlendSplit(l, x, y);
      BlendSplit(l', x, y);
      MulNonNeg(l' - l, y - x);
    } else {
      BlendSplit(1.0 - l, y, x);
      BlendSplit(1.0 - l', y, x);
      BlendSwap(l, x, y);
      BlendSwap(l', x, y);
      MulNonNeg(l' - l, x - y);
    }
  }

  function Dist(x: real, y: real): real { if x >= y then x - y else y - x }

  /** Tidal locking pulls the spin monotonically towards the orbit: a
      stronger lock never leaves the period farther from the orbital one. */
  lemma TidalLockConverges(inv: real, inv': real, spin: Spin, orbitDays: real, inclination: real)
    requires 1.0 / 100.0 < inv <= inv' <= 10.0
    ensures var r, r' := TidalLock(inv, spin, orbitDays, orbitDays, inclination),
                         TidalLock(inv', spin, orbitDays, orbitDays, inclination);
            Dist(r'.rotationPeriod, orbitDays) <= Dist(r.rotationPeriod, orbitDays)
  {
    LockWeightGrows(inv, inv');
    BlendCloser(LockWeight(inv), LockWeight(inv'), spin.rotationPeriod, orbitDays);
  }

  /** The weight of the locked values grows with the lock strength. */
  lemma LockWeightGrows(inv: real, inv': real)
    requires 0.0 < inv <= inv'
    ensures LockWeight(inv) <= LockWeight(inv')
  {
    var c := 1.0 / 20.0;
    assert (c + inv) / (c + inv) == 1.0;
    assert (c + inv') / (c + inv') == 1.0;
    assert LockWeight(inv) == 1.0 - c / (c + inv);
    assert LockWeight(inv') == 1.0 - c / (c + inv');
    DivAntitone(c, c + inv, c + inv');
  }

  // ---------------------------------------------------------------- the whole

  /** The draws PickPlanetType takes, in order: metallicity, volcanicity
      and oxidation fractions; for a brown dwarf its extra temperature and
      its radius in hundredths; for a terrestrial planet the volatile
      fraction, Int32(3), the loss die and the life die. */
  datatype PlanetDraws = PlanetDraws(
    metallicityDie: real, volcanicDie: real, oxidizingDie: real,
    dwarfTemp: int, dwarfRadius: int,
    volatileDie: real, scaleDie: int, lossDie: real, lifeDie: real)

  predicate ValidPlanetDraws(d: PlanetDraws) {
    var bd := StarTypes.Info(TYPE_BROWN_DWARF);
    && 0.0 <= d.metallicityDie < 1.0 && 0.0 <= d.volcanicDie < 1.0 && 0.0 <= d.oxidizingDie < 1.0
    && bd.tempMin <= d.dwarfTemp <= bd.tempMax
    && bd.radiusMin <= d.dwarfRadius <= bd.radiusMax
    && 0.0 <= d.volatileDie < 1.0 && 0 <= d.scaleDie < 3
    && 0.0 <= d.lossDie < 1.0 && 0.0 <= d.lifeDie < 1.0
  }

  /** What the planet knows about its place: its parent's and grandparent's
      types, its star's orbital range (FindStarAndTrueOrbitalRange), and
      the masses of the system's stars. */
  datatype Setting = Setting(
    parentType: BodyType, grandparentType: BodyType,
    minDist: real, maxDist: real, starMasses: seq<real>)

  /** A moon's grandparent is a star or gravpoint, as the source assumes. */
  predicate ValidSetting(s: Setting) {
    StarTypes.Tabled(s.parentType) || StarTypes.Tabled(s.grandparentType)
  }

  /** What PickPlanetType decides, before tidal locking. */
  datatype PlanetTraits = PlanetTraits(
    bodyType: BodyType, mass: real, radius: real, averageTemp: int,
    metallicity: real, volcanicity: real, atmosOxidizing: real,
    volatileGas: real, volatileLiquid: real, volatileIces: real, life: real)

  /** The metallicity comes from the parent's entry when the parent is a
      star or gravpoint, otherwise from the grandparent's. */
  function PlanetMetallicity(s: Setting, die: real): (r: real)
    requires ValidSetting(s) && 0.0 <= die < 1.0
    ensures 0.0 <= r < 1.0
  {
    var t := if StarTypes.Tabled(s.parentType) then s.parentType else s.grandparentType;
    var met := StarTypes.Metallicity(t);
    StarTypes.MetallicityFraction(t);
    FractionProduct(met, die);
    met * die
  }

  /** The chance of life: liquid water at a habitable average temperature,
      both orbital extremes habitable, and a long-lived enough star. */
  function Life(liquid: real, avgTemp: int, minTemp: int, maxTemp: int, starMasses: seq<real>, die: real): (r: real)
    requires 0.0 <= die < 1.0
    ensures 0.0 <= r < 2.5
    ensures r > 0.0 ==> liquid > 0.0 && Between(avgTemp, -60.0, 200.0)
  {
    if liquid > 0.0 && Between(avgTemp, -60.0, 200.0)
       && Between(minTemp, -10.0, 90.0) && Between(maxTemp, -10.0, 90.0)
    then
      var k := LifeMultiplier(HeaviestStar(starMasses));
      BelowScaled(k, die);
      k * die
    else 0.0
  }

  /** The terrestrial branch: the volatile inventory, the climate it
      makes, the surface temperature under that climate, the split of the
      volatiles by state, and the chance of life. */
  function Terrestrial(base: PlanetTraits, mass: real, s: Setting, d: PlanetDraws,
                       surfaceTemp: (real, real, real) -> nat): (r: PlanetTraits)
    requires ValidPlanetDraws(d)
    ensures r == base.(averageTemp := r.averageTemp, volatileGas := r.volatileGas,
                       volatileLiquid := r.volatileLiquid, volatileIces := r.volatileIces, life := r.life)
    ensures r.volatileGas + r.volatileLiquid + r.volatileIces
            == AmountVolatiles(mass, d.volatileDie, d.scaleDie, d.lossDie)
    ensures 0.0 <= r.volatileGas && 0.0 <= r.volatileLiquid && 0.0 <= r.volatileIces
    ensures 0.0 <= r.life < 2.5
  {
    var avgDist := (s.minDist + s.maxDist) / 2.0;
    var amount := AmountVolatiles(mass, d.volatileDie, d.scaleDie, d.lossDie);
    var climate := PickClimate(base.averageTemp, amount);
    var temp := surfaceTemp(avgDist, climate.albedo, climate.greenhouse);
    var v := SplitVolatiles(temp, amount);
    var minTemp := surfaceTemp(s.maxDist, climate.albedo, climate.greenhouse);
    var maxTemp := surfaceTemp(s.minDist, climate.albedo, climate.greenhouse);
    base.(averageTemp := temp, volatileGas := v.gas, volatileLiquid := v.liquid, volatileIces := v.ices,
          life := Life(v.liquid, temp, minTemp, maxTemp, s.starMasses, d.lifeDie))
  }

  /** The brown-dwarf branch: the temperature rises by a draw from the
      brown dwarf's range, the mass is capped and converted to solar
      masses, and the radius comes from the brown dwarf's range. */
  function BrownDwarf(base: PlanetTraits, mass: real, d: PlanetDraws): (r: PlanetTraits)
    requires ValidPlanetDraws(d)
    ensures r == base.(averageTemp := r.averageTemp, mass := r.mass, radius := r.radius)
    ensures r.mass * SUN_MASS_TO_EARTH_MASS == Min(mass, BROWN_DWARF_MASS_CAP)
    ensures 0.1 <= r.radius <= 0.3
    ensures base.averageTemp + 1000 <= r.averageTemp <= base.averageTemp + 2000
  {
    base.(averageTemp := base.averageTemp + d.dwarfTemp,
          mass := Min(mass, BROWN_DWARF_MASS_CAP) / SUN_MASS_TO_EARTH_MASS,
          radius := d.dwarfRadius as real / 100.0)
  }

  /** What every branch shares: the type from the mass, the floored
      radius, the black-body temperature, metallicity, volcanicity (harder
      for small bodies) and oxidation, and no volatiles or life yet. */
  function CommonTraits(mass: real, s: Setting, d: PlanetDraws, laws: RadiusLaws, bbody: nat): (r: PlanetTraits)
    requires mass >= 0.0 && ValidSetting(s) && ValidPlanetDraws(d)
    ensures r.bodyType == ClassifyByMass(mass) && r.mass == mass && r.radius >= MIN_RADIUS
    ensures r.averageTemp == bbody
    ensures 0.0 <= r.metallicity < 1.0 && 0.0 <= r.volcanicity < 1.0
    ensures r.volcanicity <= mass
    ensures r.volatileGas == r.volatileLiquid == r.volatileIces == r.life == 0.0
  {
    var m1 := Min(1.0, mass);
    BelowScaled(m1, d.volcanicDie);
    assert m1 * d.volcanicDie <= mass;
    PlanetTraits(ClassifyByMass(mass), mass, PlanetRadius(mass, laws), bbody,
                 PlanetMetallicity(s, d.metallicityDie), Min(1.0, mass) * d.volcanicDie,
                 d.oxidizingDie, 0.0, 0.0, 0.0, 0.0)
  }

  /** PickPlanetType.  `surfaceTemp(dist, albedo, greenhouse)` stands for
      CalcSurfaceTemp around the planet's star; the first call, with zero
      albedo and greenhouse effect, is the black-body temperature. */
  function PickPlanetType(mass: real, s: Setting, d: PlanetDraws, laws: RadiusLaws,
                          surfaceTemp: (real, real, real) -> nat): (r: PlanetTraits)
    requires mass >= 0.0 && ValidSetting(s) && ValidPlanetDraws(d)
    ensures r.bodyType == ClassifyByMass(mass)
    ensures r.bodyType != TYPE_BROWN_DWARF ==> r.mass == mass && r.radius >= MIN_RADIUS
    ensures r.bodyType == TYPE_BROWN_DWARF ==>
              && r.mass * SUN_MASS_TO_EARTH_MASS == Min(mass, BROWN_DWARF_MASS_CAP)
              && 0.1 <= r.radius <= 0.3
    ensures 0.0 <= r.metallicity < 1.0 && 0.0 <= r.volcanicity < 1.0
    ensures r.bodyType != TYPE_PLANET_TERRESTRIAL ==>
              r.volatileGas == r.volatileLiquid == r.volatileIces == r.life == 0.0
    ensures r.bodyType == TYPE_PLANET_TERRESTRIAL ==>
              r.volatileGas + r.volatileLiquid + r.volatileIces
              == AmountVolatiles(mass, d.volatileDie, d.scaleDie, d.lossDie)
    ensures 0.0 <= r.volatileGas && 0.0 <= r.volatileLiquid && 0.0 <= r.volatileIces
    ensures 0.0 <= r.life < 2.5
  {
    var base := CommonTraits(mass, s, d, laws, surfaceTemp((s.minDist + s.maxDist) / 2.0, 0.0, 0.0));
    if mass > BROWN_DWARF_MASS then BrownDwarf(base, mass, d)
    else if mass > GAS_GIANT_MASS then base
    else if mass > TERRESTRIAL_MASS then Terrestrial(base, mass, s, d, surfaceTemp)
    else base
  }

  /** A brown dwarf's mass is stored in solar masses, yet read back in
      Earth masses it is the original mass capped at 65 Jupiter masses. */
  lemma BrownDwarfMassCapped(mass: real, s: Setting, d: PlanetDraws, laws: RadiusLaws,
                             surfaceTemp: (real, real, real) -> nat, b: SystemBody)
    requires ValidSetting(s) && ValidPlanetDraws(d)
    requires mass > BROWN_DWARF_MASS
    ensures var r := PickPlanetType(mass, s, d, laws, surfaceTemp);
            var dwarf := b.(bodyType := r.bodyType, superType := SUPERTYPE_STAR, mass := r.mass);
            GetMassInEarths(dwarf) == Min(mass, BROWN_DWARF_MASS_CAP)
            && GetMassInEarths(dwarf) <= BROWN_DWARF_MASS_CAP
  {
  }
}

=== FILE: sorting.dfy ===
/** A stable sort over a strict weak ordering, as `std::list::sort` does it,
    with the facts the camera needs: the result is ordered, a permutation,
    and keeps equivalent elements in their input order. */
module Sorting {

  /** `less` is irreflexive, transitive and negatively transitive — the
      requirement the C++ standard library places on a comparator. */
  ghost predicate StrictWeakOrder<T(!new)>(less: (T, T) -> bool) {
    && (forall x :: !less(x, x))
    && (forall x, y, z :: less(x, y) && less(y, z) ==> less(x, z))
    && (forall x, y, z :: less(x, z) ==> less(x, y) || less(y, z))
  }

  /** Neither element must go before the other. */
  predicate Equivalent<T>(less: (T, T) -> bool, a: T, b: T) {
    !less(a, b) && !less(b, a)
  }

  /** No later element should have been placed before an earlier one. */
  ghost predicate Sorted<T>(less: (T, T) -> bool, s: seq<T>) {
    forall i, j :: 0 <= i < j < |s| ==> !less(s[j], s[i])
  }

  /** Inserts `x` after the leading elements that go strictly before it. */
  function Insert<T>(less: (T, T) -> bool, x: T, s: seq<T>): (r: seq<T>)
    ensures multiset(r) == multiset(s) + multiset{x}
    ensures |r| == |s| + 1
  {
    if |s| == 0 then [x]
    else
      assert s == [s[0]] + s[1..];
      if less(s[0], x) then [s[0]] + Insert(less, x, s[1..]) else [x] + s
  }

  /** Insertion sort, working from the back so that earlier elements are
      inserted ahead of equivalent later ones. */
  function Sort<T>(less: (T, T) -> bool, s: seq<T>): (r: seq<T>)
    ensures multiset(r) == multiset(s)
    ensures |r| == |s|
  {
    if |s| == 0 then []
    else
      assert s == [s[0]] + s[1..];
      Insert(less, s[0], Sort(less, s[1..]))
  }

  /** The elements of `s` equivalent to `k`, in order. */
  function Class<T>(less: (T, T) -> bool, s: seq<T>, k: T): seq<T> {
    if |s| == 0 then []
    else if Equivalent(less, s[0], k) then [s[0]] + Class(less, s[1..], k)
    else Class(less, s[1..], k)
  }

  lemma {:induction false} InsertSorted<T(!new)>(less: (T, T) -> bool, x: T, s: seq<T>)
    requires StrictWeakOrder(less)
    requires Sorted(less, s)
    ensures Sorted(less, Insert(less, x, s))
  {
    if |s| == 0 {
    } else if less(s[0], x) {
      var t := Insert(less, x, s[1..]);
      InsertSorted(less, x, s[1..]);
      InsertMembers(less, x, s[1..]);
      var r := [s[0]] + t;
      forall i, j | 0 <= i < j < |r|
        ensures !less(r[j], r[i])
      {
        if i == 0 {
          assert r[j] in t;
          if r[j] == x {
          } else {
            var k :| 0 <= k < |s[1..]| && s[1..][k] == r[j];
            assert s[k + 1] == r[j];
          }
        }
      }
    } else {
      var r := [x] + s;
      forall j | 0 < j < |r|
        ensures !less(r[j], r[0])
      {
        // s[0] is not below x, and s[j - 1] is not below s[0]
        if j > 1 {
          assert !less(s[j - 1], s[0]);
        }
      }
    }
  }

  lemma InsertMembers<T>(less: (T, T) -> bool, x: T, s: seq<T>)
    ensures forall y :: y in Insert(less, x, s) ==> y == x || y in s
  {
    var r := Insert(less, x, s);
    forall y | y in r
      ensures y == x || y in s
    {
      assert y in multiset(r);
    }
  }

  lemma {:induction false} SortSorted<T(!new)>(less: (T, T) -> bool, s: seq<T>)
    requires StrictWeakOrder(less)
    ensures Sorted(less, Sort(less, s))
  {
    if |s| > 0 {
      SortSorted(less, s[1..]);
      InsertSorted(less, s[0], Sort(less, s[1..]));
    }
  }

  lemma {:induction false} InsertClassSame<T(!new)>(less: (T, T) -> bool, x: T, s: seq<T>, k: T)
    requires StrictWeakOrder(less)
    requires Equivalent(less, x, k)
    ensures Class(less, Insert(less, x, s), k) == [x] + Class(less, s, k)
  {
    if |s| == 0 {
    } else if less(s[0], x) {
      // s[0] goes strictly before x, so it goes strictly before k too
      assert less(s[0], k);
      InsertClassSame(less, x, s[1..], k);
    } else {
      assert ([x] + s)[1..] == s;
    }
  }

  lemma {:induction false} InsertClassOther<T>(less: (T, T) -> bool, x: T, s: seq<T>, k: T)
    requires !Equivalent(less, x, k)
    ensures Class(less, Insert(less, x, s), k) == Class(less, s, k)
  {
    if |s| == 0 {
    } else if less(s[0], x) {
      InsertClassOther(less, x, s[1..], k);
    } else {
      assert ([x] + s)[1..] == s;
    }
  }

  /** Stability: sorting leaves the order of every class of equivalent
      elements as it was in the input. */
  lemma {:induction false} SortStable<T(!new)>(less: (T, T) -> bool, s: seq<T>, k: T)
    requires StrictWeakOrder(less)
    ensures Class(less, Sort(less, s), k) == Class(less, s, k)
  {
    if |s| > 0 {
      SortStable(less, s[1..], k);
      if Equivalent(less, s[0], k) {
        InsertClassSame(less, s[0], Sort(less, s[1..]), k);
      } else {
        InsertClassOther(less, s[0], Sort(less, s[1..]), k);
      }
    }
  }

  function Reverse<T>(s: seq<T>): (r: seq<T>)
    ensures |r| == |s|
    ensures forall i :: 0 <= i < |s| ==> r[i] == s[|s| - 1 - i]
  {
    if |s| == 0 then [] else Reverse(s[1..]) + [s[0]]
  }

  lemma {:induction false} ReversePermutes<T>(s: seq<T>)
    ensures multiset(Reverse(s)) == multiset(s)
  {
    if |s| > 0 {
      ReversePermutes(s[1..]);
      assert s == [s[0]] + s[1..];
    }
  }

  /** The first `k` elements of the sorted sequence read from the back. */
  function Largest<T>(less: (T, T) -> bool, s: seq<T>, k: nat): (r: seq<T>)
    requires k <= |s|
    ensures |r| == k
    ensures multiset(r) <= multiset(s)
  {
    var desc := Reverse(Sort(less, s));
    ReversePermutes(Sort(less, s));
    assert desc == desc[..k] + desc[k..];
    assert multiset(desc) == multiset(desc[..k]) + multiset(desc[k..]);
    desc[..k]
  }

  /** The elements read from the back of a sorted sequence come largest
      first. */
  lemma LargestDescending<T(!new)>(less: (T, T) -> bool, s: seq<T>, k: nat)
    requires StrictWeakOrder(less)
    requires k <= |s|
    ensures var r := Largest(less, s, k);
            forall i, j :: 0 <= i < j < |r| ==> !less(r[i], r[j])
  {
    var sorted := Sort(less, s);
    var r := Largest(less, s, k);
    SortSorted(less, s);
    forall i, j | 0 <= i < j < |r|
      ensures !less(r[i], r[j])
    {
      assert r[i] == sorted[|sorted| - 1 - i];
      assert r[j] == sorted[|sorted| - 1 - j];
    }
  }

  /** What Largest leaves out is the rest of the back-to-front reading. */
  lemma LargestLeavesRest<T>(less: (T, T) -> bool, s: seq<T>, k: nat)
    requires k <= |s|
    ensures multiset(s) - multiset(Largest(less, s, k)) == multiset(Reverse(Sort(less, s))[k..])
  {
    var sorted := Sort(less, s);
    var desc := Reverse(sorted);
    ReversePermutes(sorted);
    SplitLeaves(s, desc, k);
    assert Largest(less, s, k) == desc[..k];
  }

  /** Taking a prefix of a permutation leaves exactly its suffix. */
  lemma SplitLeaves<T>(s: seq<T>, desc: seq<T>, k: nat)
    requires multiset(desc) == multiset(s) && k <= |desc|
    ensures multiset(s) - multiset(desc[..k]) == multiset(desc[k..])
  {
    assert desc == desc[..k] + desc[k..];
    assert multiset(desc) == multiset(desc[..k]) + multiset(desc[k..]);
  }

  /** Reading a sorted sequence from the back, nothing after position `k`
      is larger than anything before it. */
  lemma BackDominates<T>(less: (T, T) -> bool, sorted: seq<T>, k: nat)
    requires Sorted(less, sorted)
    requires k <= |sorted|
    ensures var desc := Reverse(sorted);
            forall x, y :: x in desc[..k] && y in multiset(desc[k..]) ==> !less(x, y)
  {
    var desc := Reverse(sorted);
    forall x, y | x in desc[..k] && y in multiset(desc[k..])
      ensures !less(x, y)
    {
      var i :| 0 <= i < k && desc[i] == x;
      var j :| k <= j < |desc| && desc[j] == y by {
        assert y in desc[k..];
        var j' :| 0 <= j' < |desc[k..]| && desc[k..][j'] == y;
        assert desc[k + j'] == y;
      }
      assert x == sorted[|sorted| - 1 - i];
      assert y == sorted[|sorted| - 1 - j];
    }
  }

  /** No element left out is larger than one taken. */
  lemma LargestDominates<T(!new)>(less: (T, T) -> bool, s: seq<T>, k: nat)
    requires StrictWeakOrder(less)
    requires k <= |s|
    ensures var r := Largest(less, s, k);
            forall x, y :: x in r && y in multiset(s) - multiset(r) ==> !less(x, y)
  {
    SortSorted(less, s);
    BackDominates(less, Sort(less, s), k);
    LargestLeavesRest(less, s, k);
  }

  /** Reading a sorted sequence from the back gives the largest elements,
      largest first. */
  lemma LargestAreLargest<T(!new)>(less: (T, T) -> bool, s: seq<T>, k: nat)
    requires StrictWeakOrder(less)
    requires k <= |s|
    ensures var r := Largest(less, s, k);
            && (forall i, j :: 0 <= i < j < |r| ==> !less(r[i], r[j]))
            && (forall x, y :: x in r && y in multiset(s) - multiset(r) ==> !less(x, y))
  {
    LargestDescending(less, s, k);
    LargestDominates(less, s, k);
  }
}

=== FILE: star_pairs.dfy ===
/** Star creation in the random generator: a star of a given type drawn
    from its table entry, the retry loop that keeps a companion lighter
    than its primary, and the orbit shared by a binary pair. */
module StarPairs {
  import opened Support
  import opened SystemBodyModel
  import StarTypes

  /** The draws of MakeStarOfType after the seed: the radius and mass in
      hundredths of solar units and the temperature, each from the type's
      inclusive range, and the Fixed() that shapes a bright star's bulge. */
  datatype StarDraws = StarDraws(radius: int, bulgeDie: real, mass: int, temp: int)

  predicate IsStar(t: BodyType) { TYPE_STAR_MIN <= t <= TYPE_STAR_MAX }

  predicate ValidStarDraws(t: BodyType, d: StarDraws)
    requires IsStar(t)
  {
    var info := StarTypes.Info(t);
    && info.radiusMin <= d.radius <= info.radiusMax
    && 0.0 <= d.bulgeDie < 1.0
    && info.massMin <= d.mass <= info.massMax
    && info.tempMin <= d.temp <= info.tempMax
  }

  /** What MakeStarOfType sets on the body. */
  datatype Star = Star(bodyType: BodyType, radius: real, aspectRatio: real, mass: real, averageTemp: int)

  /** MakeStarOfType: radius, mass and temperature from the table; bright
      stars get an equatorial bulge 1 + 0.8 rnd^2, the others keep the
      body's aspect ratio `aspect`.  The bulging types are those of the
      corrected case list (see StarTypes.Bulges). */
  function MakeStarOfType(t: BodyType, aspect: real, d: StarDraws): (s: Star)
    requires IsStar(t) && ValidStarDraws(t, d)
    ensures s.bodyType == t
    ensures var info := StarTypes.Info(t);
            && info.radiusMin as real / 100.0 <= s.radius <= info.radiusMax as real / 100.0
            && info.massMin as real / 100.0 <= s.mass <= info.massMax as real / 100.0
            && info.tempMin <= s.averageTemp <= info.tempMax
    ensures StarTypes.Bulges(t) ==> 1.0 <= s.aspectRatio < 1.8
    ensures !StarTypes.Bulges(t) ==> s.aspectRatio == aspect
  {
    var ratio := if StarTypes.Bulges(t) then
      BelowScaled(d.bulgeDie, d.bulgeDie);
      1.0 + 0.8 * d.bulgeDie * d.bulgeDie
    else aspect;
    Star(t, d.radius as real / 100.0, ratio, d.mass as real / 100.0, d.temp)
  }

  /** MakeStarOfTypeLighterThan: up to 16 stars of the type are made, and
      the first one no heavier than `maxMass` is kept; if none is, the
      16th stays.  Each attempt overwrites the whole star, so the result
      is one attempt's star. */
  const MAX_TRIES: nat := 16

  method MakeStarOfTypeLighterThan(t: BodyType, maxMass: real, aspect: real, attempts: seq<StarDraws>)
    returns (s: Star, used: nat)
    requires IsStar(t) && |attempts| >= MAX_TRIES
    requires forall i :: 0 <= i < |attempts| ==> ValidStarDraws(t, attempts[i])
    ensures 1 <= used <= MAX_TRIES
    ensures s == MakeStarOfType(t, aspect, attempts[used - 1])
    ensures forall i :: 0 <= i < used - 1 ==> MakeStarOfType(t, aspect, attempts[i]).mass > maxMass
    ensures used < MAX_TRIES ==> s.mass <= maxMass
  {
    used := 1;
    s := MakeStarOfType(t, aspect, attempts[0]);
    while s.mass > maxMass && used < MAX_TRIES
      invariant 1 <= used <= MAX_TRIES
      invariant s == MakeStarOfType(t, aspect, attempts[used - 1])
      invariant forall i :: 0 <= i < used - 1 ==> MakeStarOfType(t, aspect, attempts[i]).mass > maxMass
      decreases MAX_TRIES - used
    {
      used := used + 1;
      s := MakeStarOfType(t, aspect, attempts[used - 1]);
    }
  }

  /** The companion is lighter than the limit whenever any of the 16
      attempts was. */
  lemma LighterWhenPossible(t: BodyType, maxMass: real, aspect: real, attempts: seq<StarDraws>,
                            s: Star, used: nat, k: nat)
    requires IsStar(t) && |attempts| >= MAX_TRIES
    requires forall i :: 0 <= i < |attempts| ==> ValidStarDraws(t, attempts[i])
    requires 1 <= used <= MAX_TRIES && s == MakeStarOfType(t, aspect, attempts[used - 1])
    requires forall i :: 0 <= i < used - 1 ==> MakeStarOfType(t, aspect, attempts[i]).mass > maxMass
    requires used < MAX_TRIES ==> s.mass <= maxMass
    requires k < MAX_TRIES && MakeStarOfType(t, aspect, attempts[k]).mass <= maxMass
    ensures s.mass <= maxMass && used - 1 <= k
  {
  }

  // ---------------------------------------------------------------- binary pairs

  /** One round of the semi-major-axis search: Int32(3) picks the range and
      the second draw the value in hundredths of an AU. */
  datatype SmaDraw = SmaDraw(choice: int, value: int)

  predicate ValidSmaDraw(d: SmaDraw) {
    && 0 <= d.choice < 3
    && (d.choice == 2 ==> 100 <= d.value <= 10000)
    && (d.choice == 1 ==> 10 <= d.value <= 1000)
    && (d.choice == 0 ==> 1 <= d.value <= 100)
  }

  function Pow2(n: nat): (r: nat)
    ensures r >= 1
  {
    if n == 0 then 1 else 2 * Pow2(n - 1)
  }

  /** The semi-major axis of round i: the drawn value times 2^i. */
  function SmaOf(d: SmaDraw, round: nat): real {
    d.value as real / 100.0 * Pow2(round) as real
  }

  /** The periapsis distance a - e a that the search compares with
      minDist. */
  function Periapsis(sma: real, ecc: real): real { sma - ecc * sma }

  predicate WideEnough(sma: real, ecc: real, minDist: real) { Periapsis(sma, ecc) >= minDist }

  /** The do-while of MakeBinaryPair.  Some((sma, rounds)) when a round was
      wide enough; None when the draws ran out first. */
  method SearchSma(ecc: real, minDist: real, draws: seq<SmaDraw>) returns (r: Option<(real, nat)>)
    requires forall i :: 0 <= i < |draws| ==> ValidSmaDraw(draws[i])
    ensures r.Some? ==> && 1 <= r.value.1 <= |draws|
                        && r.value.0 == SmaOf(draws[r.value.1 - 1], r.value.1 - 1)
                        && WideEnough(r.value.0, ecc, minDist)
    ensures r.Some? ==> forall i :: 0 <= i < r.value.1 - 1 ==> !WideEnough(SmaOf(draws[i], i), ecc, minDist)
    ensures r.None? ==> forall i :: 0 <= i < |draws| ==> !WideEnough(SmaOf(draws[i], i), ecc, minDist)
  {
    var i := 0;
    var mul: nat := 1;
    while i < |draws|
      invariant 0 <= i <= |draws|
      invariant mul == Pow2(i)
      invariant forall j :: 0 <= j < i ==> !WideEnough(SmaOf(draws[j], j), ecc, minDist)
    {
      var sma := draws[i].value as real / 100.0 * mul as real;
      mul := mul * 2;
      if Periapsis(sma, ecc) >= minDist {
        return Some((sma, i + 1));
      }
      i := i + 1;
    }
    return None;
  }

  /** Every round's axis is at least 0.01 AU times 2^round. */
  lemma SmaLowerBound(d: SmaDraw, round: nat)
    requires ValidSmaDraw(d)
    ensures SmaOf(d, round) >= 0.01 * Pow2(round) as real
  {
    ScaleMonotone(Pow2(round) as real, 0.01, d.value as real / 100.0);
  }

  /** The search ends: once 0.01 * 2^n * (1 - e) reaches minDist, round n
      is wide enough whatever was drawn, so n + 1 rounds suffice. */
  lemma SearchEndsBy(ecc: real, minDist: real, draws: seq<SmaDraw>, n: nat)
    requires 0.0 <= ecc < 1.0 && n < |draws|
    requires forall i :: 0 <= i < |draws| ==> ValidSmaDraw(draws[i])
    requires 0.01 * Pow2(n) as real * (1.0 - ecc) >= minDist
    ensures WideEnough(SmaOf(draws[n], n), ecc, minDist)
  {
    var sma := SmaOf(draws[n], n);
    SmaLowerBound(draws[n], n);
    assert Periapsis(sma, ecc) == sma * (1.0 - ecc);
    var low := 0.01 * Pow2(n) as real;
    ScaleMonotone(1.0 - ecc, low, sma);
    assert (1.0 - ecc) * low == low * (1.0 - ecc);
    assert (1.0 - ecc) * sma == sma * (1.0 - ecc);
    assert low * (1.0 - ecc) >= minDist;
    assert sma * (1.0 - ecc) >= minDist;
    assert Periapsis(sma, ecc) >= minDist;
  }

  /** The fixed-point pi used for phases. */
  const FIXED_PI: real := 103993.0 / 33102.0

  /** The orbit a binary pair shares. */
  datatype PairOrbit = PairOrbit(
    ecc: real, sma: real,
    a0: real, a1: real,          // each star's share of the axis: the other's mass fraction
    orbMin: real, orbMax: real,  // the same for both stars
    phaseA: real, phaseB: real)

  /** Wrap a phase above 2 pi down by one turn. */
  function WrapHigh(p: real): real { if p > 2.0 * FIXED_PI then p - 2.0 * FIXED_PI else p }

  /** The orbit set up once the axis is known: shares by mass, the phase of
      b moved half a turn and both phases wrapped, and periapsis and
      apoapsis distances. */
  function PairFromSma(ma: real, mb: real, ecc: real, sma: real, phaseA: real, phaseB: real): (o: PairOrbit)
    requires ma + mb != 0.0
    ensures o.ecc == ecc && o.sma == sma
    ensures o.a0 + o.a1 == 1.0
    ensures o.orbMin == Periapsis(sma, ecc) && o.orbMin + o.orbMax == 2.0 * sma
    ensures 0.0 <= ecc && 0.0 <= sma ==> o.orbMin <= o.orbMax
  {
    var m := ma + mb;
    var a0 := mb / m;
    var a1 := ma / m;
    assert a0 + a1 == (ma + mb) / m;
    var b1 := WrapHigh(phaseB + FIXED_PI);
    var a2 := WrapHigh(phaseA);
    var a3 := if a2 < 0.0 then a2 + 2.0 * FIXED_PI else a2;
    var orbMin := sma - ecc * sma;
    assert 0.0 <= ecc && 0.0 <= sma ==> ecc * sma >= 0.0 by {
      if 0.0 <= ecc && 0.0 <= sma { ScaleMonotone(sma, 0.0, ecc); }
    }
    PairOrbit(ecc, sma, a0, a1, orbMin, 2.0 * sma - orbMin, a3, b1)
  }

  /** The barycentre balances: each star's distance from it times its mass
      is the same. */
  lemma BarycentreBalances(ma: real, mb: real, ecc: real, sma: real, phaseA: real, phaseB: real)
    requires ma > 0.0 && mb > 0.0
    ensures var o := PairFromSma(ma, mb, ecc, sma, phaseA, phaseB);
            ma * (sma * o.a0) == mb * (sma * o.a1)
  {
    var m := ma + mb;
    assert ma * (mb / m) == (ma * mb) / m;
    assert mb * (ma / m) == (ma * mb) / m;
  }

  /** The wrapped phases are in [0, 2 pi] for a in [-2 pi, 4 pi] and b in
      [-pi, 3 pi], and b moves by half a turn modulo a whole turn. */
  lemma PhasesWrapped(ma: real, mb: real, ecc: real, sma: real, phaseA: real, phaseB: real)
    requires ma + mb != 0.0
    requires -2.0 * FIXED_PI <= phaseA <= 4.0 * FIXED_PI
    requires -FIXED_PI <= phaseB <= 3.0 * FIXED_PI
    ensures var o := PairFromSma(ma, mb, ecc, sma, phaseA, phaseB);
            && 0.0 <= o.phaseA <= 2.0 * FIXED_PI
            && o.phaseB <= 2.0 * FIXED_PI
            && (o.phaseB == phaseB + FIXED_PI || o.phaseB == phaseB - FIXED_PI)
            && (phaseB >= -FIXED_PI ==> o.phaseB >= 0.0)
  {
  }

  /** Two stars starting in phase end up half a turn apart. */
  lemma PairStartsOpposite(ma: real, mb: real, ecc: real, sma: real, phase: real)
    requires ma + mb != 0.0
    requires 0.0 <= phase <= 2.0 * FIXED_PI
    ensures var o := PairFromSma(ma, mb, ecc, sma, phase, phase);
            o.phaseB - o.phaseA == FIXED_PI || o.phaseA - o.phaseB == FIXED_PI
  {
  }

  /** MakeBinaryPair: draw the eccentricity (NFixed(3), in [0, 1)), search
      for a wide enough axis, and set up the shared orbit.  None when the
      draws run out before the search ends. */
  method MakeBinaryPair(ma: real, mb: real, minDist: real, ecc: real, draws: seq<SmaDraw>,
                        phaseA: real, phaseB: real) returns (r: Option<PairOrbit>)
    requires ma + mb != 0.0 && 0.0 <= ecc < 1.0
    requires forall i :: 0 <= i < |draws| ==> ValidSmaDraw(draws[i])
    ensures r.Some? ==> && r.value.orbMin >= minDist
                        && r.value.orbMin <= r.value.orbMax
                        && r.value.orbMin + r.value.orbMax == 2.0 * r.value.sma
                        && r.value.a0 + r.value.a1 == 1.0
    ensures r.None? ==> forall i :: 0 <= i < |draws| ==> !WideEnough(SmaOf(draws[i], i), ecc, minDist)
  {
    var found := SearchSma(ecc, minDist, draws);
    if found.None? {
      return None;
    }
    var sma := found.value.0;
    assert sma >= 0.0 by {
      var k := found.value.1 - 1;
      SmaLowerBound(draws[k], k);
    }
    return Some(PairFromSma(ma, mb, ecc, sma, phaseA, phaseB));
  }
}

=== FILE: star_types.dfy ===
/** The generator's per-star-type tables: the metallicity a star type passes
    on to its planets, and the mass, radius and temperature ranges a new
    star of each type is drawn from. */
module StarTypes {
  import opened SystemBodyModel

  /** starMetallicities, indexed by body type (gravpoint .. supermassive
      black hole). */
  const STAR_METALLICITIES: seq<real> := [
    1.0,                                   // gravpoint
    0.9, 0.5,                              // brown dwarf, white dwarf
    0.7, 0.6, 0.5, 0.4, 0.3, 0.2, 0.1,     // M K G F A B O
    0.8, 0.65, 0.55, 0.4, 0.3, 0.2, 0.1,   // giants
    0.9, 0.7, 0.6, 0.4, 0.3, 0.2, 0.1,     // super giants
    1.0, 0.7, 0.6, 0.4, 0.3, 0.2, 0.1,     // hyper giants
    1.0, 0.8, 0.6,                         // M, B, O Wolf-Rayet
    1.0, 1.0, 1.0]                         // stellar, intermediate, supermassive black holes

  /** starTypeInfo: mass and radius in hundredths of solar units, and the
      surface temperature in kelvin, each as an inclusive range. */
  datatype StarTypeInfo = StarTypeInfo(
    massMin: int, massMax: int,
    radiusMin: int, radiusMax: int,
    tempMin: int, tempMax: int)

  const STAR_TYPE_INFO: seq<StarTypeInfo> := [
    StarTypeInfo(0, 0, 0, 0, 0, 0),                              // gravpoint
    StarTypeInfo(2, 8, 10, 30, 1000, 2000),                      // brown dwarf
    StarTypeInfo(20, 100, 1, 2, 4000, 40000),                    // white dwarf
    StarTypeInfo(10, 47, 30, 60, 2000, 3500),                    // M
    StarTypeInfo(50, 78, 60, 100, 3500, 5000),                   // K
    StarTypeInfo(80, 110, 80, 120, 5000, 6000),                  // G
    StarTypeInfo(115, 170, 110, 150, 6000, 7500),                // F
    StarTypeInfo(180, 320, 120, 220, 7500, 10000),               // A
    StarTypeInfo(200, 300, 120, 290, 10000, 30000),              // B
    StarTypeInfo(300, 400, 200, 310, 30000, 60000),              // O
    StarTypeInfo(60, 357, 2000, 5000, 2500, 3500),               // M giant
    StarTypeInfo(125, 500, 1500, 3000, 3500, 5000),              // K giant
    StarTypeInfo(200, 800, 1000, 2000, 5000, 6000),              // G giant
    StarTypeInfo(250, 900, 800, 1500, 6000, 7500),               // F giant
    StarTypeInfo(400, 1000, 600, 1000, 7500, 10000),             // A giant
    StarTypeInfo(500, 1000, 600, 1000, 10000, 30000),            // B giant
    StarTypeInfo(600, 1200, 600, 1000, 30000, 60000),            // O giant
    StarTypeInfo(1050, 5000, 7000, 15000, 2500, 3500),           // M super giant
    StarTypeInfo(1100, 5000, 5000, 9000, 3500, 5000),            // K super giant
    StarTypeInfo(1200, 5000, 4000, 8000, 5000, 6000),            // G super giant
    StarTypeInfo(1500, 6000, 3500, 7000, 6000, 7500),            // F super giant
    StarTypeInfo(2000, 8000, 3000, 6000, 7500, 10000),           // A super giant
    StarTypeInfo(3000, 9000, 2500, 5000, 10000, 30000),          // B super giant
    StarTypeInfo(5000, 10000, 2000, 4000, 30000, 60000),         // O super giant
    StarTypeInfo(5000, 15000, 20000, 40000, 2500, 3500),         // M hyper giant
    StarTypeInfo(5000, 17000, 17000, 25000, 3500, 5000),         // K hyper giant
    StarTypeInfo(5000, 18000, 14000, 20000, 5000, 6000),         // G hyper giant
    StarTypeInfo(5000, 19000, 12000, 17500, 6000, 7500),         // F hyper giant
    StarTypeInfo(5000, 20000, 10000, 15000, 7500, 10000),        // A hyper giant
    StarTypeInfo(5000, 23000, 6000, 10000, 10000, 30000),        // B hyper giant
    StarTypeInfo(10000, 30000, 4000, 7000, 30000, 60000),        // O hyper giant
    StarTypeInfo(2000, 5000, 2500, 5000, 25000, 35000),          // M Wolf-Rayet
    StarTypeInfo(2000, 7500, 2500, 5000, 35000, 45000),          // B Wolf-Rayet
    StarTypeInfo(2000, 10000, 2500, 5000, 45000, 60000),         // O Wolf-Rayet
    StarTypeInfo(20, 2000, 0, 0, 10, 24),                        // stellar black hole
    StarTypeInfo(900000, 1000000, 100, 500, 1, 10),              // intermediate black hole
    StarTypeInfo(2000000, 5000000, 10000, 20000, 10, 24)]        // supermassive black hole

  /** A type with an entry in both tables: a gravpoint or a star. */
  predicate Tabled(t: BodyType) { t <= TYPE_STAR_MAX }

  function Info(t: BodyType): StarTypeInfo
    requires Tabled(t)
  {
    STAR_TYPE_INFO[t]
  }

  function Metallicity(t: BodyType): real
    requires Tabled(t)
  {
    STAR_METALLICITIES[t]
  }

  predicate OrderedInfo(i: StarTypeInfo) {
    i.massMin <= i.massMax && 0 <= i.radiusMin <= i.radiusMax && i.tempMin <= i.tempMax
  }

  /** Both tables cover every star type, every range is ordered, and every
      metallicity is a fraction in (0, 1]. */
  lemma MetallicityFraction(t: BodyType)
    requires Tabled(t)
    ensures 0.0 < Metallicity(t) <= 1.0
  {
    TablesWellFormed(t);
  }

  lemma TablesWellFormed(t: BodyType)
    requires Tabled(t)
    ensures |STAR_TYPE_INFO| == |STAR_METALLICITIES| == TYPE_STAR_MAX + 1
    ensures OrderedInfo(Info(t))
    ensures 0.0 < Metallicity(t) <= 1.0
  {
  }

  /** The spectral letter of a star type: 'M', 'K', 'G', 'F', 'A', 'B' or
      'O' for the main sequence, giants, super giants, hyper giants and
      Wolf-Rayet stars, and ' ' for everything else. */
  function SpectralClass(t: BodyType): char {
    if TYPE_STAR_M <= t <= TYPE_STAR_O_HYPER_GIANT then "MKGFABO"[(t - TYPE_STAR_M) % 7]
    else if t == TYPE_STAR_M_WF then 'M'
    else if t == TYPE_STAR_B_WF then 'B'
    else if t == TYPE_STAR_O_WF then 'O'
    else ' '
  }

  /** The case labels of MakeStarOfType's aspect-ratio switch, as written:
      the B hyper giant is not among them. */
  predicate BulgesAsWritten(t: BodyType) {
    t in {TYPE_STAR_F, TYPE_STAR_F_GIANT, TYPE_STAR_F_HYPER_GIANT, TYPE_STAR_F_SUPER_GIANT,
          TYPE_STAR_A, TYPE_STAR_A_GIANT, TYPE_STAR_A_HYPER_GIANT, TYPE_STAR_A_SUPER_GIANT,
          TYPE_STAR_B, TYPE_STAR_B_GIANT, TYPE_STAR_B_SUPER_GIANT, TYPE_STAR_B_WF,
          TYPE_STAR_O, TYPE_STAR_O_GIANT, TYPE_STAR_O_HYPER_GIANT, TYPE_STAR_O_SUPER_GIANT,
          TYPE_STAR_O_WF}
  }

  /** The types the switch's comment describes: every bright star, of
      spectral class F, A, B or O, in every luminosity class. */
  predicate Bulges(t: BodyType) {
    SpectralClass(t) in {'F', 'A', 'B', 'O'}
  }

  /** As written, one bright type is left with aspect ratio 1: the B hyper
      giant. */
  lemma BHyperGiantMissedAsWritten()
    ensures SpectralClass(TYPE_STAR_B_HYPER_GIANT) == 'B'
    ensures !BulgesAsWritten(TYPE_STAR_B_HYPER_GIANT) && Bulges(TYPE_STAR_B_HYPER_GIANT)
  {
  }

  /** That is the only difference: the case labels agree with "class F, A,
      B or O" on every other type. */
  lemma BulgesDiffersOnlyAtBHyperGiant(t: BodyType)
    requires t != TYPE_STAR_B_HYPER_GIANT
    ensures Bulges(t) <==> BulgesAsWritten(t)
  {
  }
}

=== FILE: stations.dfy ===
/** PopulateAddStations: the orbital and surface starports a populated
    body receives, their orbit shells and slots, and the unique names
    they are given. */
module Stations {
  import opened Support
  import opened SystemBodyModel

  /** Bodies below this population get no starports at all. */
  const MIN_POPULATION: real := 1.0 / 1000.0
  const MAX_ORBIT_SHELLS: nat := 3
  /** The surface loop's budget. */
  const MAX_SURFACE_STATIONS: nat := 6
  /** Orbits shorter than this many hours are pushed outwards. */
  const MIN_HOURS: real := 3.0

  // ---------------------------------------------------------------- names

  /** check_unique_station_name: no registered station already has the
      name. */
  method CheckUniqueStationName(name: string, stations: seq<string>) returns (ret: bool)
    ensures ret <==> name !in stations
  {
    ret := true;
    var i := 0;
    while i < |stations|
      invariant 0 <= i <= |stations|
      invariant ret <==> name !in stations[..i]
      invariant ret
    {
      if stations[i] == name {
        ret := false;
        assert stations[..i + 1][i] == name;
        break;
      }
      assert stations[..i + 1] == stations[..i] + [stations[i]];
      i := i + 1;
    }
    assert ret ==> stations[..i] == stations;
  }

  /** gen_unique_station_name: ask the name generator (its answers are the
      stream `candidates`, read from `from`) until a name is not taken.
      None when the stream runs out first. */
  method GenUniqueStationName(stations: seq<string>, candidates: seq<string>, from: nat)
    returns (r: Option<string>, next: nat)
    requires from <= |candidates|
    ensures from <= next <= |candidates|
    ensures r.Some? ==> next > from && r.value == candidates[next - 1] && r.value !in stations
    ensures forall k :: from <= k < (if r.Some? then next - 1 else next) ==> candidates[k] in stations
    ensures r.None? ==> next == |candidates|
  {
    next := from;
    while next < |candidates|
      invariant from <= next <= |candidates|
      invariant forall k :: from <= k < next ==> candidates[k] in stations
    {
      var name := candidates[next];
      next := next + 1;
      var unique := CheckUniqueStationName(name, stations);
      if unique {
        return Some(name), next;
      }
    }
    return None, next;
  }

  predicate Distinct(s: seq<string>) {
    forall i, j :: 0 <= i < j < |s| ==> s[i] != s[j]
  }

  lemma AppendFreshDistinct(s: seq<string>, name: string)
    requires Distinct(s) && name !in s
    ensures Distinct(s + [name])
  {
  }

  // ---------------------------------------------------------------- counts

  /** The sum of a sequence of draws. */
  function Sum(s: seq<real>): real {
    if |s| == 0 then 0.0 else Sum(s[..|s| - 1]) + s[|s| - 1]
  }

  predicate Fractions(s: seq<real>) {
    forall i :: 0 <= i < |s| ==> 0.0 <= s[i] < 1.0
  }

  lemma {:induction false} SumBounds(s: seq<real>)
    requires Fractions(s)
    ensures 0.0 <= Sum(s)
    ensures |s| > 0 ==> Sum(s) < |s| as real
  {
    if |s| > 0 {
      SumBounds(s[..|s| - 1]);
    }
  }

  lemma SumStep(s: seq<real>, k: nat)
    requires k < |s|
    ensures Sum(s[..k + 1]) == Sum(s[..k]) + s[k]
  {
    assert s[..k + 1][..k] == s[..k];
  }

  /** The orbital count: while the remaining population is not negative, one
      more station, and one more Fixed() off the population.  None when the
      draws run out first. */
  method CountOrbitalStations(pop: real, dice: seq<real>) returns (r: Option<nat>)
    ensures r.Some? ==> && r.value <= |dice|
                        && (forall k :: 0 <= k < r.value ==> pop - Sum(dice[..k]) >= 0.0)
                        && pop - Sum(dice[..r.value]) < 0.0
    ensures r.None? ==> forall k :: 0 <= k <= |dice| ==> pop - Sum(dice[..k]) >= 0.0
  {
    var n := 0;
    var p := pop;
    while p >= 0.0
      invariant 0 <= n <= |dice|
      invariant p == pop - Sum(dice[..n])
      invariant forall k :: 0 <= k < n ==> pop - Sum(dice[..k]) >= 0.0
      decreases |dice| - n
    {
      if n == |dice| {
        return None;
      }
      SumStep(dice, n);
      p := p - dice[n];
      n := n + 1;
    }
    return Some(n);
  }

  /** The count exceeds the population it was drawn against: each draw
      takes off less than one. */
  lemma OrbitalCountExceedsPopulation(pop: real, dice: seq<real>, n: nat)
    requires Fractions(dice) && n <= |dice|
    requires pop - Sum(dice[..n]) < 0.0
    ensures pop < n as real
  {
    assert Fractions(dice[..n]);
    SumBounds(dice[..n]);
  }

  /** The surface count: at most six rounds, each taking one Fixed() off the
      population and stopping as soon as it goes negative. */
  method CountSurfaceStations(pop: real, dice: seq<real>) returns (m: nat)
    requires |dice| >= MAX_SURFACE_STATIONS
    ensures m <= MAX_SURFACE_STATIONS
    ensures forall k :: 1 <= k <= m ==> pop - Sum(dice[..k]) >= 0.0
    ensures m < MAX_SURFACE_STATIONS ==> pop - Sum(dice[..m + 1]) < 0.0
  {
    m := 0;
    var max := MAX_SURFACE_STATIONS;
    var p := pop;
    while max > 0
      invariant 0 <= max <= MAX_SURFACE_STATIONS && m == MAX_SURFACE_STATIONS - max
      invariant p == pop - Sum(dice[..m])
      invariant forall k :: 1 <= k <= m ==> pop - Sum(dice[..k]) >= 0.0
    {
      max := max - 1;
      SumStep(dice, m);
      p := p - dice[m];
      if p < 0.0 {
        return;
      }
      m := m + 1;
    }
  }

  /** A body whose population (plus its bonus) is at least six fills the
      whole surface budget. */
  lemma PopulousWorldFillsSurface(pop: real, dice: seq<real>, m: nat)
    requires |dice| >= MAX_SURFACE_STATIONS && Fractions(dice) && pop >= 6.0
    requires m <= MAX_SURFACE_STATIONS
    requires m < MAX_SURFACE_STATIONS ==> pop - Sum(dice[..m + 1]) < 0.0
    ensures m == MAX_SURFACE_STATIONS
  {
    if m < MAX_SURFACE_STATIONS {
      assert Fractions(dice[..m + 1]);
      SumBounds(dice[..m + 1]);
    }
  }

  // ---------------------------------------------------------------- orbits

  /** The ceiling of station orbits: a quarter of the Hill radius, and below
      half the first child's periapsis. */
  function OrbitCeiling(hillRadius: real, firstChildOrbMin: Option<real>): (r: real)
    ensures r <= hillRadius / 4.0
    ensures firstChildOrbMin.Some? ==> r <= firstChildOrbMin.value / 2.0
    ensures r == hillRadius / 4.0 || (firstChildOrbMin.Some? && r == firstChildOrbMin.value / 2.0)
  {
    var quarter := hillRadius / 4.0;
    if firstChildOrbMin.Some? then Min(quarter, firstChildOrbMin.value / 2.0) else quarter
  }

  /** The innermost station orbit: the floor above the atmosphere, unless
      that orbit is shorter than three hours; then the three-hour orbit
      (computed from Kepler's law, given here), but never above the ceiling. */
  function InnerOrbit(orbMinS: real, orbMaxS: real, periodHours: real, orbitFromPeriod: real): (r: real)
    requires orbMinS < orbMaxS
    ensures r <= orbMaxS
    ensures periodHours >= MIN_HOURS ==> r == orbMinS
    ensures periodHours < MIN_HOURS ==> r == orbitFromPeriod || r == orbMaxS
  {
    if periodHours < MIN_HOURS then Min(orbMaxS, orbitFromPeriod) else orbMinS
  }

  /** The three shells stations are spread over: low, half way, high. */
  function Shells(inner: real, orbMaxS: real): (s: seq<real>)
    requires inner <= orbMaxS
    ensures |s| == MAX_ORBIT_SHELLS
    ensures s[0] == inner && s[2] == orbMaxS
    ensures s[0] <= s[1] <= s[2]
  {
    if inner != orbMaxS then [inner, inner + (orbMaxS - inner) * (1.0 / 2.0), orbMaxS]
    else [inner, inner, inner]
  }

  /** The special case for a single orbit changes nothing: the general
      formula gives three equal shells too. */
  lemma ShellsCollapse(inner: real)
    ensures Shells(inner, inner) == [inner, inner + (inner - inner) * (1.0 / 2.0), inner]
  {
  }

  /** Where an orbital station goes: its shell's radius, the shell index, and
      the number of whole rounds of shells completed when it is placed,
      which (times the separation angle) turns it around the parent. */
  datatype OrbitalSlot = OrbitalSlot(sma: real, shell: nat, turn: nat)

  /** The placement loop: shells are filled round-robin; the turn counter
      is bumped as the shell index wraps, before the station's plane is set. */
  method PlaceOrbitalStations(n: nat, shells: seq<real>) returns (slots: seq<OrbitalSlot>)
    requires |shells| == MAX_ORBIT_SHELLS
    ensures |slots| == n
    ensures forall i :: 0 <= i < n ==>
              slots[i] == OrbitalSlot(shells[i % MAX_ORBIT_SHELLS], i % MAX_ORBIT_SHELLS, (i + 1) / MAX_ORBIT_SHELLS)
  {
    slots := [];
    var orbitIdx := 0;
    var orbitSlt := 0;
    var i := 0;
    while i < n
      invariant 0 <= i <= n && |slots| == i
      invariant orbitIdx == i % MAX_ORBIT_SHELLS && orbitSlt == i / MAX_ORBIT_SHELLS
      invariant forall j :: 0 <= j < i ==>
                  slots[j] == OrbitalSlot(shells[j % MAX_ORBIT_SHELLS], j % MAX_ORBIT_SHELLS, (j + 1) / MAX_ORBIT_SHELLS)
    {
      var currOrbit := shells[orbitIdx];
      var shell := orbitIdx;
      orbitIdx := orbitIdx + 1;
      if orbitIdx >= MAX_ORBIT_SHELLS {
        orbitIdx := 0;
        orbitSlt := orbitSlt + 1;
      }
      slots := slots + [OrbitalSlot(currOrbit, shell, orbitSlt)];
      i := i + 1;
    }
  }

  /** Every orbital station orbits between the inner orbit and the ceiling. */
  lemma SlotsWithinShells(inner: real, orbMaxS: real, slots: seq<OrbitalSlot>, n: nat)
    requires inner <= orbMaxS && |slots| == n
    requires forall i :: 0 <= i < n ==>
               slots[i] == OrbitalSlot(Shells(inner, orbMaxS)[i % MAX_ORBIT_SHELLS], i % MAX_ORBIT_SHELLS, (i + 1) / MAX_ORBIT_SHELLS)
    ensures forall i :: 0 <= i < n ==> inner <= slots[i].sma <= orbMaxS
  {
    var s := Shells(inner, orbMaxS);
    forall i | 0 <= i < n
      ensures inner <= slots[i].sma <= orbMaxS
    {
      assert slots[i].sma == s[i % MAX_ORBIT_SHELLS];
    }
  }

  // ---------------------------------------------------------------- one body

  /** Everything PopulateAddStations reads for one body: its population,
      the orbit floor above its atmosphere, its Hill radius and first
      child's periapsis, the period of the floor orbit and the three-hour
      orbit, the Fixed() draws of both counts, and the name generator's
      answers for this body. */
  datatype BodyPlan = BodyPlan(
    population: real,
    orbMinS: real, hillRadius: real, firstChildOrbMin: Option<real>,
    periodHours: real, orbitFromPeriod: real,
    orbitalBonus: real, orbitalStart: real, orbitalDice: seq<real>,
    surfaceBonus: real, surfaceDice: seq<real>,
    names: seq<string>)

  predicate ValidPlan(p: BodyPlan) {
    && 0.0 <= p.orbitalBonus < 1.0 && 0.0 <= p.orbitalStart < 1.0 && Fractions(p.orbitalDice)
    && 0.0 <= p.surfaceBonus < 1.0 && |p.surfaceDice| >= MAX_SURFACE_STATIONS && Fractions(p.surfaceDice)
  }

  /** The stations one body receives. */
  datatype BodyStations = BodyStations(orbital: seq<OrbitalSlot>, surface: nat)

  /** Name a station: an orbital one is registered (with an empty name)
      before it is named, a surface one after. */
  method NameStation(orbital: bool, registry: seq<string>, candidates: seq<string>, from: nat)
    returns (ok: bool, reg: seq<string>, next: nat)
    requires from <= |candidates| && Distinct(registry)
    ensures from <= next <= |candidates|
    ensures ok ==> |reg| == |registry| + 1 && reg[..|registry|] == registry && Distinct(reg)
    ensures ok && orbital ==> reg[|registry|] != ""
  {
    var taken := if orbital then registry + [""] else registry;
    var r;
    r, next := GenUniqueStationName(taken, candidates, from);
    if r.None? {
      return false, registry, next;
    }
    assert r.value !in registry by {
      assert forall k :: 0 <= k < |registry| ==> registry[k] == taken[k];
    }
    AppendFreshDistinct(registry, r.value);
    ok, reg := true, registry + [r.value];
  }

  /** PopulateAddStations for one body, with `registry` the names of the
      system's stations so far.  ok is false only when a draw stream ran
      out. */
  method PopulateBody(p: BodyPlan, registry: seq<string>) returns (ok: bool, reg: seq<string>, made: BodyStations)
    requires ValidPlan(p) && Distinct(registry)
    ensures ok ==> |reg| >= |registry| && reg[..|registry|] == registry && Distinct(reg)
    ensures ok ==> |reg| == |registry| + |made.orbital| + made.surface
    ensures p.population < MIN_POPULATION ==> ok && reg == registry && made == BodyStations([], 0)
    ensures ok && p.population >= MIN_POPULATION ==> |reg| > 0
    ensures made.surface <= MAX_SURFACE_STATIONS
    ensures forall i :: 0 <= i < |made.orbital| ==> made.orbital[i].sma <= OrbitCeiling(p.hillRadius, p.firstChildOrbMin)
  {
    made := BodyStations([], 0);
    reg := registry;
    if p.population < MIN_POPULATION {
      return true, reg, made;
    }
    var orbMaxS := OrbitCeiling(p.hillRadius, p.firstChildOrbMin);
    var next := 0;
    // Stations in orbit, when there is room between the inner and outer limit.
    if p.orbMinS < orbMaxS {
      var count := CountOrbitalStations(p.population + p.orbitalBonus - p.orbitalStart, p.orbitalDice);
      if count.None? {
        return false, reg, made;
      }
      if count.value > 0 {
        var inner := InnerOrbit(p.orbMinS, orbMaxS, p.periodHours, p.orbitFromPeriod);
        var slots := PlaceOrbitalStations(count.value, Shells(inner, orbMaxS));
        SlotsWithinShells(inner, orbMaxS, slots, count.value);
        var i := 0;
        while i < |slots|
          invariant 0 <= i <= |slots| && next <= |p.names|
          invariant |reg| == |registry| + i && reg[..|registry|] == registry && Distinct(reg)
        {
          var named;
          named, reg, next := NameStation(true, reg, p.names, next);
          if !named {
            return false, reg, made;
          }
          assert reg[..|registry|] == reg[..|registry| + i][..|registry|];
          i := i + 1;
        }
        made := made.(orbital := slots);
      }
    }
    // Stations on the ground.
    var surface := CountSurfaceStations(p.population + p.surfaceBonus * 3.0, p.surfaceDice);
    var j := 0;
    while j < surface
      invariant 0 <= j <= surface && next <= |p.names|
      invariant |reg| == |registry| + |made.orbital| + j && reg[..|registry|] == registry && Distinct(reg)
    {
      var named;
      named, reg, next := NameStation(false, reg, p.names, next);
      if !named {
        return false, reg, made;
      }
      assert reg[..|registry|] == reg[..|registry| + |made.orbital| + j][..|registry|];
      j := j + 1;
    }
    made := made.(surface := surface);
    // A populated world with no station yet gets one on the ground.
    if |reg| == 0 {
      var named;
      named, reg, next := NameStation(false, reg, p.names, next);
      if !named {
        return false, reg, made;
      }
      made := made.(surface := 1);
    }
    ok := true;
  }

  // ---------------------------------------------------------------- the tree

  /** The bodies of a system, each with its plan. */
  datatype PlanTree = PlanTree(plan: BodyPlan, children: seq<PlanTree>)

  predicate ValidTree(t: PlanTree)
    decreases t
  {
    ValidPlan(t.plan) && forall i :: 0 <= i < |t.children| ==> ValidTree(t.children[i])
  }

  /** The whole pass: children first, then the body itself.  The registry
      only grows, its names stay pairwise distinct, and a populated root
      leaves at least one station. */
  method PopulateAddStations(t: PlanTree, registry: seq<string>) returns (ok: bool, reg: seq<string>)
    requires ValidTree(t) && Distinct(registry)
    ensures ok ==> |reg| >= |registry| && reg[..|registry|] == registry && Distinct(reg)
    ensures ok && t.plan.population >= MIN_POPULATION ==> |reg| > 0
    decreases t
  {
    reg := registry;
    var i := 0;
    while i < |t.children|
      invariant 0 <= i <= |t.children|
      invariant |reg| >= |registry| && reg[..|registry|] == registry && Distinct(reg)
    {
      var childOk, reg' := PopulateAddStations(t.children[i], reg);
      if !childOk {
        return false, reg;
      }
      assert reg'[..|registry|] == reg'[..|reg|][..|registry|];
      reg := reg';
      i := i + 1;
    }
    var reg2, made;
    ok, reg2, made := PopulateBody(t.plan, reg);
    if ok {
      assert reg2[..|registry|] == reg2[..|reg|][..|registry|];
    }
    reg := reg2;
  }
}

=== FILE: support.dfy ===
/** Shared vocabulary: optional values, clamping, colours, vectors, the
    abstract maths library (acos, sqrt) and decimal formatting. */
module Support {

  datatype Option<+T> = None | Some(value: T)

  /** The engine's `Clamp(v, lo, hi)` on reals. */
  function Clamp(x: real, lo: real, hi: real): (r: real)
    requires lo <= hi
    ensures lo <= r <= hi
    ensures lo <= x <= hi ==> r == x
  {
    if x < lo then lo else if x > hi then hi else x
  }

  /** The engine's `Clamp(v, lo, hi)` on ints: the template is used on
      colour channels as well as on reals, and Dafny's int and real are
      distinct types, so the integer instance is written out. */
  function ClampInt(x: int, lo: int, hi: int): (r: int)
    requires lo <= hi
    ensures lo <= r <= hi
    ensures lo <= x <= hi ==> r == x
  {
    if x < lo then lo else if x > hi then hi else x
  }

  function Max(a: real, b: real): real { if a >= b then a else b }
  function Min(a: real, b: real): real { if a <= b then a else b }
  function MinInt(a: int, b: int): int { if a <= b then a else b }

  // Monotonicity facts about real multiplication and division that the
  // solver does not find unaided.

  lemma DivMonotone(a: real, b: real, c: real)
    requires c > 0.0 && a <= b
    ensures a / c <= b / c
  {
    assert (b - a) / c >= 0.0;
    assert b / c - a / c == (b - a) / c;
  }

  lemma DivSelf(q: real)
    requires q > 0.0
    ensures q / q == 1.0
  {
  }

  lemma ScaleMonotone(k: real, a: real, b: real)
    requires k >= 0.0 && a <= b
    ensures k * a <= k * b
  {
    assert k * b - k * a == k * (b - a);
  }

  lemma MulNonNeg(a: real, b: real)
    requires a >= 0.0 && b >= 0.0
    ensures a * b >= 0.0
  {
    ScaleMonotone(a, 0.0, b);
  }

  lemma MulPositive(a: real, b: real)
    requires a > 0.0 && b > 0.0
    ensures a * b > 0.0
  {
    ScaleMonotone(a, 0.0, b);
    assert a * b != 0.0;
  }

  /** t / (c + t) is a fraction below 1. */
  lemma FractionBelowOne(t: real, c: real)
    requires t >= 0.0 && c > 0.0
    ensures 0.0 <= t / (c + t) < 1.0
  {
    var d := c + t;
    assert d / d == 1.0;
    assert (d - t) / d == d / d - t / d;
    assert c / d > 0.0;
  }

  /** ... and above 0 when t is. */
  lemma FractionPositive(t: real, c: real)
    requires t > 0.0 && c > 0.0
    ensures 0.0 < t / (c + t) < 1.0
  {
    FractionBelowOne(t, c);
    var d := c + t;
    var q := t / d;
    assert q * d == t;
  }

  /** A fraction of a fraction stays below 1, and below the first factor
      when that is positive. */
  lemma FractionProduct(a: real, b: real)
    requires 0.0 <= a <= 1.0 && 0.0 <= b < 1.0
    ensures 0.0 <= a * b < 1.0
    ensures a > 0.0 ==> a * b < a
  {
    BelowScaled(a, b);
  }

  /** Scaling by a fraction below 1 never increases a non-negative value. */
  lemma BelowScaled(k: real, f: real)
    requires k >= 0.0 && 0.0 <= f < 1.0
    ensures 0.0 <= k * f <= k
    ensures k > 0.0 ==> k * f < k
  {
    ScaleMonotone(k, 0.0, f);
    ScaleMonotone(k, f, 1.0);
    if k > 0.0 {
      assert k - k * f == k * (1.0 - f);
      MulPositive(k, 1.0 - f);
    }
  }

  lemma DivAntitone(c: real, a: real, b: real)
    requires c > 0.0 && 0.0 < a <= b
    ensures c / b <= c / a
  {
    assert c / a - c / b == c * (b - a) / (a * b);
    ScaleMonotone(c, 0.0, b - a);
  }

  lemma MulAssoc(a: real, b: real, c: real)
    ensures a * (b * c) == (a * b) * c
  {
  }

  /** 8-bit RGBA colour. */
  datatype Color = Color(r: int, g: int, b: int, a: int)

  predicate ValidColor(c: Color) {
    0 <= c.r <= 255 && 0 <= c.g <= 255 && 0 <= c.b <= 255 && 0 <= c.a <= 255
  }

  const WHITE := Color(255, 255, 255, 255)

  datatype Vec3 = Vec3(x: real, y: real, z: real)

  function Dot(u: Vec3, v: Vec3): real { u.x * v.x + u.y * v.y + u.z * v.z }
  function Sub(u: Vec3, v: Vec3): Vec3 { Vec3(u.x - v.x, u.y - v.y, u.z - v.z) }
  function Scale(u: Vec3, k: real): Vec3 { Vec3(k * u.x, k * u.y, k * u.z) }

  /** 3x3 orientation, rows. */
  datatype Mat3 = Mat3(r0: Vec3, r1: Vec3, r2: Vec3)

  /** The value of M_PI used by the source (double precision, truncated). */
  const PI: real := 3.141592653589793

  /** The transcendental functions the source calls through libm.  They are
      not computed here: a caller supplies them, and `ValidMath` states the
      range facts the proofs rely on.  With PI the truncated M_PI above,
      these are the facts of an acos whose results are rounded to M_PI's
      precision: the exact acos(x) + acos(-x) is the true pi, not PI. */
  datatype MathLib = MathLib(sqrt: real -> real, acos: real -> real)

  ghost predicate ValidMath(m: MathLib) {
    && m.sqrt(0.0) == 0.0
    && (forall x :: 0.0 <= x ==> 0.0 <= m.sqrt(x))
    && m.acos(1.0) == 0.0
    && (forall x :: -1.0 <= x <= 1.0 ==> 0.0 <= m.acos(x) <= PI)
    && (forall x :: -1.0 <= x < 1.0 ==> 0.0 < m.acos(x))
    && (forall x, y :: -1.0 <= x <= y <= 1.0 ==> m.acos(y) <= m.acos(x))
    && (forall x :: -1.0 <= x <= 1.0 ==> m.acos(x) + m.acos(-x) == PI)
  }

  function Length(m: MathLib, v: Vec3): real { m.sqrt(Dot(v, v)) }

  /** `snprintf("%d", n)` for a non-negative n. */
  function Decimal(n: nat): (s: string)
    ensures |s| >= 1
    ensures forall i :: 0 <= i < |s| ==> '0' <= s[i] <= '9'
    ensures n >= 10 ==> s[0] != '0'
  {
    if n < 10 then [DigitChar(n)] else Decimal(n / 10) + [DigitChar(n % 10)]
  }

  function DigitChar(d: nat): (c: char)
    requires d < 10
    ensures '0' <= c <= '9'
  {
    (48 + d) as char
  }

  /** Reads a string of decimal digits back into a number. */
  function DecimalValue(s: string): nat
    requires forall i :: 0 <= i < |s| ==> '0' <= s[i] <= '9'
  {
    if |s| == 0 then 0
    else 10 * DecimalValue(s[..|s| - 1]) + ((s[|s| - 1] as int) - 48)
  }

  /** Formatting then reading back gives the number: `Decimal` is injective. */
  lemma {:induction false} DecimalRoundTrip(n: nat)
    ensures DecimalValue(Decimal(n)) == n
  {
    var s := Decimal(n);
    if n >= 10 {
      DecimalRoundTrip(n / 10);
      assert s[..|s| - 1] == Decimal(n / 10);
    }
  }

  lemma DecimalInjective(m: nat, n: nat)
    ensures Decimal(m) == Decimal(n) ==> m == n
  {
    DecimalRoundTrip(m);
    DecimalRoundTrip(n);
  }
}

=== FILE: system_body.dfy ===
/** The generated body record shared by the camera and the star-system
    generator: body types, supertypes, unit conversions and simple
    predicates. */
module SystemBodyModel {
  import opened Support

  // Body types, numbered as in the source enum.
  const TYPE_GRAVPOINT: int := 0
  const TYPE_BROWN_DWARF: int := 1
  const TYPE_WHITE_DWARF: int := 2
  const TYPE_STAR_M: int := 3
  const TYPE_STAR_K: int := 4
  const TYPE_STAR_G: int := 5
  const TYPE_STAR_F: int := 6
  const TYPE_STAR_A: int := 7
  const TYPE_STAR_B: int := 8
  const TYPE_STAR_O: int := 9
  const TYPE_STAR_M_GIANT: int := 10
  const TYPE_STAR_K_GIANT: int := 11
  const TYPE_STAR_G_GIANT: int := 12
  const TYPE_STAR_F_GIANT: int := 13
  const TYPE_STAR_A_GIANT: int := 14
  const TYPE_STAR_B_GIANT: int := 15
  const TYPE_STAR_O_GIANT: int := 16
  const TYPE_STAR_M_SUPER_GIANT: int := 17
  const TYPE_STAR_K_SUPER_GIANT: int := 18
  const TYPE_STAR_G_SUPER_GIANT: int := 19
  const TYPE_STAR_F_SUPER_GIANT: int := 20
  const TYPE_STAR_A_SUPER_GIANT: int := 21
  const TYPE_STAR_B_SUPER_GIANT: int := 22
  const TYPE_STAR_O_SUPER_GIANT: int := 23
  const TYPE_STAR_M_HYPER_GIANT: int := 24
  const TYPE_STAR_K_HYPER_GIANT: int := 25
  const TYPE_STAR_G_HYPER_GIANT: int := 26
  const TYPE_STAR_F_HYPER_GIANT: int := 27
  const TYPE_STAR_A_HYPER_GIANT: int := 28
  const TYPE_STAR_B_HYPER_GIANT: int := 29
  const TYPE_STAR_O_HYPER_GIANT: int := 30
  const TYPE_STAR_M_WF: int := 31
  const TYPE_STAR_B_WF: int := 32
  const TYPE_STAR_O_WF: int := 33
  const TYPE_STAR_S_BH: int := 34
  const TYPE_STAR_IM_BH: int := 35
  const TYPE_STAR_SM_BH: int := 36
  const TYPE_PLANET_GAS_GIANT: int := 37
  const TYPE_PLANET_ASTEROID: int := 38
  const TYPE_PLANET_TERRESTRIAL: int := 39
  const TYPE_STARPORT_ORBITAL: int := 40
  const TYPE_STARPORT_SURFACE: int := 41

  const TYPE_MIN: int := TYPE_BROWN_DWARF
  const TYPE_MAX: int := TYPE_STARPORT_SURFACE
  const TYPE_STAR_MIN: int := TYPE_BROWN_DWARF
  const TYPE_STAR_MAX: int := TYPE_STAR_SM_BH

  type BodyType = t: int | TYPE_GRAVPOINT <= t <= TYPE_MAX

  predicate IsStarType(t: BodyType) { TYPE_STAR_MIN <= t <= TYPE_STAR_MAX }

  // Supertypes; the source compares them with `<=`, so they stay numbers.
  const SUPERTYPE_NONE: int := 0
  const SUPERTYPE_STAR: int := 1
  const SUPERTYPE_ROCKY_PLANET: int := 2
  const SUPERTYPE_GAS_GIANT: int := 3
  const SUPERTYPE_STARPORT: int := 4

  type BodySuperType = s: int | SUPERTYPE_NONE <= s <= SUPERTYPE_STARPORT

  // Physical constants (SI units) from gameconsts.h, which is not part of
  // this model.
  const SOL_RADIUS: real := 695500000.0
  const EARTH_RADIUS: real := 6378135.0
  const SOL_MASS: real := 1988920000000000000000000000000.0
  const EARTH_MASS: real := 5974200000000000000000000.0
  const SUN_MASS_TO_EARTH_MASS: real := 332998.0

  datatype RingStyle = RingStyle(minRadius: real, maxRadius: real, baseColor: Color)

  const NO_RINGS := RingStyle(0.0, 0.0, WHITE)

  /** A generated body.  `superType` and `isPlanet` stand for
      `GetSuperType()` and `IsPlanet()`, whose definitions live in
      SystemBody.cpp, which is not part of this model. */
  datatype SystemBody = SystemBody(
    name: string,
    bodyType: BodyType,
    superType: BodySuperType,
    isPlanet: bool,
    radius: real,            // earth radii for planets, sol radii for stars
    aspectRatio: real,       // equatorial over polar radius
    mass: real,              // earth masses for planets, sol masses for stars
    rotationPeriod: real,    // days
    rotationalPhaseAtStart: real,
    orbMin: real,
    orbMax: real,
    population: real,
    rings: RingStyle,
    children: seq<SystemBody>)

  /** Stars and gravpoints measure in solar units, everything else in earth units. */
  predicate SolarUnits(b: SystemBody) { b.superType <= SUPERTYPE_STAR }

  /** Polar radius in metres. */
  function GetRadius(b: SystemBody): real
    requires !SolarUnits(b) || b.aspectRatio != 0.0
  {
    if SolarUnits(b) then (b.radius / b.aspectRatio) * SOL_RADIUS
    else b.radius * EARTH_RADIUS
  }

  /** Equatorial radius in metres. */
  function GetEquatorialRadius(b: SystemBody): real {
    if SolarUnits(b) then b.radius * SOL_RADIUS else b.radius * EARTH_RADIUS
  }

  function GetMass(b: SystemBody): real {
    if SolarUnits(b) then b.mass * SOL_MASS else b.mass * EARTH_MASS
  }

  function GetMassInEarths(b: SystemBody): real {
    if SolarUnits(b) then b.mass * 332998.0 else b.mass
  }

  predicate IsRotating(b: SystemBody) { b.rotationPeriod != 0.0 }

  /** Rotation period in seconds. */
  function GetRotationPeriod(b: SystemBody): real { b.rotationPeriod * 60.0 * 60.0 * 24.0 }

  predicate HasRotationPhase(b: SystemBody) { b.rotationalPhaseAtStart != 0.0 }

  predicate HasRings(b: SystemBody) { b.rings.maxRadius != 0.0 }

  predicate IsJumpable(b: SystemBody) { b.superType == SUPERTYPE_STAR }

  predicate IsMoon(b: SystemBody) { b.superType == SUPERTYPE_ROCKY_PLANET && !b.isPlanet }

  predicate HasChildren(b: SystemBody) { |b.children| != 0 }

  /** The child count, cast to a 32-bit unsigned integer. */
  function GetNumChildren(b: SystemBody): nat { |b.children| % 0x1_0000_0000 }

  /** The enum layout: stars occupy a contiguous block starting at the
      brown dwarf and ending at the supermassive black hole, followed by the
      planets and the starports, which end the enum. */
  lemma TypeEnumLayout(t: BodyType)
    ensures IsStarType(t) <==> TYPE_BROWN_DWARF <= t <= TYPE_STAR_SM_BH
    ensures IsStarType(t) ==> t != TYPE_GRAVPOINT && t < TYPE_PLANET_GAS_GIANT
    ensures TYPE_STAR_MAX + 1 == TYPE_PLANET_GAS_GIANT && TYPE_MAX == 41
    ensures t <= TYPE_STAR_MAX <==> (t == TYPE_GRAVPOINT || IsStarType(t))
  {
  }

  /** For stars and gravpoints the polar radius never exceeds the equatorial
      one once the aspect ratio is at least one; for other bodies the two
      radii are the same. */
  lemma RadiusNotAboveEquatorial(b: SystemBody)
    requires b.radius >= 0.0 && b.aspectRatio >= 1.0
    ensures GetRadius(b) <= GetEquatorialRadius(b)
    ensures !SolarUnits(b) ==> GetRadius(b) == GetEquatorialRadius(b)
    ensures SolarUnits(b) && b.aspectRatio == 1.0 ==> GetRadius(b) == GetEquatorialRadius(b)
  {
    if SolarUnits(b) {
      assert b.radius / b.aspectRatio <= b.radius by {
        assert (b.radius / b.aspectRatio) * b.aspectRatio == b.radius;
      }
    }
  }

  /** The two mass views.  Off-star, the SI mass is the earth-mass figure
      times EARTH_MASS.  On stars they do not quite agree: the factor 332998
      of GetMassInEarths is not SOL_MASS / EARTH_MASS (about 332919), so a
      star's earth-mass figure read back in kg overstates GetMass by a
      factor of about 1.00024.  Both views agree on whether the mass is 0. */
  lemma MassViews(b: SystemBody)
    ensures !SolarUnits(b) ==> GetMass(b) == GetMassInEarths(b) * EARTH_MASS
    ensures SolarUnits(b) && b.mass > 0.0 ==> GetMass(b) < GetMassInEarths(b) * EARTH_MASS < GetMass(b) * 1.0003
    ensures GetMass(b) == 0.0 <==> GetMassInEarths(b) == 0.0
  {
    if SolarUnits(b) {
      assert GetMassInEarths(b) * EARTH_MASS == b.mass * (SUN_MASS_TO_EARTH_MASS * EARTH_MASS);
    }
  }

  /** A body rotates exactly when its period in seconds is non-zero. */
  lemma RotationViewsAgree(b: SystemBody)
    ensures IsRotating(b) <==> GetRotationPeriod(b) != 0.0
  {
  }

  /** Child predicates agree while the count fits in 32 bits. */
  lemma ChildCountViewsAgree(b: SystemBody)
    requires |b.children| < 0x1_0000_0000
    ensures HasChildren(b) <==> GetNumChildren(b) > 0
    ensures GetNumChildren(b) == |b.children|
  {
  }

  /** A moon is never a hyperjump target and a jumpable body is never a moon. */
  lemma MoonsAreNotJumpable(b: SystemBody)
    ensures IsMoon(b) ==> !IsJumpable(b)
    ensures IsJumpable(b) ==> SolarUnits(b)
  {
  }
}
